=== FILE: README.md ===
# mobjecommerce backend: resolver core in Dafny

This project models the decision logic of the GraphQL back end of a small
shop: products, orders, users, reviews and wish lists, plus an admin dashboard
of analytics queries. The source tree carries two revisions of the resolvers,
and both are modelled:

- `schema/` reads a bearer token from the request and signs one four-hour token
  with `JWTSECRET`;
- `gqlSchema/` issues an access/refresh token pair in http-only cookies and keeps
  one refresh token per user record.

Most resolvers exist in both revisions. There they are one Dafny function
taking a `Revision` (`Header` or `Cookie`); the only differences are the faults
reported and the secret that verifies the token.

The database is five immutable sequences (`Store.Db`). `findOne` is the first
match, `find` keeps every match in store order, and updates and deletes act on
the first matching document. JWT signing and verification, bcrypt, Google
ID-token verification and the image upload are function-typed fields of
`Services.Services`. The clock is an explicit parameter.

Faults (`Errors.Fault`) come in these kinds:

- `Coded(code)`: a `GraphQLError` whose `extensions.code` is the code.
- `Thrown(message)`: a plain `Error`. `Named(code)` is a `Thrown` whose message is the code's name.
- `Invalid(map)`: VALIDATION_ERROR with its field map.
- `Serialized(map)`: an `Error` whose message is the JSON of the map.
- `Crash`: an exception the resolver does not raise itself. This covers a runtime `TypeError` (a property read on a missing value), bcrypt handed no stored hash, and Google's verifier rejecting the credential.

Modules, by layer:

| module | file | what it models |
|---|---|---|
| Wrappers, Text, Errors | wrappers.dfy, text.dfy, errors.dfy | Option/Result, `\s`/`toLowerCase`/`String(n)`, `ErrorCode` and fault kinds |
| FormValidation | form_validation.dfy | `validateForm` and its three regular expressions |
| Dates | dates.dfy | the reporting windows and fiscal-year start of `getDates.ts` |
| Tokens | tokens.dfy | `verifyUser`, `getAuth`, `createJwtTokens` (both copies), `setCookies`, `resetCookies` |
| Guard | guard.dfy | the token/role guard of every privileged resolver, one per revision policy |
| Store, Collections, Services | store.dfy, collections.dfy, services.dfy | documents, store queries, foreign collaborators |
| Sessions, LegacyAuth | sessions.dfy, legacy_auth.dfy | cookie sessions with refresh-token rotation; header-token logins |
| Sorting, Grouping | sorting.dfy, grouping.dfy | `.sort({field: 1})`; the count-or-sum-into-an-object idiom |
| Analytics | analytics.dfy | the six dashboard queries of both revisions |
| Orders, Products, Users, Reviews, WishLists | orders.dfy, products.dfy, users.dfy, reviews.dfy, wishlists.dfy | the store resolvers |

Where the code and the documented behaviour disagree, the model follows the code:

- **Unverifiable tokens in `schema/` analytics.** The header revision's analytics
  guard is documented as answering NOT_AUTHENTICATED for every guard failure.
  But `verifyUser` throws its own error for a token that does not verify, and
  the `catch` rethrows that message. So such a token answers JWT_TOKEN_EXPIRED,
  JWT_TOKEN_INVALID or INTERNAL_SERVER_ERROR (`Analytics.AdminGate`).
- **The `if (!user)` branches.** `verifyUser` never returns a falsy value, so
  every `if (!user)` branch after it is dead.

## Model

| member | source | states |
|---|---|---|
| Errors.CodeName | types.ts:87-103 | every error code's string value is non-empty, so a `Named` fault always carries a message |
| Errors.CodeNameInjective | types.ts:87-103 | each code has its own string value, so a message equal to a code's name identifies the code |
| Errors.Rethrow | schema/resolvers/analytics.resolver.ts:65-69 | the older catch block replaces only an empty message by INTERNAL_SERVER_ERROR and passes every other fault through unchanged |
| Errors.RethrowIdempotent | schema/resolvers/analytics.resolver.ts:65-69 | rethrowing a rethrown fault changes nothing |
| Text.Lower | gqlSchema/resolvers/auth.resolver.ts:77 | `toLowerCase` keeps the length and lowers exactly the upper-case ASCII letters |
| Text.LowerIdempotent | gqlSchema/resolvers/user.resolver.ts:96-103 | lower-casing twice is lower-casing once, which makes lower-cased emails stable keys |
| Text.IntToDecimal | utilities/validateForm.ts:46-57 | `String(n)` is non-empty, starts with a digit for n >= 0 and with `-` otherwise |
| FormValidation.ValidateFormKeys | utilities/validateForm.ts:6-100 | a key is in the merged error map exactly when some entry raises it |
| FormValidation.ValidateFormLastWins | utilities/validateForm.ts:6-100 | the message under a key is the one of the last entry raising that key |
| FormValidation.ValidateFormEmpty | utilities/validateForm.ts:6-100 | the map is empty exactly when every entry passes |
| FormValidation.BlankRequiredReported | utilities/validateForm.ts:12-25 | an empty or null required value is reported under its own name with `msg`, "Please select {name}." for booleans or "Please insert {name}." otherwise |
| FormValidation.NotRequiredSilent | utilities/validateForm.ts:12-90 | `required: false` silences the empty-value, empty-array and number rules |
| FormValidation.EmptyListRule | utilities/validateForm.ts:26-42 | an empty array is an error exactly for required `file` and `checkbox` entries, under the entry's name |
| FormValidation.EmailKeyedLiterally | utilities/validateForm.ts:58-67 | a malformed email is reported under the literal key `email` whatever the entry is called |
| FormValidation.ValidEmailMatchesRegex | utilities/validateForm.ts:3 | the executable email shape agrees, on every string, with `^[^\s@]+@[^\s@]+\.[^\s@]+$` read as three runs around `@` and `.` |
| FormValidation.ValidEmailIsRegex | utilities/validateForm.ts:3 | every string of the executable shape matches the email regular expression |
| FormValidation.RegexIsValidEmail | utilities/validateForm.ts:3 | every string the email regular expression matches has the executable shape |
| FormValidation.PasswordKeyedLiterally | utilities/validateForm.ts:68-78 | a password entry raises the literal key `password` exactly when the value is not a strong password |
| FormValidation.NumberAndAlphaNumericRules | utilities/validateForm.ts:46-90 | a required `number` entry at most zero is reported under its name; an `alphaNumeric` entry exactly when it lacks a leading letter or a trailing digit |
| FormValidation.OtherKindsPass | utilities/validateForm.ts:91-95 | a non-blank `string` or unrecognised entry never produces an error |
| FormValidation.TrimStart | utilities/validateForm.ts:79-90 | the leading-space trim of `ToNumber` is the suffix of the input left after dropping white space only, and starts with a non-space |
| FormValidation.TrimEnd | utilities/validateForm.ts:79-90 | the trailing-space trim is the prefix of the input left after dropping white space only, and ends with a non-space |
| Dates.WindowsAt | utilities/getDates.ts:7-15 | the current window ends at load time |
| Dates.WindowsShape | utilities/getDates.ts:7-15 | the windows are 30 days, 1 day and 30 days apart, ordered, disjoint, and the day between them lies in neither |
| Dates.FiscalStart | utilities/getDates.ts:17-24 | the fiscal year starts on the latest 1 August not after the current month |
| Dates.UtcDayBounds | gqlSchema/resolvers/analytics.resolver.ts:263 | an instant lies inside the UTC day its ISO date names |
| Dates.UtcDayMonotone | gqlSchema/resolvers/analytics.resolver.ts:257-263 | later instants never fall on earlier UTC days |
| Tokens.VerifyUser | utilities/verifyUser.ts:5-31 | an unset secret fails first; a valid token yields exactly its role and id; expired, malformed and other failures map to JWT_TOKEN_EXPIRED, JWT_TOKEN_INVALID and INTERNAL_SERVER_ERROR; no path yields a falsy value |
| Tokens.GetAuth | middleware/auth.middleware.ts:8-13 | no token gives null without verifying; otherwise the verification under the access-token secret |
| Tokens.CreateJwtTokens | middleware/auth.middleware.ts:15-46 | fails with JWT_TOKEN_MISSING, issuing nothing, exactly when a secret is missing; otherwise the same payload signed for 15 minutes and for 7 days |
| Tokens.SetCookies | middleware/auth.middleware.ts:48-67 | both cookies are http-only, not secure, lax, on `/graphql`, and live as long as their token |
| Tokens.ResetUndoesSet | middleware/auth.middleware.ts:48-76 | `resetCookies` clears the same two names on the same path `setCookies` writes |
| Tokens.IssuedTokensFitCookies | utilities/tokenGenerator.ts:5-34 | every issued pair travels in cookies whose lifetimes are the token lifetimes, on the path that is later cleared |
| Guard.Check | gqlSchema/resolvers/order.resolver.ts:12-36 | no token gives the revision's missing-token fault, a bad token the verification fault, a wrong role the revision's role fault; success returns the verified identity |
| Guard.WrongRoleNeverPasses | gqlSchema/resolvers/order.resolver.ts:30-36 | a valid token with the wrong role is refused under every policy |
| Guard.ContextGuardIsGetAuth | gqlSchema/resolvers/wishList.resolver.ts:9-24 | the context guard is `getAuth` followed by the role check |
| Guard.Gate | schema/resolvers/analytics.resolver.ts:13-25 | a resolver runs the cookie policy in the cookie revision and the header policy in the header one, and the older try/rethrow leaves the guard's fault unchanged |
| Store.UpdateUserEffect | gqlSchema/resolvers/auth.resolver.ts:49-50 | updating a user by id changes exactly that user's record |
| Sessions.StartSessionStores | gqlSchema/resolvers/auth.resolver.ts:42-56 | a session start stores on the user exactly the refresh token it puts in the cookie and no other user changes |
| Sessions.LogInAdmin | gqlSchema/resolvers/auth.resolver.ts:12-57 | BAD_CREDENTIALS before any lookup, then USER_NOT_FOUND, then WRONG_USER_TYPE; with matching credentials and an admin record under that email the result is exactly a session for the first such record, and failure writes nothing |
| Sessions.LogInUser | gqlSchema/resolvers/auth.resolver.ts:59-123 | VALIDATION_ERROR, then USER_NOT_FOUND by lower-cased email, then WRONG_USER_TYPE, then BAD_CREDENTIALS for a password that does not compare (a crash without a stored hash); a matching password is exactly a session for that customer; failure writes nothing |
| Sessions.LogInGoogleUser | gqlSchema/resolvers/auth.resolver.ts:125-178 | an empty or payload-less credential is GOOGLE_ERROR and a rejected one crashes; a known Google email gets exactly a CUSTOMER session for the first user with it; an unknown one gets exactly a session over the store extended by a password-less customer with the Google names, email and subject |
| Sessions.ChangePassword | gqlSchema/resolvers/auth.resolver.ts:179-238 | the guard fault (NOT_AUTHENTICATED without a token, the verification error otherwise), then VALIDATION_ERROR, USER_NOT_FOUND and BAD_CREDENTIALS in that order; success exactly when all pass, changing only the named user's password hash |
| Sessions.WeakNewPasswordKey | gqlSchema/resolvers/auth.resolver.ts:186-204 | a weak new password is reported under `password`, an empty one under `newPassword` |
| Sessions.LogOutUser | gqlSchema/resolvers/auth.resolver.ts:240-251 | logout succeeds exactly when `getAuth` does, answering logged out and clearing both cookies; a failed or anonymous logout writes nothing; a signed-in logout blanks the refresh token of the caller's record (if any) and leaves every other user record as it was |
| Sessions.RefreshToken | gqlSchema/resolvers/auth.resolver.ts:252-287 | no cookie is JWT_TOKEN_MISSING; an unverifiable cookie its verification error; an unknown user or stale cookie TOKEN_REVOKED with cookies cleared; success rotates the stored token and uses the stored role |
| Sessions.GetAuthStatus | gqlSchema/resolvers/auth.resolver.ts:290-297 | logged in exactly when the access token verifies, with the verified identity |
| Sessions.SessionThenRefresh | gqlSchema/resolvers/auth.resolver.ts:252-287 | the refresh cookie a login hands out refreshes successfully with the stored role |
| Sessions.RefreshRefusedWhenRevoked | gqlSchema/resolvers/auth.resolver.ts:264-271 | a revoked user's refresh is TOKEN_REVOKED whatever cookie is shown |
| Sessions.LogOutRevokes | gqlSchema/resolvers/auth.resolver.ts:244-246 | logging out revokes the caller's refresh token |
| Sessions.StartSessionKeepsRevoked | gqlSchema/resolvers/auth.resolver.ts:46-51 | another user's session start leaves a revoked user revoked |
| Sessions.AdminLoginKeepsRevoked | gqlSchema/resolvers/auth.resolver.ts:12-57 | an admin login that is not a login of `id` keeps `id` revoked |
| Sessions.UserLoginKeepsRevoked | gqlSchema/resolvers/auth.resolver.ts:59-123 | a customer login that is not a login of `id` keeps `id` revoked |
| Sessions.GoogleLoginKeepsRevoked | gqlSchema/resolvers/auth.resolver.ts:125-178 | a Google login that is not a login of `id` keeps `id` revoked |
| Sessions.PasswordChangeKeepsRevoked | gqlSchema/resolvers/auth.resolver.ts:179-238 | a password change never un-revokes anyone |
| Sessions.LogoutKeepsRevoked | gqlSchema/resolvers/auth.resolver.ts:240-251 | a logout never un-revokes anyone |
| Sessions.RefreshKeepsRevoked | gqlSchema/resolvers/auth.resolver.ts:252-287 | a refresh never un-revokes anyone |
| Sessions.StepKeepsRevoked | gqlSchema/resolvers/auth.resolver.ts:12-287 | no request except a successful login of the user un-revokes them |
| Sessions.RevokedUntilLogin | gqlSchema/resolvers/auth.resolver.ts:240-287 | after logout the refresh token stays revoked through any sequence of session requests (logins, password change, logout, refresh) that contains no login of that user |
| LegacyAuth.SignLegacy | schema/resolvers/auth.resolver.ts:24-28 | signing fails exactly when `JWTSECRET` is unset and otherwise signs for four hours |
| LegacyAuth.LogInAdmin | schema/resolvers/auth.resolver.ts:10-39 | a token for the configured ADMIN_ID exactly when both configured credentials match; otherwise "Bad Credentials" |
| LegacyAuth.LogInUser | schema/resolvers/auth.resolver.ts:40-97 | VALIDATION_ERROR, USER_NOT_FOUND, WRONG_USER_TYPE, BAD_CREDENTIALS as plain errors; success is a four-hour CUSTOMER token for the matching user |
| LegacyAuth.ChangePassword | schema/resolvers/auth.resolver.ts:99-155 | NOT_AUTHENTICATED, the verification error, serialized field errors, USER_NOT_FOUND, INPUT_ERROR for a wrong current password; success changes only the password |
| LegacyAuth.GetAuthStatus | schema/resolvers/auth.resolver.ts:159-180 | no token is logged out; a verified token is logged in with its identity; a failing one INTERNAL_SERVER_ERROR |
| LegacyAuth.CustomerLoginAgrees | schema/resolvers/auth.resolver.ts:40-97 | with secrets configured, a header login succeeds exactly when the cookie login does |
| LegacyAuth.AdminLoginAgrees | schema/resolvers/auth.resolver.ts:10-39 | the header admin login succeeds exactly when the cookie one passes its credential check; a cookie admin login implies a header one |
| LegacyAuth.PasswordChangeAgrees | schema/resolvers/auth.resolver.ts:99-155 | when the token is accepted under both secrets or neither, both revisions accept the same password changes and leave the same store |
| Sorting.SortBy | gqlSchema/resolvers/analytics.resolver.ts:257 | the ascending sort yields a sorted permutation |
| Sorting.SortSorted | gqlSchema/resolvers/analytics.resolver.ts:257 | sorting sorted input changes nothing |
| Sorting.SortIdempotent | gqlSchema/resolvers/analytics.resolver.ts:257 | sorting twice is sorting once |
| Grouping.FirstKeysSpec | gqlSchema/resolvers/analytics.resolver.ts:262-272 | the object's keys are each key met, listed once |
| Grouping.GroupSumSpec | gqlSchema/resolvers/analytics.resolver.ts:262-272 | the fold gives one bucket per distinct key in first-appearance order, each holding that key's sum |
| Grouping.FirstKeysAscending | gqlSchema/resolvers/analytics.resolver.ts:257-272 | keys arriving in order come out strictly increasing |
| Grouping.GroupSumTotal | gqlSchema/resolvers/analytics.resolver.ts:262-272 | for an associative, commutative addition the buckets add up to the total of all amounts |
| Analytics.AdminGate | schema/resolvers/analytics.resolver.ts:13-25 | both revisions admit exactly admins with a verifying token; no token is JWT_TOKEN_MISSING or NOT_AUTHENTICATED by revision, a wrong role WRONG_USER_TYPE or NOT_AUTHENTICATED, a bad token its verification error |
| Analytics.Round2 | gqlSchema/resolvers/analytics.resolver.ts:69-71 | two-decimal rounding moves a value by at most 0.005 and keeps its sign |
| Analytics.Round2Whole | gqlSchema/resolvers/analytics.resolver.ts:69-71 | whole numbers are left alone, as the `isInteger` test intends |
| Analytics.Round2Idempotent | gqlSchema/resolvers/analytics.resolver.ts:78 | rounding twice is rounding once |
| Analytics.Tidy | gqlSchema/resolvers/analytics.resolver.ts:69-71 | skipping the rounding for integers gives the same value as always rounding |
| Analytics.Change | gqlSchema/resolvers/analytics.resolver.ts:66-67 | the percentage change is within 0.005 of the exact formula and has its sign |
| Analytics.SalesChange | gqlSchema/resolvers/analytics.resolver.ts:65-75 | the formula when both sums are positive, 100 when only the current one is, 0 when the current one is not |
| Analytics.CountChange | gqlSchema/resolvers/analytics.resolver.ts:128-139 | the formula when both counts are positive, 100 whenever the previous count is 0, 0 when the count fell to 0 |
| Analytics.ChangeRulesAgreeOnActivity | gqlSchema/resolvers/analytics.resolver.ts:65-139 | the two change rules differ only when the current month is empty |
| Analytics.SumTotals | gqlSchema/resolvers/analytics.resolver.ts:59-61 | totals that are all non-negative sum to a non-negative amount |
| Analytics.SumTotalsPermutation | gqlSchema/resolvers/analytics.resolver.ts:59-61 | the sum does not depend on the order of the orders |
| Analytics.UserIds | gqlSchema/resolvers/analytics.resolver.ts:185 | the id set holds exactly the orders' user ids, no more of them than orders |
| Analytics.SalesAnalytics | gqlSchema/resolvers/analytics.resolver.ts:13-84 | for admins only: the current window's completed sales to within 0.005 and the sales change rule over the past window |
| Analytics.OrderAnalytics | gqlSchema/resolvers/analytics.resolver.ts:85-148 | for admins only: the number of completed orders in the window and the count change rule |
| Analytics.UserAnalytics | gqlSchema/resolvers/analytics.resolver.ts:150-220 | for admins only: the number of distinct customers with a completed order in the window, at most the number of such orders, and the count change rule over the past window's distinct customers |
| Analytics.BuyersAreUserIds | gqlSchema/resolvers/analytics.resolver.ts:177-197 | the set built from the window's completed orders is exactly the customers with a completed order in the window |
| Analytics.UserChangeFollowsBuyers | gqlSchema/resolvers/analytics.resolver.ts:199-211 | the change in users is non-negative when the buyers did not decrease, non-positive when they did, and 100 when the past window had none |
| Analytics.DailySales | gqlSchema/resolvers/analytics.resolver.ts:261-272 | there are no more days than orders |
| Analytics.DailySalesAscending | gqlSchema/resolvers/analytics.resolver.ts:257-272 | over date-sorted orders the days come out strictly increasing |
| Analytics.DailySalesMembers | gqlSchema/resolvers/analytics.resolver.ts:261-272 | a day is listed exactly when an order falls on it, with the sum of that day's totals |
| Analytics.DailySalesTotal | gqlSchema/resolvers/analytics.resolver.ts:261-272 | the daily sums add up to the total of all the orders |
| Analytics.DailySalesDates | gqlSchema/resolvers/analytics.resolver.ts:261-272 | every listed date is the UTC day of some order |
| Analytics.DayPairsSum | gqlSchema/resolvers/analytics.resolver.ts:261-272 | the per-day fold adds up exactly the totals of the orders placed that day |
| Analytics.DayTotalPermutation | gqlSchema/resolvers/analytics.resolver.ts:257-272 | sorting the orders first does not change any day's total |
| Analytics.DailySalesEntry | gqlSchema/resolvers/analytics.resolver.ts:257-272 | each listed entry is a day some order falls on, holding that day's total |
| Analytics.DailySalesCovers | gqlSchema/resolvers/analytics.resolver.ts:257-272 | every day an order falls on is listed |
| Analytics.DailySalesListed | gqlSchema/resolvers/analytics.resolver.ts:257-272 | every listed day is one an order falls on, with that day's total |
| Analytics.SalesOverTime | gqlSchema/resolvers/analytics.resolver.ts:222-278 | for admins only: every UTC day a completed order of the window falls on is listed, only such days, each once in increasing date order, each with the sum of the totals of that day's completed orders |
| Analytics.SalesOverTimeTotal | gqlSchema/resolvers/analytics.resolver.ts:222-278 | the per-day sales add up to the window's unrounded sales total |
| Analytics.LowStockProducts | gqlSchema/resolvers/analytics.resolver.ts:280-324 | for admins only: exactly the products with at most 50 units, each with its first image, row for row in the order of the product list; a listed product without images crashes |
| Analytics.StockRowsCover | gqlSchema/resolvers/analytics.resolver.ts:307-321 | the rows are exactly those of the products with at most 50 units |
| Analytics.Lines | gqlSchema/resolvers/analytics.resolver.ts:362 | the flattened items are exactly the items of the orders |
| Analytics.CategoryPairs | gqlSchema/resolvers/analytics.resolver.ts:365-372 | each item pairs its product's category with a count of one; an item whose product is gone crashes |
| Analytics.CategoryCounts | gqlSchema/resolvers/analytics.resolver.ts:365-377 | no category is listed twice |
| Analytics.OrdersByCategory | gqlSchema/resolvers/analytics.resolver.ts:325-384 | for admins only: a crash when a line item's product is gone; otherwise every line item's category is listed, once, and each row counts the window's line items in that category, at least one |
| Analytics.OnesCount | gqlSchema/resolvers/analytics.resolver.ts:367-372 | counting by ones counts the items |
| Analytics.CategoryCountsSpec | gqlSchema/resolvers/analytics.resolver.ts:365-377 | a category is listed exactly when some item is in it, with the number of such items, not their quantities |
| Analytics.CategoryRows | gqlSchema/resolvers/analytics.resolver.ts:362-377 | every line item's category is listed, and each row counts the items of its category, at least one |
| Analytics.OccurrencesCount | gqlSchema/resolvers/analytics.resolver.ts:362-377 | counting a category's pairs counts the line items whose product is in it |
| Analytics.OrdersByCategoryTotal | gqlSchema/resolvers/analytics.resolver.ts:362-377 | the category counts add up to the number of line items |
| Orders.Limit | gqlSchema/resolvers/order.resolver.ts:43 | `limit(0)` keeps everything; otherwise the first abs(n) items, or all when fewer |
| Orders.OrderGate | gqlSchema/resolvers/order.resolver.ts:12-36 | no token is JWT_TOKEN_MISSING (a plain error in the header revision), a bad token its verification error, a wrong role WRONG_USER_TYPE or NOT_AUTHENTICATED by revision; success is the verified identity |
| Orders.Latest | gqlSchema/resolvers/order.resolver.ts:38-43 | a newest-first prefix of the sorted orders: all of them when the limit is 0, otherwise exactly abs(limit) of them or all when fewer |
| Orders.LatestAreNewest | gqlSchema/resolvers/order.resolver.ts:38-43 | no order the limit drops is newer than one returned |
| Orders.Newest | gqlSchema/resolvers/order.resolver.ts:11-45 | admins only; orders drawn from the store newest first, all of them for limit 0 and otherwise exactly abs(limit) or all when fewer |
| Orders.UserOrders | gqlSchema/resolvers/order.resolver.ts:47-78 | any signed-in role gets exactly the orders with that user id, each as often as it is stored; an unknown id gives none |
| Orders.OrderByNumber | gqlSchema/resolvers/order.resolver.ts:80-117 | an empty number is INPUT_ERROR; no match is INPUT_ERROR or NOT_FOUND by revision; a match yields the first order with that number |
| Orders.PlacedOrderFound | gqlSchema/resolvers/order.resolver.ts:80-193 | an order placed under a fresh number is then found by that number with every submitted field: user, status, items, total, sub-total, tax, shipping address and the placing time |
| Orders.PlacedOrderListed | gqlSchema/resolvers/order.resolver.ts:47-193 | after an order is placed, its customer's order list is the earlier list with the new order appended |
| Orders.ApplyLine | gqlSchema/resolvers/order.resolver.ts:156-178 | one line never renames a product and never drives a stock negative |
| Orders.ApplyLines | gqlSchema/resolvers/order.resolver.ts:156-178 | neither does a whole order |
| Orders.ApplyLineOther | gqlSchema/resolvers/order.resolver.ts:158-160 | a line leaves every other product's stock alone, and a line naming no product changes nothing |
| Orders.ApplyLineTaken | gqlSchema/resolvers/order.resolver.ts:170-176 | a covered line lowers its product's stock by the quantity |
| Orders.ApplyLineRejected | gqlSchema/resolvers/order.resolver.ts:162-169 | a line asking for more than the stock changes nothing |
| Orders.CreateOrder | gqlSchema/resolvers/order.resolver.ts:120-193 | customers only; the order is appended with every submitted field (user, status, items, total, sub-total, tax, shipping address), the new number and time, and the stock rule runs on every line |
| Orders.SetStatus | gqlSchema/resolvers/order.resolver.ts:213-218 | a document is modified exactly when the order exists with a different status |
| Orders.UpdateOrderStatus | gqlSchema/resolvers/order.resolver.ts:194-236 | admins only; the status comes back exactly when the order exists with a different status, and every stored order is an old one or that order with the new status; otherwise nothing changes and the answer is null, or INTERNAL_SERVER_ERROR in the header revision |
| Products.CustomersOnlyThroughHeader | schema/resolvers/product.resolver.ts:29-36 | a customer is WRONG_USER_TYPE in the cookie revision but passes the role-less header guard |
| Products.ProductGate | gqlSchema/resolvers/product.resolver.ts:28-52 | no token is JWT_TOKEN_MISSING or "Not Authenticated" by revision; the cookie revision admits verified admins only, the header revision any verified token |
| Products.ProductQuery | gqlSchema/resolvers/product.resolver.ts:18-22 | a product with the id, or null exactly when there is none |
| Products.UploadAll | gqlSchema/resolvers/product.resolver.ts:65-67 | one upload per file, in order, under `products/<category>/` |
| Products.CreateProduct | gqlSchema/resolvers/product.resolver.ts:26-77 | after the guard, ALREADY_EXISTS ("Product Already Exists" in the header revision) exactly when the lower-cased slug is taken, changing nothing; otherwise the product with its uploads is appended with the slug as given |
| Products.LowerSlugOnce | gqlSchema/resolvers/product.resolver.ts:56-63 | a lower-case slug cannot be created twice in any spelling |
| Products.Urls | gqlSchema/resolvers/product.resolver.ts:173-176 | the URLs of the images, in order |
| Products.DroppedUrls | gqlSchema/resolvers/product.resolver.ts:118-124 | the URLs of exactly the images whose id is not kept |
| Products.EditProduct | gqlSchema/resolvers/product.resolver.ts:79-141 | a guard failure or an unknown id (NOT_FOUND, or "Product does not Exist" in the header revision) changes nothing; a missing kept-image list crashes first, a missing upload list crashes after the deletion request; with both lists the edit succeeds: the images become the kept ones then the uploads, and deletion is requested only when the count shrank |
| Products.EditThenRead | gqlSchema/resolvers/product.resolver.ts:126-136 | the edited product reads back as saved and other ids read as before |
| Products.DistinctIdCount | gqlSchema/resolvers/product.resolver.ts:118-124 | distinct image ids number as many as the images |
| Products.DeletionExactForSubset | gqlSchema/resolvers/product.resolver.ts:118-124 | when the kept images are some of the product's, the length test fires exactly when an image was dropped |
| Products.DeleteProduct | gqlSchema/resolvers/product.resolver.ts:144-186 | an existing product is removed and all its image URLs are deleted; a missing one answers null and changes nothing |
| Users.AllUsers | gqlSchema/resolvers/user.resolver.ts:10-29 | admins only; every user |
| Users.Caller | gqlSchema/resolvers/user.resolver.ts:10-26 | `context.auth` with the role test: NOT_AUTHENTICATED without a token, the access-token verification error, WRONG_USER_TYPE for a wrong role; success is the verified identity |
| Users.UserQuery | gqlSchema/resolvers/user.resolver.ts:30-44 | any signed-in role; the user with the id or null |
| Users.UserEmail | gqlSchema/resolvers/user.resolver.ts:45-56 | public; the email of the user with the id, USER_NOT_FOUND exactly when there is none |
| Users.PublicUserDetails | gqlSchema/resolvers/user.resolver.ts:57-72 | public; only the names, USER_NOT_FOUND exactly when there is no such user |
| Users.SignUpAccepted | gqlSchema/resolvers/user.resolver.ts:80-94 | a clean sign-up form has both names, a well-formed email and a strong password |
| Users.CreateUser | gqlSchema/resolvers/user.resolver.ts:77-118 | VALIDATION_ERROR before the uniqueness check, then ALREADY_EXISTS exactly when the lower-cased email is taken; success exactly otherwise, appending a customer with the lower-cased email and the hashed password |
| Users.SignUpOncePerEmail | gqlSchema/resolvers/user.resolver.ts:96-103 | an email signs up once in any capitalisation, and the stored record satisfies the user schema |
| Users.SignUpThenLogIn | gqlSchema/resolvers/user.resolver.ts:105-117 | a fresh customer logs in with the same email in any case and password |
| Users.LoginFormAccepted | gqlSchema/resolvers/auth.resolver.ts:63-75 | a well-formed email and a strong password pass the login form |
| Users.FindsOnlyNewcomer | gqlSchema/resolvers/user.resolver.ts:96-117 | an email lookup after appending its only holder finds that user |
| Users.DeleteUser | gqlSchema/resolvers/user.resolver.ts:120-143 | any signed-in role; USER_NOT_FOUND for an unknown id; an existing id always succeeds and removes exactly that user |
| Users.DeletedUserGone | gqlSchema/resolvers/user.resolver.ts:30-56 | with unique ids, after a deletion the id reads as null and its email as USER_NOT_FOUND |
| Users.UpdateAddress | gqlSchema/resolvers/user.resolver.ts:144-209 | admins only, on the caller's own record; field errors (all but postcode required), then USER_NOT_FOUND; success exactly otherwise, and the address comes back exactly when it changed |
| Users.UpdateAddressTwice | gqlSchema/resolvers/user.resolver.ts:190-207 | saving the same address again returns null |
| Users.PostcodeOptional | gqlSchema/resolvers/user.resolver.ts:160-180 | an empty postcode passes validation |
| Users.UpdateAccount | gqlSchema/resolvers/user.resolver.ts:211-268 | admins only, on the caller's own record; field errors, then USER_NOT_FOUND; success exactly otherwise, changing only the names and the email, the email as typed |
| Users.UpdateAccountThenRead | gqlSchema/resolvers/user.resolver.ts:211-268 | the returned record is what a read of the caller's id then gives, and every other id reads as before |
| Reviews.ProductReviews | gqlSchema/resolvers/review.resolver.ts:10-21 | public; INPUT_ERROR exactly for an empty id, otherwise exactly the product's reviews, each as often as it is stored |
| Reviews.AllReviews | gqlSchema/resolvers/review.resolver.ts:23-52 | admins only; every review |
| Reviews.Caller | gqlSchema/resolvers/review.resolver.ts:24-48 | JWT_TOKEN_MISSING without a token, the verification error, WRONG_USER_TYPE for a wrong role; success is the verified identity |
| Reviews.FieldRules | gqlSchema/resolvers/review.resolver.ts:85-100 | a rating passes exactly when positive, a text field exactly when not empty |
| Reviews.ReviewFormAccepts | gqlSchema/resolvers/review.resolver.ts:85-100 | the review form passes exactly with a positive rating and all three strings non-empty |
| Reviews.EditFormAccepts | gqlSchema/resolvers/review.resolver.ts:138-150 | the edit form passes exactly with a positive rating and non-empty text |
| Reviews.CreateReview | gqlSchema/resolvers/review.resolver.ts:56-110 | customers only; saved exactly when the fields are valid, with the author from the input |
| Reviews.CreatedReviewListed | gqlSchema/resolvers/review.resolver.ts:10-110 | a new review is listed with its product's reviews, after those already there |
| Reviews.EditReview | gqlSchema/resolvers/review.resolver.ts:112-163 | customers only; only the rating and text of the review with the id change; the review as it was is returned |
| Reviews.EditedReviewRead | gqlSchema/resolvers/review.resolver.ts:150-162 | after an edit the review reads back with the new rating and text and its old author and product |
| Reviews.DeleteReview | gqlSchema/resolvers/review.resolver.ts:164-199 | any signed-in role; NOT_FOUND for an unknown id; an existing id always succeeds and removes exactly that review |
| Reviews.DeletedReviewGone | gqlSchema/resolvers/review.resolver.ts:164-199 | with unique ids, no review with the deleted id remains, so its product no longer lists it |
| WishLists.Customer | schema/resolvers/wishList.resolver.ts:9-30 | no token is NOT_AUTHENTICATED or JWT_TOKEN_MISSING by revision; only customers pass |
| WishLists.WishListByUserId | gqlSchema/resolvers/wishList.resolver.ts:8-48 | the customer check, INPUT_ERROR for an empty user id, NOT_FOUND without a list, otherwise exactly the first list stored for that user |
| WishLists.Upsert | gqlSchema/resolvers/wishList.resolver.ts:68-82 | the user's list is the saved one afterwards, created when missing (one more list) or replaced in place (same count), and other users' lists are kept |
| WishLists.AddToWishList | gqlSchema/resolvers/wishList.resolver.ts:50-84 | customers only; the user's list holds exactly the given products, one list is added only when the user had none, and every other user's list is kept as it was |
| WishLists.AddTwiceIdempotent | gqlSchema/resolvers/wishList.resolver.ts:70-81 | repeating the same save changes nothing |
| WishLists.AddThenRead | gqlSchema/resolvers/wishList.resolver.ts:8-84 | the saved list reads back exactly |

## Left out

- Server wiring, database connection and the GraphQL type definitions: I/O and static schema text.
- JWT signing and verification, bcrypt and Google ID-token verification are uninterpreted function parameters. No cryptography and no expiry clock is modelled.
- Image upload and deletion (S3): an upload is an abstract function returning an image. A deletion appears only as the list of URLs the resolver hands over.
- Money and percentages are exact reals. `toFixed(2)` is rounding half away from zero of the exact value, so IEEE binary rounding is not modelled.
- Analytics.Round2: promises only "within 0.005, same sign, idempotent", not the exact float produced by `parseFloat(x.toFixed(2))`.
- Dates.WindowsAt: windows are computed in UTC milliseconds at the load time passed in. Local-time `setDate` across daylight-saving changes is not modelled.
- Orders.CreateOrder: the per-line stock updates run sequentially in the model. The source does not await them, so concurrent orders can race; the race is not modelled. A rejected line changes no stock and does not stop the order, as in the source.
- The order number's clock and random part are parameters.
- Analytics.SalesOverTime and Analytics.OrdersByCategory: rows come out in first-appearance order. JavaScript lists integer-like object keys first; no date string or realistic category name is integer-like, so this is not modelled.
- Text.Lower: `toLowerCase` is modelled on ASCII letters only.
- An unset ADMIN_ID is modelled as the empty id.
- GraphQL error message texts other than the ones the clients see as codes are dropped.
- The 3-second sleep in the header revision's password change.
- The `products` listing query: it is a bare `find()` and is not modelled.
- `populate`, `lean` and ObjectId casting are not modelled. A null products argument to `addToWishList` is not modelled either.
- Review dates are not modelled.
- The product schema's slug handling is not modelled; the slug is stored as given.
- Users.UpdateAccount: the resolver does not re-check the new email for uniqueness. The User schema's unique index on the exact email (dataLayer/schema/User.ts:13-17), which would make the save fail on a duplicate, is not modelled.
- Tokens.GetAuth, Sessions.RefreshToken, Users.Caller and WishLists.Customer: `verifyUser` as shipped takes one argument and always verifies with `JWTSECRET`, although `getAuth` and `refreshToken` pass a second secret. The model verifies with the secret the caller passes: the access-token secret in `getAuth` (and so in `context.auth`), the refresh-token secret in `refreshToken`. Where the shipped code would verify these tokens with `JWTSECRET` instead, the model does not follow it.
- Sessions.RevokedUntilLogin: ranges over the six session requests (admin, customer and Google logins, password change, logout, refresh). Other resolvers that write users are not events of it; `deleteUser`, for one, removes the record and with it the revoked state.
- FormValidation.TextNonPositive: `value <= 0` on a string is modelled for blank strings and signed plain decimals. JavaScript's `Number` also reads exponents (`-1e5`), hexadecimal, binary and octal prefixes and `-Infinity`; these read as not at most zero in the model.
- FormValidation.NonPositive: a number value is an integer; fractional JavaScript numbers are not modelled.

=== FILE: analytics.dfy ===
/** The admin dashboard queries of both revisions (gqlSchema/ and schema/
    analytics.resolver.ts): completed-order sales, order and active-user counts
    for the last 30 days against the 30 days before, daily sales, low-stock
    products and line items per category. The dates come from Dates.WindowsAt
    applied to the instant the server loaded utilities/getDates.ts. Amounts are
    exact reals. */
module Analytics {
  import opened Wrappers
  import opened Errors
  import opened Tokens
  import opened Guard
  import opened Collections
  import opened Store
  import opened Services
  import opened Dates
  import opened Sorting
  import opened Grouping

  // ---------------------------------------------------------------------------
  // Guard
  // ---------------------------------------------------------------------------

  /** Both revisions verify with JWTSECRET and demand an admin. The cookie
      revision reports JWT_TOKEN_MISSING and WRONG_USER_TYPE; the header revision
      reports NOT_AUTHENTICATED for both. A token that does not verify reports
      `verifyUser`'s own error in both revisions (JWT_TOKEN_EXPIRED,
      JWT_TOKEN_INVALID, ...), never NOT_AUTHENTICATED. */
  function AdminGate(rev: Revision, svc: Services, token: string): (r: Result<Identity, Fault>)
    ensures token == "" ==> r == Failure(if rev.Cookie? then Coded(JwtTokenMissing) else Named(NotAuthenticated))
    ensures r.Success? <==> (token != "" && VerifyUser(svc.env.jwtSecret, svc.verify, token).Success?
                             && VerifyUser(svc.env.jwtSecret, svc.verify, token).value.role == Admin)
    ensures r.Success? ==> r.value == VerifyUser(svc.env.jwtSecret, svc.verify, token).value
    ensures (token != "" && VerifyUser(svc.env.jwtSecret, svc.verify, token).Failure?)
              ==> r == Failure(VerifyUser(svc.env.jwtSecret, svc.verify, token).error)
    ensures (token != "" && VerifyUser(svc.env.jwtSecret, svc.verify, token).Success?
             && VerifyUser(svc.env.jwtSecret, svc.verify, token).value.role != Admin)
              ==> r == Failure(if rev.Cookie? then Coded(WrongUserType) else Named(NotAuthenticated))
  {
    if rev.Cookie? then Check(TokenPolicy, svc.env.jwtSecret, svc.verify, token, Only(Admin))
    else
      match Check(LegacyStrictPolicy, svc.env.jwtSecret, svc.verify, token, Only(Admin))
      case Failure(f) => Failure(Rethrow(f))
      case Success(u) => Success(u)
  }

  // ---------------------------------------------------------------------------
  // Numbers
  // ---------------------------------------------------------------------------

  /** `parseFloat(x.toFixed(2))`: the nearest multiple of 0.01, halves away from
      zero. */
  function Round2(x: real): (r: real)
    ensures -0.005 <= r - x <= 0.005
    ensures x >= 0.0 ==> r >= 0.0
    ensures x <= 0.0 ==> r <= 0.0
  {
    if x >= 0.0 then ((x * 100.0 + 0.5).Floor as real) / 100.0
    else -((((-x) * 100.0 + 0.5).Floor as real) / 100.0)
  }

  predicate Whole(x: real) {
    x == x.Floor as real
  }

  /** A whole number is left as it is by rounding. */
  lemma Round2Whole(x: real)
    requires Whole(x)
    ensures Round2(x) == x
  {
    if x >= 0.0 {
      assert (x * 100.0 + 0.5).Floor == x.Floor * 100;
    } else {
      assert ((-x) * 100.0 + 0.5).Floor == -x.Floor * 100;
    }
  }

  /** Rounding twice is rounding once. */
  lemma Round2Idempotent(x: real)
    ensures Round2(Round2(x)) == Round2(x)
  {
    var r := Round2(x);
    if x >= 0.0 {
      var n := (x * 100.0 + 0.5).Floor;
      assert r * 100.0 == n as real;
      assert (r * 100.0 + 0.5).Floor == n;
    } else {
      var n := ((-x) * 100.0 + 0.5).Floor;
      assert r == -(n as real / 100.0);
      if n == 0 {
        assert r == 0.0;
      } else {
        assert r < 0.0;
        assert (-r) * 100.0 == n as real;
        assert ((-r) * 100.0 + 0.5).Floor == n;
      }
    }
  }

  /** `if (!Number.isInteger(x)) x = parseFloat(x.toFixed(2))`. */
  function Tidy(x: real): (r: real)
    ensures r == Round2(x)
  {
    if Whole(x) then Round2Whole(x); x else Round2(x)
  }

  /** Percentage change of `cur` over `prev`, tidied to two decimals. */
  function Change(cur: real, prev: real): (r: real)
    requires prev > 0.0
    ensures -0.005 <= r - (cur - prev) / prev * 100.0 <= 0.005
    ensures cur >= prev ==> r >= 0.0
    ensures cur <= prev ==> r <= 0.0
  {
    var exact := (cur - prev) / prev * 100.0;
    assert cur >= prev ==> exact >= 0.0;
    assert cur <= prev ==> exact <= 0.0;
    Tidy(exact)
  }

  /** `changeInSales`: a real change when both months sold something, 100 when
      only the current month did, 0 otherwise. */
  function SalesChange(cur: real, prev: real): (r: real)
    ensures cur > 0.0 && prev > 0.0 ==> -0.005 <= r - (cur - prev) / prev * 100.0 <= 0.005
    ensures cur > 0.0 && prev <= 0.0 ==> r == 100.0
    ensures cur <= 0.0 ==> r == 0.0
  {
    if cur > 0.0 && prev > 0.0 then Change(cur, prev)
    else if cur > 0.0 then 100.0
    else 0.0
  }

  /** `changeInOrders` and `changeInUsers`: a real change when both counts are
      positive; 100 whenever the previous count is zero, even when the current one
      is zero too; and 0 when the count fell from a positive number to zero. */
  function CountChange(cur: nat, prev: nat): (r: real)
    ensures cur > 0 && prev > 0 ==> -0.005 <= r - (cur - prev) as real / prev as real * 100.0 <= 0.005
    ensures prev == 0 ==> r == 100.0
    ensures cur == 0 && prev > 0 ==> r == 0.0
  {
    if cur > 0 && prev > 0 then Change(cur as real, prev as real)
    else if prev < 1 then 100.0
    else 0.0
  }

  /** The two change rules disagree only where one month is empty: sales say 0
      for an empty current month, counts say 100 when the previous month is empty
      as well. */
  lemma ChangeRulesAgreeOnActivity(cur: nat, prev: nat)
    requires cur > 0 || prev > 0
    ensures SalesChange(cur as real, prev as real) == CountChange(cur, prev)
              || (cur == 0 && prev > 0)
  {
  }

  // ---------------------------------------------------------------------------
  // Queries
  // ---------------------------------------------------------------------------

  predicate CompletedWithin(o: Order, w: Window) {
    o.status == Completed && InWindow(o.placed, w)
  }

  /** `Order.find({orderPlaced: {$gte, $lte}, status: COMPLETED})` */
  function CompletedIn(orders: seq<Order>, w: Window): seq<Order> {
    Filter(orders, (o: Order) => CompletedWithin(o, w))
  }

  /** `reduce((sum, order) => sum + order.total, 0)` */
  function SumTotals(os: seq<Order>): (r: real)
    ensures (forall i :: 0 <= i < |os| ==> os[i].total >= 0.0) ==> r >= 0.0
    decreases |os|
  {
    if os == [] then 0.0 else SumTotals(os[..|os| - 1]) + os[|os| - 1].total
  }

  /** Taking one order out of the sum takes its total out. */
  lemma {:induction false} SumTotalsRemove(os: seq<Order>, j: int)
    requires 0 <= j < |os|
    ensures SumTotals(os) == SumTotals(os[..j] + os[j + 1..]) + os[j].total
    decreases |os|
  {
    var n := |os|;
    var rest := os[..j] + os[j + 1..];
    if j == n - 1 {
      assert rest == os[..n - 1];
    } else {
      var init := os[..n - 1];
      var shorter := init[..j] + init[j + 1..];
      SumTotalsRemove(init, j);
      assert rest == shorter + [os[n - 1]];
      assert rest[..|rest| - 1] == shorter;
      assert SumTotals(rest) == SumTotals(shorter) + os[n - 1].total;
    }
  }

  /** The sum does not depend on the order of the orders. */
  lemma {:induction false} SumTotalsPermutation(xs: seq<Order>, ys: seq<Order>)
    requires multiset(xs) == multiset(ys)
    ensures SumTotals(xs) == SumTotals(ys)
    decreases |xs|
  {
    if xs != [] {
      var n := |xs|;
      var x := xs[n - 1];
      assert xs == xs[..n - 1] + [x];
      assert x in multiset(ys);
      var j :| 0 <= j < |ys| && ys[j] == x;
      var rest := ys[..j] + ys[j + 1..];
      assert ys == ys[..j] + [x] + ys[j + 1..];
      assert multiset(xs) == multiset(xs[..n - 1]) + multiset{x};
      assert multiset(ys) == multiset(ys[..j]) + multiset{x} + multiset(ys[j + 1..]);
      assert multiset(rest) == multiset(ys[..j]) + multiset(ys[j + 1..]);
      assert multiset(rest) == multiset(ys) - multiset{x};
      assert multiset(xs[..n - 1]) == multiset(xs) - multiset{x};
      SumTotalsPermutation(xs[..n - 1], rest);
      SumTotalsRemove(ys, j);
    }
  }

  /** `new Set(orders.map(o => o.userId.toString()))` */
  function UserIds(os: seq<Order>): (r: set<string>)
    ensures |r| <= |os|
    ensures forall u :: u in r <==> exists i :: 0 <= i < |os| && os[i].userId == u
    decreases |os|
  {
    if os == [] then {}
    else
      var prior := UserIds(os[..|os| - 1]);
      assert forall i :: 0 <= i < |os| - 1 ==> os[..|os| - 1][i] == os[i];
      prior + {os[|os| - 1].userId}
  }

  datatype SalesReport = SalesReport(sales: real, changeInSales: real)
  datatype OrderReport = OrderReport(orders: nat, changeInOrders: real)
  datatype UserReport = UserReport(users: nat, changeInUsers: real)

  /** `salesAnalytics`: the current window's completed sales, to two decimals,
      and their change over the past window. */
  function SalesAnalytics(rev: Revision, svc: Services, orders: seq<Order>, token: string, loadTime: int): (r: Result<SalesReport, Fault>)
    ensures r.Success? <==> AdminGate(rev, svc, token).Success?
    ensures r.Failure? ==> r.error == AdminGate(rev, svc, token).error
    ensures r.Success? ==>
      var w := WindowsAt(loadTime);
      var cur := SumTotals(CompletedIn(orders, w.current));
      -0.005 <= r.value.sales - cur <= 0.005
      && r.value.changeInSales == SalesChange(cur, SumTotals(CompletedIn(orders, w.past)))
  {
    match AdminGate(rev, svc, token)
    case Failure(f) => Failure(f)
    case Success(_) =>
      var w := WindowsAt(loadTime);
      var cur := SumTotals(CompletedIn(orders, w.current));
      var prev := SumTotals(CompletedIn(orders, w.past));
      Success(SalesReport(Round2(cur), SalesChange(cur, prev)))
  }

  /** `orderAnalytics`: the number of completed orders in the current window and
      its change. */
  function OrderAnalytics(rev: Revision, svc: Services, orders: seq<Order>, token: string, loadTime: int): (r: Result<OrderReport, Fault>)
    ensures r.Success? <==> AdminGate(rev, svc, token).Success?
    ensures r.Failure? ==> r.error == AdminGate(rev, svc, token).error
    ensures r.Success? ==>
      var w := WindowsAt(loadTime);
      && r.value.orders == |CompletedIn(orders, w.current)|
      && r.value.orders <= |orders|
      && r.value.changeInOrders == CountChange(r.value.orders, |CompletedIn(orders, w.past)|)
  {
    match AdminGate(rev, svc, token)
    case Failure(f) => Failure(f)
    case Success(_) =>
      var w := WindowsAt(loadTime);
      var cur := |CompletedIn(orders, w.current)|;
      Success(OrderReport(cur, CountChange(cur, |CompletedIn(orders, w.past)|)))
  }

  /** `userAnalytics`: the number of distinct customers with a completed order in
      the current window, and its change. */
  /** The distinct customers with a completed order in the window, read off
      the store directly. */
  ghost function Buyers(orders: seq<Order>, w: Window): set<string> {
    set o | o in orders && CompletedWithin(o, w) :: o.userId
  }

  /** `new Set(orders.map(o => o.userId))` over the window's completed orders
      is the set of the window's buyers. */
  lemma BuyersAreUserIds(orders: seq<Order>, w: Window)
    ensures UserIds(CompletedIn(orders, w)) == Buyers(orders, w)
  {
    var cur := CompletedIn(orders, w);
    forall u | u in UserIds(cur)
      ensures u in Buyers(orders, w)
    {
      var i :| 0 <= i < |cur| && cur[i].userId == u;
      assert cur[i] in cur;
    }
    forall u | u in Buyers(orders, w)
      ensures u in UserIds(cur)
    {
      var o :| o in orders && CompletedWithin(o, w) && o.userId == u;
      assert o in cur;
      var i :| 0 <= i < |cur| && cur[i] == o;
    }
  }

  function UserAnalytics(rev: Revision, svc: Services, orders: seq<Order>, token: string, loadTime: int): (r: Result<UserReport, Fault>)
    ensures r.Success? <==> AdminGate(rev, svc, token).Success?
    ensures r.Failure? ==> r.error == AdminGate(rev, svc, token).error
    ensures r.Success? ==>
      var w := WindowsAt(loadTime);
      && r.value.users == |Buyers(orders, w.current)|
      && r.value.users <= |CompletedIn(orders, w.current)|
      && r.value.changeInUsers == CountChange(|Buyers(orders, w.current)|, |Buyers(orders, w.past)|)
  {
    match AdminGate(rev, svc, token)
    case Failure(f) => Failure(f)
    case Success(_) =>
      var w := WindowsAt(loadTime);
      var ids := UserIds(CompletedIn(orders, w.current));
      var pastIds := UserIds(CompletedIn(orders, w.past));
      BuyersAreUserIds(orders, w.current);
      BuyersAreUserIds(orders, w.past);
      Success(UserReport(|ids|, CountChange(|ids|, |pastIds|)))
  }

  /** The change in active users has the sign of the change in buyers: no
      fewer buyers than in the past window reads as growth (100 when the past
      window had none), fewer as a drop. */
  lemma UserChangeFollowsBuyers(rev: Revision, svc: Services, orders: seq<Order>, token: string, loadTime: int)
    requires AdminGate(rev, svc, token).Success?
    ensures var r := UserAnalytics(rev, svc, orders, token, loadTime).value;
      var w := WindowsAt(loadTime);
      && (|Buyers(orders, w.current)| >= |Buyers(orders, w.past)| ==> r.changeInUsers >= 0.0)
      && (|Buyers(orders, w.current)| < |Buyers(orders, w.past)| ==> r.changeInUsers <= 0.0)
      && (Buyers(orders, w.past) == {} ==> r.changeInUsers == 100.0)
  {
    var w := WindowsAt(loadTime);
    var cur := |Buyers(orders, w.current)|;
    var prev := |Buyers(orders, w.past)|;
    if cur > 0 && prev > 0 {
      assert CountChange(cur, prev) == Change(cur as real, prev as real);
    }
  }

  // ---------------------------------------------------------------------------
  // Sales per day
  // ---------------------------------------------------------------------------

  /** `{date, sales}`; `date` is midnight UTC of the day. */
  datatype DaySales = DaySales(date: int, sales: real)

  function ByPlaced(o: Order): int { o.placed }

  /** Each order as (UTC day, total). */
  function DayPairs(os: seq<Order>): (ps: seq<(int, real)>)
    ensures |ps| == |os|
    ensures forall i :: 0 <= i < |os| ==> ps[i] == (UtcDay(os[i].placed), os[i].total)
  {
    seq(|os|, i requires 0 <= i < |os| => (UtcDay(os[i].placed), os[i].total))
  }

  function AddReal(a: real, b: real): real { a + b }

  /** The completed orders of the current window in `orderPlaced` order. */
  function DailySource(orders: seq<Order>, loadTime: int): seq<Order> {
    SortBy(CompletedIn(orders, WindowsAt(loadTime).current), ByPlaced)
  }

  lemma {:induction false} FirstKeysLength<K, W>(ps: seq<(K, W)>)
    ensures |FirstKeys(ps)| <= |ps|
    decreases |ps|
  {
    if ps != [] {
      FirstKeysLength(ps[..|ps| - 1]);
    }
  }

  /** The per-day fold over `os`, one entry per bucket. */
  function DailySales(os: seq<Order>): (r: seq<DaySales>)
    ensures |r| <= |os|
  {
    var ps := DayPairs(os);
    var g := GroupSum(ps, AddReal, 0.0);
    GroupSumSpec(ps, AddReal, 0.0);
    FirstKeysLength(ps);
    seq(|g|, i requires 0 <= i < |g| => DaySales(DayStart(g[i].key), g[i].amount))
  }

  /** Over orders sorted by date, the daily entries come out in strictly increasing
      date order, so no day is listed twice. */
  lemma DailySalesAscending(os: seq<Order>)
    requires SortedBy(os, ByPlaced)
    ensures var days := DailySales(os);
      forall i, j :: 0 <= i < j < |days| ==> days[i].date < days[j].date
  {
    var ps := DayPairs(os);
    GroupSumSpec(ps, AddReal, 0.0);
    forall i, j | 0 <= i < j < |ps|
      ensures ps[i].0 <= ps[j].0
    {
      UtcDayMonotone(os[i].placed, os[j].placed);
    }
    FirstKeysAscending(ps);
  }

  /** A day is listed exactly when some order falls on it, and its entry holds
      the sum of the totals of that day's orders. */
  lemma DailySalesMembers(os: seq<Order>, d: int)
    ensures var days := DailySales(os);
      && ((exists i :: 0 <= i < |days| && days[i].date == DayStart(d))
            <==> (exists k :: 0 <= k < |os| && UtcDay(os[k].placed) == d))
      && (forall i :: 0 <= i < |days| && days[i].date == DayStart(d)
            ==> days[i].sales == SumFor(DayPairs(os), d, AddReal, 0.0))
  {
    var ps := DayPairs(os);
    GroupSumSpec(ps, AddReal, 0.0);
    FirstKeysSpec(ps, d);
    var fk := FirstKeys(ps);
    forall i | 0 <= i < |fk|
      ensures DayStart(fk[i]) == DayStart(d) <==> fk[i] == d
    {
      assert fk[i] * MsPerDay == d * MsPerDay <==> fk[i] == d;
    }
    var days := DailySales(os);
    assert |days| == |fk|;
    if exists k :: 0 <= k < |os| && UtcDay(os[k].placed) == d {
      var k :| 0 <= k < |os| && UtcDay(os[k].placed) == d;
      assert ps[k].0 == d;
      var i :| 0 <= i < |fk| && fk[i] == d;
      assert days[i].date == DayStart(d);
    }
    forall i | 0 <= i < |days| && days[i].date == DayStart(d)
      ensures exists k :: 0 <= k < |os| && UtcDay(os[k].placed) == d
    {
      assert fk[i] == d;
      var k :| 0 <= k < |ps| && ps[k].0 == d;
      assert UtcDay(os[k].placed) == d;
    }
  }

  /** Every listed date is the day of some order. */
  lemma DailySalesDates(os: seq<Order>)
    ensures var days := DailySales(os);
      forall i :: 0 <= i < |days| ==> exists k :: 0 <= k < |os| && days[i].date == DayStart(UtcDay(os[k].placed))
  {
    var ps := DayPairs(os);
    GroupSumSpec(ps, AddReal, 0.0);
    var fk := FirstKeys(ps);
    var days := DailySales(os);
    forall i | 0 <= i < |days|
      ensures exists k :: 0 <= k < |os| && days[i].date == DayStart(UtcDay(os[k].placed))
    {
      FirstKeysSpec(ps, fk[i]);
      var k :| 0 <= k < |ps| && ps[k].0 == fk[i];
      assert days[i].date == DayStart(UtcDay(os[k].placed));
    }
  }

  /** Whether an order was placed on the UTC day `d`. */
  function PlacedOn(d: int): Order -> bool {
    (o: Order) => UtcDay(o.placed) == d
  }

  /** The totals of the orders placed on the UTC day `d`, added up. */
  function DayTotal(os: seq<Order>, d: int): real {
    SumTotals(Filter(os, PlacedOn(d)))
  }

  /** The per-day fold over one more order. */
  lemma DayPairsSnoc(os: seq<Order>, d: int)
    requires os != []
    ensures var last := os[|os| - 1];
      var prior := SumFor(DayPairs(os[..|os| - 1]), d, AddReal, 0.0);
      SumFor(DayPairs(os), d, AddReal, 0.0) == if UtcDay(last.placed) == d then prior + last.total else prior
  {
    var ps := DayPairs(os);
    assert ps[..|os| - 1] == DayPairs(os[..|os| - 1]);
  }

  /** A day's total over one more order. */
  lemma DayTotalSnoc(os: seq<Order>, d: int)
    requires os != []
    ensures var last := os[|os| - 1];
      var prior := DayTotal(os[..|os| - 1], d);
      DayTotal(os, d) == if UtcDay(last.placed) == d then prior + last.total else prior
  {
    var n := |os|;
    var init := os[..n - 1];
    var last := os[n - 1];
    assert os == init + [last];
    FilterSnoc(init, last, PlacedOn(d));
    var f := Filter(init, PlacedOn(d));
    if UtcDay(last.placed) == d {
      assert (f + [last])[..|f|] == f;
    }
  }

  /** The per-day fold sums exactly the totals of that day's orders. */
  lemma {:induction false} DayPairsSum(os: seq<Order>, d: int)
    ensures SumFor(DayPairs(os), d, AddReal, 0.0) == DayTotal(os, d)
    decreases |os|
  {
    if os != [] {
      DayPairsSum(os[..|os| - 1], d);
      DayPairsSnoc(os, d);
      DayTotalSnoc(os, d);
    }
  }

  /** A day's total does not depend on the order of the orders. */
  lemma DayTotalPermutation(xs: seq<Order>, ys: seq<Order>, d: int)
    requires multiset(xs) == multiset(ys)
    ensures DayTotal(xs, d) == DayTotal(ys, d)
  {
    var p := PlacedOn(d);
    assert multiset(Filter(xs, p)) == multiset(Filter(ys, p));
    SumTotalsPermutation(Filter(xs, p), Filter(ys, p));
  }

  /** Over a reordering `src` of `os`, the entry `i` is the day an order of `os`
      falls on, with that day's total. */
  lemma DailySalesEntry(src: seq<Order>, os: seq<Order>, i: int)
    requires multiset(src) == multiset(os)
    requires 0 <= i < |DailySales(src)|
    ensures DailySales(src)[i].sales == DayTotal(os, UtcDay(DailySales(src)[i].date))
    ensures exists o :: o in os && DailySales(src)[i].date == DayStart(UtcDay(o.placed))
  {
    DailySalesDates(src);
    var k :| 0 <= k < |src| && DailySales(src)[i].date == DayStart(UtcDay(src[k].placed));
    var d := UtcDay(src[k].placed);
    DayStartDay(d);
    DailySalesMembers(src, d);
    DayPairsSum(src, d);
    DayTotalPermutation(src, os, d);
    assert src[k] in multiset(os);
    assert src[k] in os;
  }

  /** Over a reordering `src` of `os`, every day an order of `os` falls on is
      listed. */
  lemma DailySalesCovers(src: seq<Order>, os: seq<Order>)
    requires multiset(src) == multiset(os)
    ensures var days := DailySales(src);
      forall o :: o in os ==> exists i :: 0 <= i < |days| && days[i].date == DayStart(UtcDay(o.placed))
  {
    var days := DailySales(src);
    forall o | o in os
      ensures exists i :: 0 <= i < |days| && days[i].date == DayStart(UtcDay(o.placed))
    {
      assert o in multiset(src);
      var k :| 0 <= k < |src| && src[k] == o;
      DailySalesMembers(src, UtcDay(o.placed));
    }
  }

  /** Over a reordering `src` of `os`, every listed day is one an order of `os`
      falls on, with that day's total. */
  lemma DailySalesListed(src: seq<Order>, os: seq<Order>)
    requires multiset(src) == multiset(os)
    ensures var days := DailySales(src);
      forall i :: 0 <= i < |days| ==>
        && days[i].sales == DayTotal(os, UtcDay(days[i].date))
        && exists o :: o in os && days[i].date == DayStart(UtcDay(o.placed))
  {
    forall i | 0 <= i < |DailySales(src)|
      ensures DailySales(src)[i].sales == DayTotal(os, UtcDay(DailySales(src)[i].date))
      ensures exists o :: o in os && DailySales(src)[i].date == DayStart(UtcDay(o.placed))
    {
      DailySalesEntry(src, os, i);
    }
  }

  /** The sales of all listed days, added up. */
  function SalesSum(days: seq<DaySales>): real
    decreases |days|
  {
    if days == [] then 0.0 else SalesSum(days[..|days| - 1]) + days[|days| - 1].sales
  }

  lemma {:induction false} SalesSumOfBuckets(days: seq<DaySales>, g: seq<Bucket<int, real>>)
    requires |days| == |g| && forall i :: 0 <= i < |g| ==> days[i].sales == g[i].amount
    ensures SalesSum(days) == BucketTotal(g, AddReal, 0.0)
    decreases |g|
  {
    if g != [] {
      SalesSumOfBuckets(days[..|days| - 1], g[..|g| - 1]);
    }
  }

  lemma {:induction false} DayPairsTotal(os: seq<Order>)
    ensures PairTotal(DayPairs(os), AddReal, 0.0) == SumTotals(os)
    decreases |os|
  {
    if os != [] {
      assert DayPairs(os)[..|os| - 1] == DayPairs(os[..|os| - 1]);
      DayPairsTotal(os[..|os| - 1]);
    }
  }

  /** The daily entries add up to the sum of all the orders' totals. */
  lemma DailySalesTotal(os: seq<Order>)
    ensures SalesSum(DailySales(os)) == SumTotals(os)
  {
    var ps := DayPairs(os);
    var g := GroupSum(ps, AddReal, 0.0);
    GroupSumSpec(ps, AddReal, 0.0);
    assert Monoid(AddReal, 0.0);
    GroupSumTotal(ps, AddReal, 0.0);
    SalesSumOfBuckets(DailySales(os), g);
    DayPairsTotal(os);
  }

  /** `salesOverTime`: the completed orders of the current window, sorted by date,
      summed per UTC day; the entries are in increasing date order. */
  function SalesOverTime(rev: Revision, svc: Services, orders: seq<Order>, token: string, loadTime: int): (r: Result<seq<DaySales>, Fault>)
    ensures r.Success? <==> AdminGate(rev, svc, token).Success?
    ensures r.Failure? ==> r.error == AdminGate(rev, svc, token).error
    ensures r.Success? ==> |r.value| <= |CompletedIn(orders, WindowsAt(loadTime).current)|
    ensures r.Success? ==> forall i, j :: 0 <= i < j < |r.value| ==> r.value[i].date < r.value[j].date
    ensures r.Success? ==> var done := CompletedIn(orders, WindowsAt(loadTime).current);
      forall o :: o in done ==> exists i :: 0 <= i < |r.value| && r.value[i].date == DayStart(UtcDay(o.placed))
    ensures r.Success? ==> var done := CompletedIn(orders, WindowsAt(loadTime).current);
      forall i :: 0 <= i < |r.value| ==>
        && r.value[i].sales == DayTotal(done, UtcDay(r.value[i].date))
        && exists o :: o in done && r.value[i].date == DayStart(UtcDay(o.placed))
  {
    match AdminGate(rev, svc, token)
    case Failure(f) => Failure(f)
    case Success(_) =>
      DailySalesAscending(DailySource(orders, loadTime));
      DailySalesCovers(DailySource(orders, loadTime), CompletedIn(orders, WindowsAt(loadTime).current));
      DailySalesListed(DailySource(orders, loadTime), CompletedIn(orders, WindowsAt(loadTime).current));
      Success(DailySales(DailySource(orders, loadTime)))
  }

  /** The entries of `salesOverTime` add up to the unrounded sales total that
      `salesAnalytics` reports for the same window. */
  lemma SalesOverTimeTotal(rev: Revision, svc: Services, orders: seq<Order>, token: string, loadTime: int)
    requires SalesOverTime(rev, svc, orders, token, loadTime).Success?
    ensures SalesSum(SalesOverTime(rev, svc, orders, token, loadTime).value)
            == SumTotals(CompletedIn(orders, WindowsAt(loadTime).current))
  {
    var src := DailySource(orders, loadTime);
    DailySalesTotal(src);
    SumTotalsPermutation(src, CompletedIn(orders, WindowsAt(loadTime).current));
  }

  // ---------------------------------------------------------------------------
  // Low stock
  // ---------------------------------------------------------------------------

  const LowStockLimit: int := 50

  /** `{_id, title, sku, quantity, heroImg}` */
  datatype LowStockItem = LowStockItem(id: string, title: string, sku: string, quantity: int, heroImg: string)

  predicate IsLowStock(p: Product) { p.quantity <= LowStockLimit }

  /** The row for a product; its first image is the hero image. */
  function StockRow(p: Product): LowStockItem
    requires p.imgs != []
  {
    LowStockItem(p.id, p.title, p.sku, p.quantity, p.imgs[0].url)
  }

  /** `lowStockProducts`: every product with at most 50 units, in store order,
      with its first image; a low-stock product without images makes
      `imgs[0].url` throw. */
  function LowStockProducts(rev: Revision, svc: Services, products: seq<Product>, token: string): (r: Result<seq<LowStockItem>, Fault>)
    ensures AdminGate(rev, svc, token).Failure? ==> r == Failure(AdminGate(rev, svc, token).error)
    ensures AdminGate(rev, svc, token).Success? ==>
              (r.Success? <==> forall p :: p in products && IsLowStock(p) ==> p.imgs != [])
    ensures AdminGate(rev, svc, token).Success? && r.Failure? ==> r.error == Crash
    ensures r.Success? ==> forall p :: p in products && IsLowStock(p) ==> StockRow(p) in r.value
    ensures r.Success? ==> forall x :: x in r.value ==> exists p :: p in products && IsLowStock(p) && p.imgs != [] && x == StockRow(p)
    ensures r.Success? ==> var low := Filter(products, IsLowStock);
      && (forall i :: 0 <= i < |low| ==> low[i].imgs != [])
      && |r.value| == |low| && forall i :: 0 <= i < |low| ==> r.value[i] == StockRow(low[i])
  {
    match AdminGate(rev, svc, token)
    case Failure(f) => Failure(f)
    case Success(_) =>
      var low := Filter(products, IsLowStock);
      if exists i :: 0 <= i < |low| && low[i].imgs == [] then Failure(Crash)
      else
        StockRowsCover(products);
        Success(StockRows(low))
  }

  function StockRows(ps: seq<Product>): (r: seq<LowStockItem>)
    requires forall i :: 0 <= i < |ps| ==> ps[i].imgs != []
    ensures |r| == |ps| && forall i :: 0 <= i < |ps| ==> r[i] == StockRow(ps[i])
  {
    seq(|ps|, i requires 0 <= i < |ps| => StockRow(ps[i]))
  }

  /** The rows of the low-stock products are exactly the rows of the products
      with at most 50 units. */
  lemma StockRowsCover(products: seq<Product>)
    requires forall p :: p in products && IsLowStock(p) ==> p.imgs != []
    ensures var low := Filter(products, IsLowStock);
      (forall i :: 0 <= i < |low| ==> low[i].imgs != [])
      && (forall p :: p in products && IsLowStock(p) ==> StockRow(p) in StockRows(low))
      && (forall x :: x in StockRows(low) ==> exists p :: p in products && IsLowStock(p) && p.imgs != [] && x == StockRow(p))
  {
    var low := Filter(products, IsLowStock);
    assert forall i :: 0 <= i < |low| ==> low[i] in products && IsLowStock(low[i]);
    var rows := StockRows(low);
    forall p | p in products && IsLowStock(p)
      ensures StockRow(p) in rows
    {
      assert p in low;
      var i :| 0 <= i < |low| && low[i] == p;
      assert rows[i] == StockRow(p);
    }
    forall x | x in rows
      ensures exists p :: p in products && IsLowStock(p) && p.imgs != [] && x == StockRow(p)
    {
      var i :| 0 <= i < |rows| && rows[i] == x;
      assert low[i] in products && IsLowStock(low[i]);
    }
  }

  // ---------------------------------------------------------------------------
  // Line items per category
  // ---------------------------------------------------------------------------

  datatype CategoryCount = CategoryCount(category: string, count: int)

  /** `orders.flatMap(order => order.items)` */
  function Lines(os: seq<Order>): (r: seq<LineItem>)
    ensures forall li :: li in r <==> exists o :: o in os && li in o.items
  {
    if os == [] then []
    else
      assert forall o :: o in os <==> o == os[0] || o in os[1..];
      os[0].items + Lines(os[1..])
  }

  function AddInt(a: int, b: int): int { a + b }

  /** Each line item paired with its product's category and a count of one, or the
      crash of reading `category` from a product that no longer exists. */
  function CategoryPairs(items: seq<LineItem>, products: seq<Product>): (r: Result<seq<(string, int)>, Fault>)
    ensures r.Success? <==> forall i :: 0 <= i < |items| ==> ProductById(products, items[i].productId).Some?
    ensures r.Failure? ==> r.error == Crash
    ensures r.Success? ==> |r.value| == |items|
    ensures r.Success? ==> forall i :: 0 <= i < |items| ==> r.value[i] == (ProductById(products, items[i].productId).value.category, 1)
  {
    if forall i :: 0 <= i < |items| ==> ProductById(products, items[i].productId).Some? then
      Success(seq(|items|, i requires 0 <= i < |items| => (ProductById(products, items[i].productId).value.category, 1)))
    else Failure(Crash)
  }

  /** The per-category fold, one row per bucket; no category is listed twice. */
  function CategoryCounts(ps: seq<(string, int)>): (r: seq<CategoryCount>)
    ensures forall i, j :: 0 <= i < j < |r| ==> r[i].category != r[j].category
  {
    var g := GroupSum(ps, AddInt, 0);
    GroupSumSpec(ps, AddInt, 0);
    FirstKeysSpec(ps, "");
    seq(|g|, i requires 0 <= i < |g| => CategoryCount(g[i].key, g[i].amount))
  }

  /** `ordersByCategory`: the line items of the current window's completed orders
      counted per category of their product. */
  function OrdersByCategory(rev: Revision, svc: Services, orders: seq<Order>, products: seq<Product>, token: string, loadTime: int): (r: Result<seq<CategoryCount>, Fault>)
    ensures AdminGate(rev, svc, token).Failure? ==> r == Failure(AdminGate(rev, svc, token).error)
    ensures AdminGate(rev, svc, token).Success? ==>
              (r.Success? <==> CategoryPairs(Lines(CompletedIn(orders, WindowsAt(loadTime).current)), products).Success?)
    ensures r.Success? ==> forall i, j :: 0 <= i < j < |r.value| ==> r.value[i].category != r.value[j].category
    ensures r.Success? ==> var items := Lines(CompletedIn(orders, WindowsAt(loadTime).current));
      forall k :: 0 <= k < |items| ==>
        exists i :: 0 <= i < |r.value| && r.value[i].category == ProductById(products, items[k].productId).value.category
    ensures r.Success? ==> var items := Lines(CompletedIn(orders, WindowsAt(loadTime).current));
      forall i :: 0 <= i < |r.value| ==>
        r.value[i].count == ItemsIn(items, products, r.value[i].category) && r.value[i].count >= 1
  {
    match AdminGate(rev, svc, token)
    case Failure(f) => Failure(f)
    case Success(_) =>
      var items := Lines(CompletedIn(orders, WindowsAt(loadTime).current));
      match CategoryPairs(items, products)
      case Failure(f) => Failure(f)
      case Success(ps) =>
        CategoryRows(items, products, ps);
        Success(CategoryCounts(ps))
  }

  /** Whether a line item's product is in the category `c`. */
  predicate InCategory(products: seq<Product>, c: string, li: LineItem) {
    ProductById(products, li.productId).Some? && ProductById(products, li.productId).value.category == c
  }

  /** The number of line items whose product is in the category `c`. */
  function ItemsIn(items: seq<LineItem>, products: seq<Product>, c: string): nat
    decreases |items|
  {
    if items == [] then 0
    else ItemsIn(items[..|items| - 1], products, c) + (if InCategory(products, c, items[|items| - 1]) then 1 else 0)
  }

  /** A category some item is in counts at least one item. */
  lemma {:induction false} ItemsInPositive(items: seq<LineItem>, products: seq<Product>, c: string, k: int)
    requires 0 <= k < |items| && InCategory(products, c, items[k])
    ensures ItemsIn(items, products, c) >= 1
    decreases |items|
  {
    if k < |items| - 1 {
      ItemsInPositive(items[..|items| - 1], products, c, k);
    }
  }

  /** The rows over the category pairs of `items`: every item's category is
      listed, and each row counts the items in its category, at least one. */
  lemma CategoryRows(items: seq<LineItem>, products: seq<Product>, ps: seq<(string, int)>)
    requires |ps| == |items|
    requires forall i :: 0 <= i < |items| ==>
               ProductById(products, items[i].productId).Some? && ps[i] == (ProductById(products, items[i].productId).value.category, 1)
    ensures var rows := CategoryCounts(ps);
      && (forall k :: 0 <= k < |items| ==>
            exists i :: 0 <= i < |rows| && rows[i].category == ProductById(products, items[k].productId).value.category)
      && (forall i :: 0 <= i < |rows| ==> rows[i].count == ItemsIn(items, products, rows[i].category) && rows[i].count >= 1)
  {
    var rows := CategoryCounts(ps);
    forall k | 0 <= k < |items|
      ensures exists i :: 0 <= i < |rows| && rows[i].category == ProductById(products, items[k].productId).value.category
    {
      CategoryCountsSpec(ps, ps[k].0);
    }
    forall i | 0 <= i < |rows|
      ensures rows[i].count == ItemsIn(items, products, rows[i].category) && rows[i].count >= 1
    {
      var c := rows[i].category;
      CategoryCountsSpec(ps, c);
      OccurrencesCount(items, products, ps, c);
      var k :| 0 <= k < |ps| && ps[k].0 == c;
      ItemsInPositive(items, products, c, k);
    }
  }

  /** Counting the pairs of a category counts the items in it. */
  lemma {:induction false} OccurrencesCount(items: seq<LineItem>, products: seq<Product>, ps: seq<(string, int)>, c: string)
    requires |ps| == |items|
    requires forall i :: 0 <= i < |items| ==>
               ProductById(products, items[i].productId).Some? && ps[i].0 == ProductById(products, items[i].productId).value.category
    ensures Occurrences(ps, c) == ItemsIn(items, products, c)
    decreases |items|
  {
    if items != [] {
      OccurrencesCount(items[..|items| - 1], products, ps[..|ps| - 1], c);
    }
  }

  /** The number of pairs whose key is `k`. */
  function Occurrences(ps: seq<(string, int)>, k: string): nat
    decreases |ps|
  {
    if ps == [] then 0 else Occurrences(ps[..|ps| - 1], k) + (if ps[|ps| - 1].0 == k then 1 else 0)
  }

  /** With every amount one, a category's sum is the number of its line items. */
  lemma {:induction false} OnesCount(ps: seq<(string, int)>, k: string)
    requires forall i :: 0 <= i < |ps| ==> ps[i].1 == 1
    ensures SumFor(ps, k, AddInt, 0) == Occurrences(ps, k)
    decreases |ps|
  {
    if ps != [] {
      OnesCount(ps[..|ps| - 1], k);
    }
  }

  /** A category is listed exactly when some line item's product is in it, and
      its count is the number of such line items. */
  lemma CategoryCountsSpec(ps: seq<(string, int)>, c: string)
    requires forall i :: 0 <= i < |ps| ==> ps[i].1 == 1
    ensures var rows := CategoryCounts(ps);
      && ((exists i :: 0 <= i < |rows| && rows[i].category == c) <==> (exists k :: 0 <= k < |ps| && ps[k].0 == c))
      && (forall i :: 0 <= i < |rows| && rows[i].category == c ==> rows[i].count == Occurrences(ps, c))
  {
    GroupSumSpec(ps, AddInt, 0);
    FirstKeysSpec(ps, c);
    OnesCount(ps, c);
    var rows := CategoryCounts(ps);
    var fk := FirstKeys(ps);
    if exists k :: 0 <= k < |ps| && ps[k].0 == c {
      var i :| 0 <= i < |fk| && fk[i] == c;
      assert rows[i].category == c;
    }
    forall i | 0 <= i < |rows| && rows[i].category == c
      ensures exists k :: 0 <= k < |ps| && ps[k].0 == c
    {
      assert fk[i] == c;
    }
  }
  /** The counts of all listed categories, added up. */
  function CountSum(rows: seq<CategoryCount>): int
    decreases |rows|
  {
    if rows == [] then 0 else CountSum(rows[..|rows| - 1]) + rows[|rows| - 1].count
  }

  lemma {:induction false} CountSumOfBuckets(rows: seq<CategoryCount>, g: seq<Bucket<string, int>>)
    requires |rows| == |g| && forall i :: 0 <= i < |g| ==> rows[i].count == g[i].amount
    ensures CountSum(rows) == BucketTotal(g, AddInt, 0)
    decreases |g|
  {
    if g != [] {
      CountSumOfBuckets(rows[..|rows| - 1], g[..|g| - 1]);
    }
  }

  lemma {:induction false} OnesTotal(ps: seq<(string, int)>)
    requires forall i :: 0 <= i < |ps| ==> ps[i].1 == 1
    ensures PairTotal(ps, AddInt, 0) == |ps|
    decreases |ps|
  {
    if ps != [] {
      OnesTotal(ps[..|ps| - 1]);
    }
  }

  /** The counts of `ordersByCategory` add up to the number of line items of the
      window's completed orders. */
  lemma OrdersByCategoryTotal(rev: Revision, svc: Services, orders: seq<Order>, products: seq<Product>, token: string, loadTime: int)
    requires OrdersByCategory(rev, svc, orders, products, token, loadTime).Success?
    ensures CountSum(OrdersByCategory(rev, svc, orders, products, token, loadTime).value)
            == |Lines(CompletedIn(orders, WindowsAt(loadTime).current))|
  {
    var items := Lines(CompletedIn(orders, WindowsAt(loadTime).current));
    var ps := CategoryPairs(items, products).value;
    GroupSumSpec(ps, AddInt, 0);
    assert Monoid(AddInt, 0);
    GroupSumTotal(ps, AddInt, 0);
    CountSumOfBuckets(CategoryCounts(ps), GroupSum(ps, AddInt, 0));
    OnesTotal(ps);
  }
}

=== FILE: collections.dfy ===
/** Sequence operations standing for the document-store queries the resolvers
    issue: `findOne` (first match), `find` (all matches, in store order), an
    update of the matching documents, and a delete of the first match. */
module Collections {
  import opened Wrappers

  /** Index of the first element satisfying `p`. */
  function IndexOf<T>(xs: seq<T>, p: T -> bool): (r: Option<nat>)
    ensures r.Some? ==> r.value < |xs| && p(xs[r.value]) && forall j :: 0 <= j < r.value ==> !p(xs[j])
    ensures r.None? ==> forall j :: 0 <= j < |xs| ==> !p(xs[j])
  {
    if xs == [] then None
    else if p(xs[0]) then Some(0)
    else match IndexOf(xs[1..], p)
      case None => None
      case Some(i) => Some(i + 1)
  }

  /** `findOne`: the first element satisfying `p`. */
  function FindFirst<T>(xs: seq<T>, p: T -> bool): (r: Option<T>)
    ensures r.Some? <==> exists i :: 0 <= i < |xs| && p(xs[i])
    ensures r.Some? ==> r.value in xs && p(r.value)
  {
    match IndexOf(xs, p)
    case None => None
    case Some(i) => Some(xs[i])
  }

  /** `find`: every element satisfying `p`, in order. */
  function Filter<T(!new)>(xs: seq<T>, p: T -> bool): (r: seq<T>)
    ensures |r| <= |xs|
    ensures forall x :: x in r <==> x in xs && p(x)
    ensures forall x :: multiset(r)[x] == if p(x) then multiset(xs)[x] else 0
  {
    if xs == [] then []
    else
      assert xs == [xs[0]] + xs[1..];
      if p(xs[0]) then [xs[0]] + Filter(xs[1..], p) else Filter(xs[1..], p)
  }

  /** Filtering distributes over concatenation, so it keeps the store's order. */
  lemma {:induction false} FilterAppend<T(!new)>(xs: seq<T>, ys: seq<T>, p: T -> bool)
    ensures Filter(xs + ys, p) == Filter(xs, p) + Filter(ys, p)
    decreases |xs|
  {
    if xs == [] {
      assert xs + ys == ys;
    } else {
      assert (xs + ys)[0] == xs[0] && (xs + ys)[1..] == xs[1..] + ys;
      FilterAppend(xs[1..], ys, p);
    }
  }

  /** Filtering after appending one element. */
  lemma FilterSnoc<T(!new)>(xs: seq<T>, x: T, p: T -> bool)
    ensures Filter(xs + [x], p) == if p(x) then Filter(xs, p) + [x] else Filter(xs, p)
  {
    FilterAppend(xs, [x], p);
    assert [x][1..] == [];
    if !p(x) {
      assert Filter(xs, p) + [] == Filter(xs, p);
    }
  }

  /** Every element satisfying `p` is replaced by `f` of it; the others stay. */
  function UpdateWhere<T>(xs: seq<T>, p: T -> bool, f: T -> T): (r: seq<T>)
    ensures |r| == |xs|
    ensures forall i :: 0 <= i < |xs| ==> r[i] == if p(xs[i]) then f(xs[i]) else xs[i]
  {
    if xs == [] then [] else [if p(xs[0]) then f(xs[0]) else xs[0]] + UpdateWhere(xs[1..], p, f)
  }

  /** When `f` never changes whether `q` holds, `findOne(q)` after an update finds
      the same document it found before, updated if it matched `p`. */
  lemma {:induction false} UpdateWhereFindFirst<T>(xs: seq<T>, p: T -> bool, f: T -> T, q: T -> bool)
    requires forall x :: q(f(x)) == q(x)
    ensures FindFirst(UpdateWhere(xs, p, f), q)
            == match FindFirst(xs, q) case None => None case Some(x) => Some(if p(x) then f(x) else x)
  {
    var r := UpdateWhere(xs, p, f);
    assert forall j :: 0 <= j < |xs| ==> (q(r[j]) <==> q(xs[j]));
    match IndexOf(xs, q) {
      case None =>
        assert IndexOf(r, q).None?;
      case Some(i) =>
        IndexOfAt(r, q, i);
    }
  }

  /** The first position satisfying `p` is what `IndexOf` returns. */
  lemma IndexOfAt<T>(xs: seq<T>, p: T -> bool, i: int)
    requires 0 <= i < |xs| && p(xs[i]) && forall j :: 0 <= j < i ==> !p(xs[j])
    ensures IndexOf(xs, p) == Some(i)
  {
    var k := IndexOf(xs, p);
    assert k.Some?;
    assert !(k.value < i) && !(k.value > i);
  }

  /** Replacing the first match of `q` by another match makes that the match. */
  lemma UpdateAtFirst<T>(xs: seq<T>, i: int, y: T, q: T -> bool)
    requires IndexOf(xs, q) == Some(i) && q(y)
    ensures FindFirst(xs[i := y], q) == Some(y)
  {
    IndexOfAt(xs[i := y], q, i);
  }

  /** Replacing a non-match of `q` by another non-match leaves `findOne(q)` alone. */
  lemma UpdateAtOther<T>(xs: seq<T>, i: int, y: T, q: T -> bool)
    requires 0 <= i < |xs| && !q(xs[i]) && !q(y)
    ensures FindFirst(xs[i := y], q) == FindFirst(xs, q)
  {
    var r := xs[i := y];
    assert forall j :: 0 <= j < |xs| ==> (q(r[j]) <==> q(xs[j]));
    match IndexOf(xs, q) {
      case None =>
        assert IndexOf(r, q).None?;
      case Some(k) =>
        IndexOfAt(r, q, k);
    }
  }

  /** `findOneAndUpdate`: the first element satisfying `p` is replaced by `f` of
      it; every other position keeps its element. */
  function UpdateFirst<T>(xs: seq<T>, p: T -> bool, f: T -> T): (r: seq<T>)
    ensures |r| == |xs|
    ensures match IndexOf(xs, p)
      case None => r == xs
      case Some(i) => r[i] == f(xs[i]) && forall j :: 0 <= j < |xs| && j != i ==> r[j] == xs[j]
  {
    match IndexOf(xs, p)
    case None => xs
    case Some(i) => xs[i := f(xs[i])]
  }

  /** `findByIdAndDelete`: the first element satisfying `p` is removed. */
  function RemoveFirst<T>(xs: seq<T>, p: T -> bool): seq<T>
  {
    match IndexOf(xs, p)
    case None => xs
    case Some(i) => xs[..i] + xs[i + 1..]
  }

  /** When at most one element satisfies `p`, removing the first such element
      leaves none. */
  lemma RemoveFirstGone<T>(xs: seq<T>, p: T -> bool)
    requires forall i, j :: 0 <= i < |xs| && 0 <= j < |xs| && p(xs[i]) && p(xs[j]) ==> i == j
    ensures forall x :: x in RemoveFirst(xs, p) ==> !p(x)
  {
    match IndexOf(xs, p) {
      case None =>
      case Some(i) =>
        var r := xs[..i] + xs[i + 1..];
        forall x | x in r
          ensures !p(x)
        {
          var k :| 0 <= k < |r| && r[k] == x;
          if k < i {
            assert x == xs[k];
          } else {
            assert x == xs[k + 1];
          }
        }
    }
  }

  /** Appending documents does not change what `findOne` finds when the
      collection already held a match. */
  lemma FindFirstAppend<T>(xs: seq<T>, ys: seq<T>, p: T -> bool)
    requires exists i :: 0 <= i < |xs| && p(xs[i])
    ensures FindFirst(xs + ys, p) == FindFirst(xs, p)
  {
    var i := IndexOf(xs, p).value;
    assert forall j :: 0 <= j <= i ==> (xs + ys)[j] == xs[j];
    assert p((xs + ys)[i]);
    assert IndexOf(xs + ys, p) == Some(i);
  }

  /** An appended document is what `findOne` finds when nothing before it
      matched. */
  lemma FindFirstAppendNew<T>(xs: seq<T>, y: T, p: T -> bool)
    requires p(y) && forall i :: 0 <= i < |xs| ==> !p(xs[i])
    ensures FindFirst(xs + [y], p) == Some(y)
  {
    assert forall j :: 0 <= j < |xs| ==> (xs + [y])[j] == xs[j];
    IndexOfAt(xs + [y], p, |xs|);
  }
}

=== FILE: dates.dfy ===
/** The reporting windows of utilities/getDates.ts, recomputed from an explicit
    "now" (milliseconds since the epoch, UTC), and the UTC calendar day used to
    bucket sales. */
module Dates {

  const MsPerDay: int := 24 * 60 * 60 * 1000
  const WindowDays: int := 30

  /** An inclusive range of instants, `start <= t <= end`. */
  datatype Window = Window(start: int, end: int)

  datatype Windows = Windows(current: Window, past: Window)

  predicate InWindow(t: int, w: Window) {
    w.start <= t <= w.end
  }

  /** `date.setDate(date.getDate() - n)` on a UTC clock. */
  function DaysBefore(t: int, n: int): int {
    t - n * MsPerDay
  }

  /** The current window ends now and starts 30 days earlier; the past window
      ends one day before the current one starts and is 30 days long. */
  function WindowsAt(now: int): (w: Windows)
    ensures w.current.end == now
  {
    var currentStart := DaysBefore(now, WindowDays);
    var pastEnd := DaysBefore(currentStart, 1);
    Windows(Window(currentStart, now), Window(DaysBefore(pastEnd, WindowDays), pastEnd))
  }

  /** The boundaries are 30 days, 1 day and 30 days apart, strictly ordered, and no
      instant lies in both windows; the day between them lies in neither. */
  lemma WindowsShape(now: int, t: int)
    ensures WindowsAt(now).current.end - WindowsAt(now).current.start == 30 * MsPerDay
    ensures WindowsAt(now).current.start - WindowsAt(now).past.end == MsPerDay
    ensures WindowsAt(now).past.end - WindowsAt(now).past.start == 30 * MsPerDay
    ensures WindowsAt(now).past.start < WindowsAt(now).past.end < WindowsAt(now).current.start < WindowsAt(now).current.end
    ensures !(InWindow(t, WindowsAt(now).past) && InWindow(t, WindowsAt(now).current))
    ensures var w := WindowsAt(now);
      w.past.end < t < w.current.start ==> !InWindow(t, w.past) && !InWindow(t, w.current)
  {
  }

  /** A calendar date with a JavaScript month index (0 = January). */
  datatype CalendarDate = CalendarDate(year: int, monthIndex: int, day: int)

  predicate MonthNotAfter(y1: int, m1: int, y2: int, m2: int) {
    y1 < y2 || (y1 == y2 && m1 <= m2)
  }

  /** Start of the fiscal year: 1 August of this year from August on, otherwise 1
      August of the previous year; i.e. the latest 1 August not after the
      current month. */
  function FiscalStart(year: int, monthIndex: int): (r: CalendarDate)
    requires 0 <= monthIndex < 12
    ensures r.monthIndex == 7 && r.day == 1
    ensures MonthNotAfter(r.year, 7, year, monthIndex)
    ensures !MonthNotAfter(r.year + 1, 7, year, monthIndex)
  {
    if monthIndex >= 7 then CalendarDate(year, 7, 1) else CalendarDate(year - 1, 7, 1)
  }

  /** The UTC calendar day of an instant, the part of `toISOString()` before `T`
      (day 0 is 1970-01-01). Distinct day numbers are distinct date strings. */
  function UtcDay(t: int): int {
    t / MsPerDay
  }

  /** `new Date("YYYY-MM-DD")`: midnight UTC of a day. */
  function DayStart(d: int): int {
    d * MsPerDay
  }

  lemma UtcDayBounds(t: int)
    ensures DayStart(UtcDay(t)) <= t < DayStart(UtcDay(t)) + MsPerDay
  {
  }

  /** A day's midnight falls on that day. */
  lemma DayStartDay(d: int)
    ensures UtcDay(DayStart(d)) == d
  {
  }

  lemma UtcDayMonotone(t1: int, t2: int)
    requires t1 <= t2
    ensures UtcDay(t1) <= UtcDay(t2)
  {
  }
}

=== FILE: errors.dfy ===
/** The error vocabulary of the backend (`ErrorCode` in types.ts) and the ways a
    resolver can fail. */
module Errors {

  datatype ErrorCode =
    | UserNotFound
    | AlreadyExists
    | BadCredentials
    | ShippingAddressError
    | InternalServerError
    | NotAuthenticated
    | WrongUserType
    | ValidationError
    | InputError
    | NotFound
    | JwtTokenExpired
    | JwtTokenInvalid
    | JwtTokenMissing
    | GoogleError
    | TokenRevoked

  /** The string value of each enum member. */
  function CodeName(c: ErrorCode): (s: string)
    ensures |s| > 0
  {
    match c
    case UserNotFound => "USER_NOT_FOUND"
    case AlreadyExists => "ALREADY_EXISTS"
    case BadCredentials => "BAD_CREDENTIALS"
    case ShippingAddressError => "SHIPPING_ADDRESS_ERROR"
    case InternalServerError => "INTERNAL_SERVER_ERROR"
    case NotAuthenticated => "NOT_AUTHENTICATED"
    case WrongUserType => "WRONG_USER_TYPE"
    case ValidationError => "VALIDATION_ERROR"
    case InputError => "INPUT_ERROR"
    case NotFound => "NOT_FOUND"
    case JwtTokenExpired => "JWT_TOKEN_EXPIRED"
    case JwtTokenInvalid => "JWT_TOKEN_INVALID"
    case JwtTokenMissing => "JWT_TOKEN_MISSING"
    case GoogleError => "GOOGLE_ERROR"
    case TokenRevoked => "TOKEN_REVOKED"
  }

  /** The message of a `Named` fault identifies its code: no two members of
      the enum share a string value. */
  lemma CodeNameInjective(a: ErrorCode, b: ErrorCode)
    ensures CodeName(a) == CodeName(b) <==> a == b
  {
  }

  /** How an operation fails.
      - Coded: a GraphQLError whose `extensions.code` is the given code;
      - Thrown: a plain `Error` with the given message (the older resolvers throw
        `new Error(ErrorCode.X)`, i.e. a message equal to the code's name);
      - Invalid: a VALIDATION_ERROR GraphQLError carrying the field->message map;
      - Serialized: a plain `Error` whose message is `JSON.stringify` of that map;
      - Crash: a runtime TypeError raised inside the resolver (always with a
        non-empty message). */
  datatype Fault =
    | Coded(code: ErrorCode)
    | Thrown(message: string)
    | Invalid(errors: map<string, string>)
    | Serialized(errors: map<string, string>)
    | Crash

  /** A plain Error carrying a code's name as its message. */
  function Named(c: ErrorCode): Fault {
    Thrown(CodeName(c))
  }

  /** The older resolvers' catch block: `throw new Error(error.message ||
      ErrorCode.INTERNAL_SERVER_ERROR)`. Only an empty message is replaced. */
  function Rethrow(f: Fault): (r: Fault)
    ensures f.Thrown? && f.message == "" ==> r == Named(InternalServerError)
    ensures !(f.Thrown? && f.message == "") ==> r == f
  {
    if f.Thrown? && f.message == "" then Named(InternalServerError) else f
  }

  lemma RethrowIdempotent(f: Fault)
    ensures Rethrow(Rethrow(f)) == Rethrow(f)
  {
  }
}

=== FILE: form_validation.dfy ===
/** The form validator of utilities/validateForm.ts: a list of entries
    `{name, type, value, msg?, required?}` is turned into a field->message map. */
module FormValidation {
  import opened Wrappers
  import opened Text

  /** The dynamically typed `value` of an entry. */
  datatype Value =
    | Null
    | Undefined
    | Str(s: string)
    | Bool(b: bool)
    | Number(n: int)
    | List(items: seq<string>)

  /** One `ValidateSchema` entry; `kind` is the free-form `type` string. */
  datatype Entry = Entry(name: string, kind: string, value: Value, msg: Option<string>, required: Option<bool>)

  /** `String(value)`, what `RegExp.prototype.test` matches against. */
  function Coerce(v: Value): string {
    match v
    case Null => "null"
    case Undefined => "undefined"
    case Str(s) => s
    case Bool(b) => if b then "true" else "false"
    case Number(n) => IntToDecimal(n)
    case List(items) => JoinComma(items)
  }

  // ---------------------------------------------------------------------------
  // The three regular expressions, as string predicates
  // ---------------------------------------------------------------------------

  predicate EmailChar(c: char) { !IsSpace(c) && c != '@' }

  /** Every character of `s[lo..hi]` may stand in a `[^\s@]` run. */
  predicate EmailRun(s: string, lo: int, hi: int)
    requires 0 <= lo <= hi <= |s|
  {
    forall k :: lo <= k < hi ==> EmailChar(s[k])
  }

  /** `/^[^\s@]+@[^\s@]+\.[^\s@]+$/` read literally: three non-empty runs of
      characters that are neither whitespace nor `@`, separated by `@` at index
      `i` and by a `.` at index `j`. */
  ghost predicate EmailRegex(s: string) {
    exists i, j :: 0 < i && i + 1 < j && j + 1 < |s| && s[i] == '@' && s[j] == '.'
      && EmailRun(s, 0, i) && EmailRun(s, i + 1, j) && EmailRun(s, j + 1, |s|)
  }

  predicate NoSpace(s: string) {
    forall k :: 0 <= k < |s| ==> !IsSpace(s[k])
  }

  /** `s[i]` is the one and only `@` of `s`. */
  predicate SoleAt(s: string, i: int) {
    0 <= i < |s| && s[i] == '@' && forall k :: 0 <= k < |s| && k != i ==> s[k] != '@'
  }

  /** Some `.` follows index `i + 1` and is not the last character. */
  predicate DotAfter(s: string, i: int)
    requires 0 <= i
  {
    exists j :: i + 1 < j < |s| - 1 && s[j] == '.'
  }

  /** The shape checked by `validEmail.test`: no whitespace, exactly one `@`, not
      first, and a `.` after it that is neither right after the `@` nor last. */
  predicate ValidEmail(s: string) {
    NoSpace(s) && exists i :: 0 < i < |s| && SoleAt(s, i) && DotAfter(s, i)
  }

  lemma ValidEmailIsRegex(s: string)
    requires ValidEmail(s)
    ensures EmailRegex(s)
  {
    var i :| 0 < i < |s| && SoleAt(s, i) && DotAfter(s, i);
    var j :| i + 1 < j < |s| - 1 && s[j] == '.';
    assert EmailRun(s, 0, i) && EmailRun(s, i + 1, j) && EmailRun(s, j + 1, |s|) by {
      forall k | 0 <= k < |s| && k != i
        ensures EmailChar(s[k])
      {
        assert !IsSpace(s[k]);
      }
    }
  }

  lemma RegexIsValidEmail(s: string)
    requires EmailRegex(s)
    ensures ValidEmail(s)
  {
    var i, j :| 0 < i && i + 1 < j && j + 1 < |s| && s[i] == '@' && s[j] == '.'
      && EmailRun(s, 0, i) && EmailRun(s, i + 1, j) && EmailRun(s, j + 1, |s|);
    forall k | 0 <= k < |s| && k != i
      ensures EmailChar(s[k]) || k == j
    {
      if k < i {
        assert EmailRun(s, 0, i);
      } else if k < j {
        assert EmailRun(s, i + 1, j);
      } else if k > j {
        assert EmailRun(s, j + 1, |s|);
      }
    }
    assert SoleAt(s, i);
    assert DotAfter(s, i);
  }

  /** The executable shape agrees with the regular expression on every string. */
  lemma ValidEmailMatchesRegex(s: string)
    ensures ValidEmail(s) <==> EmailRegex(s)
  {
    if ValidEmail(s) {
      ValidEmailIsRegex(s);
    }
    if EmailRegex(s) {
      RegexIsValidEmail(s);
    }
  }

  predicate PasswordChar(c: char) {
    IsLetter(c) || IsDigit(c) || c in "@$!%*?&"
  }

  /** `passwordRegex`: at least 8 characters from `[A-Za-z\d@$!%*?&]`, with at
      least one lower-case letter, one upper-case letter, one digit and one of
      `@$!%*?&`. */
  predicate StrongPassword(s: string) {
    && |s| >= 8
    && (forall k :: 0 <= k < |s| ==> PasswordChar(s[k]))
    && (exists k :: 0 <= k < |s| && IsLower(s[k]))
    && (exists k :: 0 <= k < |s| && IsUpper(s[k]))
    && (exists k :: 0 <= k < |s| && IsDigit(s[k]))
    && (exists k :: 0 <= k < |s| && s[k] in "@$!%*?&")
  }

  /** `/^[A-Za-z].*[0-9]$/`: a leading letter, a trailing digit, and no line
      terminator in between. */
  predicate AlphaNumeric(s: string) {
    && |s| >= 2
    && IsLetter(s[0])
    && IsDigit(s[|s| - 1])
    && (forall k :: 1 <= k < |s| - 1 ==> !IsLineTerminator(s[k]))
  }

  // ---------------------------------------------------------------------------
  // `value <= 0`
  // ---------------------------------------------------------------------------

  /** The leading-whitespace strip of `ToNumber`: a suffix of `s` that drops
      only white space and starts with none. */
  function TrimStart(s: string): (r: string)
    ensures |r| <= |s| && r == s[|s| - |r|..]
    ensures forall i :: 0 <= i < |s| - |r| ==> IsSpace(s[i])
    ensures r == [] || !IsSpace(r[0])
  {
    if s != [] && IsSpace(s[0]) then TrimStart(s[1..]) else s
  }

  /** The trailing-whitespace strip: a prefix of `s` that drops only white
      space and ends with none. */
  function TrimEnd(s: string): (r: string)
    ensures |r| <= |s| && r == s[..|r|]
    ensures forall i :: |r| <= i < |s| ==> IsSpace(s[i])
    ensures r == [] || !IsSpace(r[|r| - 1])
  {
    if s != [] && IsSpace(s[|s| - 1]) then TrimEnd(s[..|s| - 1]) else s
  }

  /** A plain decimal literal: digits with at most one `.`, and at least one digit. */
  predicate DecimalBody(t: string) {
    && (forall k :: 0 <= k < |t| ==> IsDigit(t[k]) || t[k] == '.')
    && (forall k, m :: 0 <= k < m < |t| && t[k] == '.' ==> t[m] != '.')
    && (exists k :: 0 <= k < |t| && IsDigit(t[k]))
  }

  predicate AllZero(t: string) {
    forall k :: 0 <= k < |t| ==> t[k] == '0' || t[k] == '.'
  }

  /** `s <= 0` for a string `s`: JavaScript converts it with `ToNumber`; a blank
      string is 0, a signed decimal literal is its value, anything else is NaN
      and the comparison is false. */
  predicate TextNonPositive(s: string) {
    var t := TrimEnd(TrimStart(s));
    if t == [] then true
    else if t[0] == '-' then DecimalBody(t[1..])
    else if t[0] == '+' then DecimalBody(t[1..]) && AllZero(t[1..])
    else DecimalBody(t) && AllZero(t)
  }

  /** `value <= 0` in JavaScript's loose comparison. */
  predicate NonPositive(v: Value) {
    match v
    case Null => true
    case Undefined => false
    case Str(s) => TextNonPositive(s)
    case Bool(b) => !b
    case Number(n) => n <= 0
    case List(items) => TextNonPositive(JoinComma(items))
  }

  // ---------------------------------------------------------------------------
  // One entry
  // ---------------------------------------------------------------------------

  const PasswordHint: string :=
    "Please insert password in correct format.\n                            Minimum 8 characters, at least 1 uppercase, 1 lowercase, 1 number and 1 special character."

  /** `value === '' || value === null` */
  predicate IsBlank(v: Value) { v == Null || v == Str("") }

  /** `Array.isArray(value) && value.length < 1` */
  predicate IsEmptyList(v: Value) { v.List? && |v.items| == 0 }

  /** `required !== false` */
  predicate IsRequired(e: Entry) { e.required != Some(false) }

  /** `msg || fallback`: an empty `msg` is falsy too. */
  function Message(e: Entry, fallback: string): string {
    if e.msg.Some? && e.msg.value != "" then e.msg.value else fallback
  }

  /** The error one entry contributes, as a (key, message) pair, or None. */
  function EntryError(e: Entry): Option<(string, string)> {
    if IsBlank(e.value) then
      if !IsRequired(e) then None
      else if e.kind == "boolean" then Some((e.name, Message(e, "Please select " + e.name + ".")))
      else Some((e.name, Message(e, "Please insert " + e.name + ".")))
    else if IsEmptyList(e.value) then
      if !IsRequired(e) then None
      else if e.kind == "file" then Some((e.name, Message(e, "Please upload " + e.name + ".")))
      else if e.kind == "checkbox" then Some((e.name, Message(e, "Please choose " + e.name + ".")))
      else None
    else if e.kind == "alphaNumeric" then
      if AlphaNumeric(Coerce(e.value)) then None
      else Some((e.name, Message(e, "Please insert value in alpha numeric format.")))
    else if e.kind == "email" then
      if ValidEmail(Coerce(e.value)) then None
      else Some(("email", Message(e, "Please insert email in correct format.")))
    else if e.kind == "password" then
      if StrongPassword(Coerce(e.value)) then None
      else Some(("password", Message(e, PasswordHint)))
    else if e.kind == "number" then
      if NonPositive(e.value) && IsRequired(e) then Some((e.name, Message(e, "Please insert valid " + e.name + ".")))
      else None
    else None
  }

  /** Entry `e` writes key `k`. */
  predicate Raises(e: Entry, k: string) {
    EntryError(e).Some? && EntryError(e).value.0 == k
  }

  /** The merged error map: entries are applied in order with `{...errors,
      ...error}`, so a later entry overwrites an earlier one with the same key. */
  function ValidateForm(es: seq<Entry>): map<string, string>
    decreases |es|
  {
    if es == [] then map[]
    else
      var prev := ValidateForm(es[..|es| - 1]);
      match EntryError(es[|es| - 1])
      case None => prev
      case Some(kv) => prev[kv.0 := kv.1]
  }

  /** A key is in the result exactly when some entry raises it. */
  lemma {:induction false} ValidateFormKeys(es: seq<Entry>, k: string)
    ensures k in ValidateForm(es) <==> exists i :: 0 <= i < |es| && Raises(es[i], k)
    decreases |es|
  {
    if es != [] {
      var init := es[..|es| - 1];
      ValidateFormKeys(init, k);
      assert forall i :: 0 <= i < |init| ==> init[i] == es[i];
      if Raises(es[|es| - 1], k) {
        assert k in ValidateForm(es);
      }
    }
  }

  /** The message under a key is that of the last entry raising the key. */
  lemma {:induction false} ValidateFormLastWins(es: seq<Entry>, i: int, k: string)
    requires 0 <= i < |es| && Raises(es[i], k)
    requires forall j :: i < j < |es| ==> !Raises(es[j], k)
    ensures k in ValidateForm(es) && ValidateForm(es)[k] == EntryError(es[i]).value.1
    decreases |es|
  {
    var init := es[..|es| - 1];
    if i < |es| - 1 {
      assert forall j :: i < j < |init| ==> init[j] == es[j];
      ValidateFormLastWins(init, i, k);
      assert !Raises(es[|es| - 1], k);
    }
  }

  /** The map is empty exactly when every entry passes. */
  lemma {:induction false} ValidateFormEmpty(es: seq<Entry>)
    ensures ValidateForm(es) == map[] <==> forall i :: 0 <= i < |es| ==> EntryError(es[i]).None?
    decreases |es|
  {
    if es != [] {
      var init := es[..|es| - 1];
      ValidateFormEmpty(init);
      assert forall i :: 0 <= i < |init| ==> init[i] == es[i];
      match EntryError(es[|es| - 1])
      case None =>
      case Some(kv) =>
        assert kv.0 in ValidateForm(es);
    }
  }

  // ---------------------------------------------------------------------------
  // The individual rules, stated on the merged map
  // ---------------------------------------------------------------------------

  /** No entry after index `i` writes key `k`. */
  predicate LastToRaise(es: seq<Entry>, i: int, k: string)
    requires 0 <= i < |es|
  {
    forall j :: i < j < |es| ==> !Raises(es[j], k)
  }

  /** An empty or null required value is reported under its own name, with `msg`
      or "Please select {name}." for booleans and "Please insert {name}." for
      everything else. */
  lemma BlankRequiredReported(es: seq<Entry>, i: int)
    requires 0 <= i < |es| && IsBlank(es[i].value) && IsRequired(es[i])
    requires LastToRaise(es, i, es[i].name)
    ensures es[i].name in ValidateForm(es)
    ensures ValidateForm(es)[es[i].name]
      == Message(es[i], (if es[i].kind == "boolean" then "Please select " else "Please insert ") + es[i].name + ".")
  {
    ValidateFormLastWins(es, i, es[i].name);
  }

  /** `required: false` silences the empty-value, empty-array and non-positive
      number rules: such an entry adds nothing to the map. */
  lemma NotRequiredSilent(es: seq<Entry>, i: int, k: string)
    requires 0 <= i < |es| && es[i].required == Some(false)
    requires IsBlank(es[i].value) || IsEmptyList(es[i].value) || es[i].kind == "number"
    ensures !Raises(es[i], k)
  {
  }

  /** An empty array is an error only for `file` and `checkbox` entries. */
  lemma EmptyListRule(e: Entry, k: string)
    requires IsEmptyList(e.value)
    ensures Raises(e, k) <==> IsRequired(e) && (e.kind == "file" || e.kind == "checkbox") && k == e.name
  {
  }

  /** A malformed email is reported under the literal key `email`, whatever the
      entry is called. */
  lemma EmailKeyedLiterally(es: seq<Entry>, i: int)
    requires 0 <= i < |es| && es[i].kind == "email"
    requires !IsBlank(es[i].value) && !IsEmptyList(es[i].value)
    requires !EmailRegex(Coerce(es[i].value))
    requires LastToRaise(es, i, "email")
    ensures "email" in ValidateForm(es)
    ensures ValidateForm(es)["email"] == Message(es[i], "Please insert email in correct format.")
  {
    ValidEmailMatchesRegex(Coerce(es[i].value));
    ValidateFormLastWins(es, i, "email");
  }

  /** A password entry raises the literal key `password` (even when it is called
      `newPassword`) exactly when the value is not a strong password. */
  lemma PasswordKeyedLiterally(e: Entry, k: string)
    requires e.kind == "password" && !IsBlank(e.value) && !IsEmptyList(e.value)
    ensures Raises(e, k) <==> k == "password" && !StrongPassword(Coerce(e.value))
  {
  }

  /** A required `number` entry whose value is at most zero is reported under its
      own name; an `alphaNumeric` entry is reported exactly when it does not
      start with a letter and end with a digit. */
  lemma NumberAndAlphaNumericRules(e: Entry, k: string)
    requires !IsBlank(e.value) && !IsEmptyList(e.value)
    ensures e.kind == "number" ==> (Raises(e, k) <==> IsRequired(e) && NonPositive(e.value) && k == e.name)
    ensures e.kind == "alphaNumeric" ==> (Raises(e, k) <==> !AlphaNumeric(Coerce(e.value)) && k == e.name)
  {
  }

  /** Entries of type `string` and of any unrecognised type pass whenever the
      value is neither blank nor an empty array. */
  lemma OtherKindsPass(e: Entry)
    requires !IsBlank(e.value) && !IsEmptyList(e.value)
    requires e.kind !in {"alphaNumeric", "email", "password", "number"}
    ensures EntryError(e) == None
  {
  }
}

=== FILE: grouping.dfy ===
/** The "count or sum into an object, then list its entries" idiom of the
    analytics resolvers: `acc[key] = acc[key] || 0; acc[key] += amount`, followed
    by `Object.entries(acc)`. Keys appear in the order they were first met. */
module Grouping {
  import opened Wrappers
  import opened Collections

  datatype Bucket<K, W> = Bucket(key: K, amount: W)

  /** One step of the fold: add `w` to the bucket for `k`, opening it at `zero`
      when `k` is new. */
  function Accumulate<K(==), W>(acc: seq<Bucket<K, W>>, k: K, w: W, plus: (W, W) -> W, zero: W): seq<Bucket<K, W>> {
    match IndexOf(acc, (b: Bucket<K, W>) => b.key == k)
    case None => acc + [Bucket(k, plus(zero, w))]
    case Some(i) => acc[i := Bucket(k, plus(acc[i].amount, w))]
  }

  /** The fold over all pairs, left to right. */
  function GroupSum<K(==), W>(ps: seq<(K, W)>, plus: (W, W) -> W, zero: W): seq<Bucket<K, W>>
    decreases |ps|
  {
    if ps == [] then []
    else
      var last := ps[|ps| - 1];
      Accumulate(GroupSum(ps[..|ps| - 1], plus, zero), last.0, last.1, plus, zero)
  }

  // ---------------------------------------------------------------------------
  // Reference definition
  // ---------------------------------------------------------------------------

  /** The distinct keys of `ps`, in order of first appearance. */
  function FirstKeys<K(==), W>(ps: seq<(K, W)>): seq<K>
    decreases |ps|
  {
    if ps == [] then []
    else
      var prior := FirstKeys(ps[..|ps| - 1]);
      if ps[|ps| - 1].0 in prior then prior else prior + [ps[|ps| - 1].0]
  }

  /** The amounts paired with `k`, added up from `zero` left to right. */
  function SumFor<K(==), W>(ps: seq<(K, W)>, k: K, plus: (W, W) -> W, zero: W): W
    decreases |ps|
  {
    if ps == [] then zero
    else
      var prior := SumFor(ps[..|ps| - 1], k, plus, zero);
      if ps[|ps| - 1].0 == k then plus(prior, ps[|ps| - 1].1) else prior
  }

  predicate Distinct<K(==)>(ks: seq<K>) {
    forall i, j :: 0 <= i < j < |ks| ==> ks[i] != ks[j]
  }

  /** `FirstKeys` lists every key of `ps` exactly once. */
  lemma {:induction false} FirstKeysSpec<K, W>(ps: seq<(K, W)>, k: K)
    ensures Distinct(FirstKeys(ps))
    ensures k in FirstKeys(ps) <==> exists i :: 0 <= i < |ps| && ps[i].0 == k
    decreases |ps|
  {
    if ps != [] {
      var init := ps[..|ps| - 1];
      FirstKeysSpec(init, k);
      assert forall i :: 0 <= i < |init| ==> init[i] == ps[i];
      if k in FirstKeys(ps) && !(k in FirstKeys(init)) {
        assert ps[|ps| - 1].0 == k;
      }
    }
  }

  /** A key that never occurs sums to `zero`. */
  lemma {:induction false} SumForAbsent<K, W>(ps: seq<(K, W)>, k: K, plus: (W, W) -> W, zero: W)
    requires forall i :: 0 <= i < |ps| ==> ps[i].0 != k
    ensures SumFor(ps, k, plus, zero) == zero
    decreases |ps|
  {
    if ps != [] {
      SumForAbsent(ps[..|ps| - 1], k, plus, zero);
    }
  }

  /** The fold yields one bucket per distinct key, in first-appearance order, and
      each bucket holds the sum of the amounts paired with its key. */
  lemma {:induction false} GroupSumSpec<K, W>(ps: seq<(K, W)>, plus: (W, W) -> W, zero: W)
    ensures |GroupSum(ps, plus, zero)| == |FirstKeys(ps)|
    ensures forall i :: 0 <= i < |FirstKeys(ps)| ==>
              GroupSum(ps, plus, zero)[i] == Bucket(FirstKeys(ps)[i], SumFor(ps, FirstKeys(ps)[i], plus, zero))
    decreases |ps|
  {
    if ps != [] {
      var init := ps[..|ps| - 1];
      var k := ps[|ps| - 1].0;
      var w := ps[|ps| - 1].1;
      GroupSumSpec(init, plus, zero);
      FirstKeysSpec(init, k);
      var g := GroupSum(init, plus, zero);
      var fk := FirstKeys(init);
      var p := (b: Bucket<K, W>) => b.key == k;
      assert forall i :: 0 <= i < |g| ==> (p(g[i]) <==> fk[i] == k);
      if k in fk {
        var i := IndexOf(g, p).value;
        assert fk[i] == k;
        assert forall j :: 0 <= j < |fk| && j != i ==> fk[j] != k;
      } else {
        assert IndexOf(g, p).None?;
        SumForAbsent(init, k, plus, zero);
      }
    }
  }

  /** When the keys arrive in non-decreasing order, the buckets come out in
      strictly increasing key order. */
  lemma {:induction false} FirstKeysAscending<W>(ps: seq<(int, W)>)
    requires forall i, j :: 0 <= i < j < |ps| ==> ps[i].0 <= ps[j].0
    ensures forall i, j :: 0 <= i < j < |FirstKeys(ps)| ==> FirstKeys(ps)[i] < FirstKeys(ps)[j]
    ensures FirstKeys(ps) != [] ==> FirstKeys(ps)[|FirstKeys(ps)| - 1] == ps[|ps| - 1].0
    decreases |ps|
  {
    if ps != [] {
      var init := ps[..|ps| - 1];
      FirstKeysAscending(init);
      var k := ps[|ps| - 1].0;
      var fk := FirstKeys(init);
      forall i | 0 <= i < |fk|
        ensures fk[i] <= k
      {
        FirstKeysSpec(init, fk[i]);
        var j :| 0 <= j < |init| && init[j].0 == fk[i];
      }
      if k in fk {
        assert fk != [];
        assert fk[|fk| - 1] == init[|init| - 1].0;
        assert init[|init| - 1].0 <= k;
        var m :| 0 <= m < |fk| && fk[m] == k;
        assert fk[|fk| - 1] == k;
      }
    }
  }
  // ---------------------------------------------------------------------------
  // Totals
  // ---------------------------------------------------------------------------

  /** The amounts of all buckets, added up from `zero` left to right. */
  function BucketTotal<K, W>(bs: seq<Bucket<K, W>>, plus: (W, W) -> W, zero: W): W
    decreases |bs|
  {
    if bs == [] then zero else plus(BucketTotal(bs[..|bs| - 1], plus, zero), bs[|bs| - 1].amount)
  }

  /** The amounts of all pairs, added up from `zero` left to right. */
  function PairTotal<K, W>(ps: seq<(K, W)>, plus: (W, W) -> W, zero: W): W
    decreases |ps|
  {
    if ps == [] then zero else plus(PairTotal(ps[..|ps| - 1], plus, zero), ps[|ps| - 1].1)
  }

  /** `plus` is associative and commutative with `zero` as its unit. */
  ghost predicate Monoid<W(!new)>(plus: (W, W) -> W, zero: W) {
    && (forall a, b, c :: plus(plus(a, b), c) == plus(a, plus(b, c)))
    && (forall a, b :: plus(a, b) == plus(b, a))
    && (forall a :: plus(zero, a) == a)
  }

  /** Adding `w` to one bucket adds `w` to the total. */
  lemma {:induction false} BucketTotalUpdate<K, W(!new)>(bs: seq<Bucket<K, W>>, i: int, w: W, plus: (W, W) -> W, zero: W)
    requires Monoid(plus, zero) && 0 <= i < |bs|
    ensures BucketTotal(bs[i := Bucket(bs[i].key, plus(bs[i].amount, w))], plus, zero) == plus(BucketTotal(bs, plus, zero), w)
    decreases |bs|
  {
    var n := |bs|;
    var after := bs[i := Bucket(bs[i].key, plus(bs[i].amount, w))];
    var init := bs[..n - 1];
    var t := BucketTotal(init, plus, zero);
    if i == n - 1 {
      assert after[..n - 1] == init;
      assert plus(t, plus(bs[i].amount, w)) == plus(plus(t, bs[i].amount), w);
    } else {
      assert after[..n - 1] == init[i := Bucket(init[i].key, plus(init[i].amount, w))];
      BucketTotalUpdate(init, i, w, plus, zero);
      var last := bs[n - 1].amount;
      calc {
        BucketTotal(after, plus, zero);
        plus(plus(t, w), last);
        plus(t, plus(w, last));
        { assert plus(w, last) == plus(last, w); }
        plus(t, plus(last, w));
        plus(plus(t, last), w);
      }
    }
  }

  /** Grouping loses and invents nothing: the buckets add up to the total of all
      the pairs. */
  lemma {:induction false} GroupSumTotal<K, W(!new)>(ps: seq<(K, W)>, plus: (W, W) -> W, zero: W)
    requires Monoid(plus, zero)
    ensures BucketTotal(GroupSum(ps, plus, zero), plus, zero) == PairTotal(ps, plus, zero)
    decreases |ps|
  {
    if ps != [] {
      var init := ps[..|ps| - 1];
      var k := ps[|ps| - 1].0;
      var w := ps[|ps| - 1].1;
      GroupSumTotal(init, plus, zero);
      var g := GroupSum(init, plus, zero);
      match IndexOf(g, (b: Bucket<K, W>) => b.key == k) {
        case None =>
          var b := Bucket(k, plus(zero, w));
          assert (g + [b])[..|g|] == g;
        case Some(i) =>
          assert g[i].key == k;
          BucketTotalUpdate(g, i, w, plus, zero);
      }
    }
  }
}

=== FILE: guard.dfy ===
/** The authorization guard every privileged resolver runs before it touches a
    store. Both revisions of the server run the same three steps (token present,
    token verifies, role allowed); they differ only in the fault reported for an
    absent token and for a wrong role, and in which secret verifies the token. */
module Guard {
  import opened Wrappers
  import opened Errors
  import opened Tokens

  /** `schema/` reads a header token; `gqlSchema/` is the cookie-based rewrite. */
  datatype Revision = Header | Cookie

  datatype Requirement = AnyRole | Only(role: Role)

  predicate Allows(need: Requirement, role: Role) {
    need.AnyRole? || need.role == role
  }

  /** The faults a resolver reports when the token is absent and when the role is
      wrong. A token that fails verification always surfaces `verifyUser`'s own
      error: `verifyUser` never returns a falsy value, so the `if (!user)` branch
      that follows it in every resolver is dead. */
  datatype GuardPolicy = GuardPolicy(missing: Fault, wrongRole: Fault)

  /** The guard: no token gives `policy.missing`; a token that does not verify
      under `secret` gives the verification fault; a verified identity whose role
      the requirement does not allow gives `policy.wrongRole`. Success hands back
      the verified identity, which always has an allowed role. */
  function Check(policy: GuardPolicy, secret: Option<string>, verify: Verifier, token: string, need: Requirement): (r: Result<Identity, Fault>)
    ensures token == "" ==> r == Failure(policy.missing)
    ensures r.Success? <==> (token != "" && VerifyUser(secret, verify, token).Success?
                             && Allows(need, VerifyUser(secret, verify, token).value.role))
    ensures r.Success? ==> r.value == VerifyUser(secret, verify, token).value
    ensures token != "" && VerifyUser(secret, verify, token).Failure? ==> r == VerifyUser(secret, verify, token)
    ensures (token != "" && VerifyUser(secret, verify, token).Success?
             && !Allows(need, VerifyUser(secret, verify, token).value.role)) ==> r == Failure(policy.wrongRole)
  {
    if token == "" then Failure(policy.missing)
    else
      match VerifyUser(secret, verify, token)
      case Failure(f) => Failure(f)
      case Success(u) => if Allows(need, u.role) then Success(u) else Failure(policy.wrongRole)
  }

  /** A valid token with the wrong role never gets through, whatever the policy. */
  lemma WrongRoleNeverPasses(policy: GuardPolicy, secret: Option<string>, verify: Verifier, token: string, role: Role)
    requires token != "" && Configured(secret) && verify(token, secret.value).Valid?
    requires verify(token, secret.value).claims.role != role
    ensures Check(policy, secret, verify, token, Only(role)) == Failure(policy.wrongRole)
  {
  }

  // ---------------------------------------------------------------------------
  // The policies used by the resolvers
  // ---------------------------------------------------------------------------

  /** `gqlSchema/` resolvers reading `context.token` (analytics, orders, products,
      reviews) and both revisions' wish-list resolvers. */
  const TokenPolicy: GuardPolicy := GuardPolicy(Coded(JwtTokenMissing), Coded(WrongUserType))

  /** `gqlSchema/` resolvers reading `context.auth` (users, wish lists, password
      change): the context holds `getAuth(token)`, null when there is no token. */
  const ContextPolicy: GuardPolicy := GuardPolicy(Coded(NotAuthenticated), Coded(WrongUserType))

  /** `schema/` analytics and `updateOrderStatus`: plain NOT_AUTHENTICATED errors. */
  const LegacyStrictPolicy: GuardPolicy := GuardPolicy(Named(NotAuthenticated), Named(NotAuthenticated))

  /** `schema/` order queries and `createOrder`. */
  const LegacyOrderPolicy: GuardPolicy := GuardPolicy(Named(JwtTokenMissing), Named(NotAuthenticated))

  /** `schema/` product mutations; they check no role. */
  const LegacyProductPolicy: GuardPolicy := GuardPolicy(Thrown("Not Authenticated"), Thrown("Not Authenticated"))

  /** The context-style guard is `getAuth` followed by the role check: no token
      means a null `auth` and NOT_AUTHENTICATED, a token that does not verify fails
      `getAuth` itself, and a wrong role is WRONG_USER_TYPE. */
  lemma ContextGuardIsGetAuth(env: Env, verify: Verifier, token: string, need: Requirement)
    ensures var r := Check(ContextPolicy, env.accessSecret, verify, token, need);
      match GetAuth(env, verify, token)
      case Failure(f) => r == Failure(f)
      case Success(None) => r == Failure(Coded(NotAuthenticated))
      case Success(Some(u)) => r == (if Allows(need, u.role) then Success(u) else Failure(Coded(WrongUserType)))
  {
  }

  /** A fault whose message survives `Rethrow` unchanged. */
  predicate Surviving(f: Fault) {
    !(f.Thrown? && f.message == "")
  }

  /** The guard as a resolver of either revision runs it: the cookie revision
      throws the guard's fault directly; the header revision runs it inside a
      `try` whose `catch` rethrows the message (an empty one would become
      INTERNAL_SERVER_ERROR). Since every guard fault carries a message, the
      rethrow changes nothing. */
  function Gate(rev: Revision, cookie: GuardPolicy, header: GuardPolicy, secret: Option<string>, verify: Verifier, token: string, need: Requirement): (r: Result<Identity, Fault>)
    requires Surviving(header.missing) && Surviving(header.wrongRole)
    ensures r == Check(if rev.Cookie? then cookie else header, secret, verify, token, need)
  {
    if rev.Cookie? then Check(cookie, secret, verify, token, need)
    else
      match Check(header, secret, verify, token, need)
      case Failure(f) => Failure(Rethrow(f))
      case Success(u) => Success(u)
  }
}

=== FILE: legacy_auth.dfy ===
/** The header-token session resolvers of schema/resolvers/auth.resolver.ts: a
    single four-hour token signed with JWTSECRET, no refresh token and no
    cookies. */
module LegacyAuth {
  import opened Wrappers
  import opened Errors
  import opened Text
  import opened Tokens
  import opened Store
  import opened Services
  import FormValidation
  import Sessions

  /** `jsonwebtoken.sign` throws when the secret is unset or empty. */
  function SignLegacy(svc: Services, payload: Identity, nowSeconds: int): (r: Result<string, Fault>)
    ensures r.Failure? <==> !Configured(svc.env.jwtSecret)
    ensures r.Failure? ==> r.error == Crash
    ensures r.Success? ==> r.value == svc.sign(payload, svc.env.jwtSecret.value, LegacyLifetimeSeconds, nowSeconds)
  {
    if !Configured(svc.env.jwtSecret) then Failure(Crash)
    else Success(svc.sign(payload, svc.env.jwtSecret.value, LegacyLifetimeSeconds, nowSeconds))
  }

  /** `logInAdmin`: no store lookup at all; the configured credentials yield a
      token for the configured ADMIN_ID, anything else is "Bad Credentials". */
  function LogInAdmin(svc: Services, email: string, password: string, nowSeconds: int): (r: Result<string, Fault>)
    ensures r.Success? <==> Sessions.IsAdminLogin(svc.env, email, password) && Configured(svc.env.jwtSecret)
    ensures !Sessions.IsAdminLogin(svc.env, email, password) ==> r == Failure(Thrown("Bad Credentials"))
    ensures r.Success? ==> r.value == svc.sign(Identity(Admin, svc.env.adminId.GetOr("")), svc.env.jwtSecret.value, LegacyLifetimeSeconds, nowSeconds)
  {
    if Sessions.IsAdminLogin(svc.env, email, password) then
      SignLegacy(svc, Identity(Admin, svc.env.adminId.GetOr("")), nowSeconds)
    else Failure(Thrown("Bad Credentials"))
  }

  /** `logInUser`: the same checks in the same order as the cookie revision, but
      every failure is a plain error named after its code and no record is
      written. */
  function LogInUser(svc: Services, users: seq<User>, email: string, password: string, nowSeconds: int): (r: Result<string, Fault>)
    ensures (FormValidation.ValidateForm(Sessions.LoginForm(email, password)) != map[]) ==> r == Failure(Named(ValidationError))
    ensures r.Success? ==> Configured(svc.env.jwtSecret)
    ensures r.Success? ==> exists u :: u in users && u.email == Lower(email) && u.role == Customer
                             && u.password.Some? && svc.compare(password, u.password.value)
                             && r.value == svc.sign(Identity(Customer, u.id), svc.env.jwtSecret.value, LegacyLifetimeSeconds, nowSeconds)
    ensures (FormValidation.ValidateForm(Sessions.LoginForm(email, password)) == map[]
             && Collections.FindFirst(users, (u: User) => u.email == Lower(email)).None?)
              ==> r == Failure(Named(UserNotFound))
    ensures (FormValidation.ValidateForm(Sessions.LoginForm(email, password)) == map[]
             && Collections.FindFirst(users, (u: User) => u.email == Lower(email)).Some?
             && Collections.FindFirst(users, (u: User) => u.email == Lower(email)).value.role != Customer)
              ==> r == Failure(Named(WrongUserType))
    ensures (FormValidation.ValidateForm(Sessions.LoginForm(email, password)) == map[]
             && Collections.FindFirst(users, (u: User) => u.email == Lower(email)).Some?
             && var u := Collections.FindFirst(users, (u: User) => u.email == Lower(email)).value;
                u.role == Customer && u.password.Some? && !svc.compare(password, u.password.value))
              ==> r == Failure(Named(BadCredentials))
    ensures r.Failure? ==> r.error == Rethrow(r.error)
  {
    var errors := FormValidation.ValidateForm(Sessions.LoginForm(email, password));
    if errors != map[] then Failure(Named(ValidationError))
    else
      match Collections.FindFirst(users, (u: User) => u.email == Lower(email))
      case None => Failure(Named(UserNotFound))
      case Some(user) =>
        if user.role != Customer then Failure(Named(WrongUserType))
        else if user.password.None? then Failure(Crash)
        else if !svc.compare(password, user.password.value) then Failure(Named(BadCredentials))
        else SignLegacy(svc, Identity(Customer, user.id), nowSeconds)
  }

  /** `changePassWord`: NOT_AUTHENTICATED without a token, `verifyUser`'s error for
      a bad one, the serialized field errors for a weak password, USER_NOT_FOUND,
      and INPUT_ERROR for a wrong current password; on success only the password
      of the user named in the input changes. The caller need not be that user. */
  function ChangePassword(svc: Services, users: seq<User>, token: string, id: string, currentPassword: string, newPassword: string): (r: (seq<User>, Result<bool, Fault>))
    ensures r.1.Failure? ==> r.0 == users
    ensures token == "" ==> r.1 == Failure(Named(NotAuthenticated))
    ensures (token != "" && VerifyUser(svc.env.jwtSecret, svc.verify, token).Failure?)
              ==> r.1 == Failure(VerifyUser(svc.env.jwtSecret, svc.verify, token).error)
    ensures r.1.Success? ==> r.1.value && FormValidation.StrongPassword(newPassword)
                             && UserById(users, id).Some? && UserById(users, id).value.password.Some?
                             && svc.compare(currentPassword, UserById(users, id).value.password.value)
    ensures r.1.Success? ==> r.0 == UpdateUser(users, id, (u: User) => u.(password := Some(svc.hash(newPassword))))
    ensures (token != "" && VerifyUser(svc.env.jwtSecret, svc.verify, token).Success?
             && FormValidation.ValidateForm(Sessions.NewPasswordForm(newPassword)) != map[])
              ==> r.1 == Failure(Serialized(FormValidation.ValidateForm(Sessions.NewPasswordForm(newPassword))))
    ensures (token != "" && VerifyUser(svc.env.jwtSecret, svc.verify, token).Success?
             && FormValidation.StrongPassword(newPassword) && UserById(users, id).None?)
              ==> r.1 == Failure(Named(UserNotFound))
    ensures (token != "" && VerifyUser(svc.env.jwtSecret, svc.verify, token).Success?
             && FormValidation.StrongPassword(newPassword) && UserById(users, id).Some?
             && UserById(users, id).value.password.Some?
             && !svc.compare(currentPassword, UserById(users, id).value.password.value))
              ==> r.1 == Failure(Named(InputError))
  {
    if token == "" then (users, Failure(Named(NotAuthenticated)))
    else
      match VerifyUser(svc.env.jwtSecret, svc.verify, token)
      case Failure(f) => (users, Failure(Rethrow(f)))
      case Success(_) =>
        var errors := FormValidation.ValidateForm(Sessions.NewPasswordForm(newPassword));
        FormValidation.ValidateFormEmpty(Sessions.NewPasswordForm(newPassword));
        assert FormValidation.StrongPassword(newPassword) ==> errors == map[] by {
          if FormValidation.StrongPassword(newPassword) {
            assert FormValidation.EntryError(Sessions.NewPasswordForm(newPassword)[0]).None?;
          }
        }
        if errors != map[] then (users, Failure(Serialized(errors)))
        else
          match UserById(users, id)
          case None => (users, Failure(Named(UserNotFound)))
          case Some(user) =>
            if user.password.None? then (users, Failure(Crash))
            else if !svc.compare(currentPassword, user.password.value) then (users, Failure(Named(InputError)))
            else (UpdateUser(users, id, (u: User) => u.(password := Some(svc.hash(newPassword)))), Success(true))
  }

  /** `getAuthStatus`: no token is "logged out"; a token is verified under
      JWTSECRET and its failure is re-raised as INTERNAL_SERVER_ERROR. */
  function GetAuthStatus(svc: Services, token: string): (r: Result<Sessions.AuthStatus, Fault>)
    ensures token == "" ==> r == Success(Sessions.AuthStatus(false, None))
    ensures token != "" ==> match VerifyUser(svc.env.jwtSecret, svc.verify, token)
                              case Success(u) => r == Success(Sessions.AuthStatus(true, Some(u)))
                              case Failure(_) => r == Failure(Coded(InternalServerError))
  {
    if token == "" then Success(Sessions.AuthStatus(false, None))
    else
      match VerifyUser(svc.env.jwtSecret, svc.verify, token)
      case Success(u) => Success(Sessions.AuthStatus(true, Some(u)))
      case Failure(_) => Failure(Coded(InternalServerError))
  }

  /** The two revisions agree on who may log in as a customer: a header login
      succeeds exactly when the cookie login does, for the same user, provided
      each revision has its secrets configured. */
  lemma CustomerLoginAgrees(svc: Services, users: seq<User>, email: string, password: string, nowSeconds: int)
    requires Configured(svc.env.jwtSecret) && Configured(svc.env.accessSecret) && Configured(svc.env.refreshSecret)
    ensures (LogInUser(svc, users, email, password, nowSeconds).Success?)
              <==> Sessions.LogInUser(svc, users, email, password, nowSeconds).result.Success?
  {
  }

  /** The two revisions agree on the admin credentials: a header admin login
      succeeds exactly when the cookie one gets past its credential check. The
      cookie revision alone then also needs an admin record with that email, so
      its success implies the header one's. */
  lemma AdminLoginAgrees(svc: Services, users: seq<User>, email: string, password: string, nowSeconds: int)
    requires Configured(svc.env.jwtSecret)
    ensures (LogInAdmin(svc, email, password, nowSeconds).Success?)
              <==> Sessions.LogInAdmin(svc, users, email, password, nowSeconds).result != Failure(Coded(BadCredentials))
    ensures (Sessions.LogInAdmin(svc, users, email, password, nowSeconds).result.Success?)
              ==> LogInAdmin(svc, email, password, nowSeconds).Success?
  {
  }

  /** The two revisions agree on a password change when the token is accepted
      under both secrets or under neither: the same calls succeed and the store
      ends the same. */
  lemma PasswordChangeAgrees(svc: Services, users: seq<User>, token: string, id: string, currentPassword: string, newPassword: string)
    requires VerifyUser(svc.env.jwtSecret, svc.verify, token).Success? <==> VerifyUser(svc.env.accessSecret, svc.verify, token).Success?
    ensures (ChangePassword(svc, users, token, id, currentPassword, newPassword).1.Success?)
              <==> Sessions.ChangePassword(svc, users, token, id, currentPassword, newPassword).result.Success?
    ensures ChangePassword(svc, users, token, id, currentPassword, newPassword).0
              == Sessions.ChangePassword(svc, users, token, id, currentPassword, newPassword).users
  {
  }
}

=== FILE: orders.dfy ===
/** The order resolvers of both revisions (gqlSchema/ and schema/
    order.resolver.ts): the newest orders, a user's orders, an order by number,
    placing an order (with its stock decrements) and changing an order's
    status. Tokens are verified with JWTSECRET. */
module Orders {
  import opened Wrappers
  import opened Errors
  import opened Tokens
  import opened Guard
  import opened Collections
  import opened Store
  import opened Services
  import opened Sorting

  /** The guard of every order resolver except `updateOrderStatus`. */
  function OrderGate(rev: Revision, svc: Services, token: string, need: Requirement): (r: Result<Identity, Fault>)
    ensures token == "" ==> r == Failure(if rev.Cookie? then Coded(JwtTokenMissing) else Named(JwtTokenMissing))
    ensures r.Success? <==> (token != "" && VerifyUser(svc.env.jwtSecret, svc.verify, token).Success?
                             && Allows(need, VerifyUser(svc.env.jwtSecret, svc.verify, token).value.role))
    ensures r.Success? ==> r.value == VerifyUser(svc.env.jwtSecret, svc.verify, token).value
    ensures (token != "" && VerifyUser(svc.env.jwtSecret, svc.verify, token).Failure?)
              ==> r == Failure(VerifyUser(svc.env.jwtSecret, svc.verify, token).error)
    ensures (token != "" && VerifyUser(svc.env.jwtSecret, svc.verify, token).Success?
             && !Allows(need, VerifyUser(svc.env.jwtSecret, svc.verify, token).value.role))
              ==> r == Failure(if rev.Cookie? then Coded(WrongUserType) else Named(NotAuthenticated))
  {
    Gate(rev, TokenPolicy, LegacyOrderPolicy, svc.env.jwtSecret, svc.verify, token, need)
  }

  // ---------------------------------------------------------------------------
  // Newest orders
  // ---------------------------------------------------------------------------

  function Newer(o: Order): int { -o.placed }

  /** `.limit(n)` of the document store: 0 means no limit, a negative limit
      means its absolute value. */
  function Limit<T>(xs: seq<T>, n: int): (r: seq<T>)
    ensures n == 0 ==> r == xs
    ensures n != 0 ==> |r| == if |xs| < (if n < 0 then -n else n) then |xs| else (if n < 0 then -n else n)
    ensures |r| <= |xs| && r == xs[..|r|]
  {
    var m := if n < 0 then -n else n;
    if n == 0 || |xs| <= m then xs else xs[..m]
  }

  /** `Order.find().sort({orderPlaced: -1}).limit(limit)` */
  function Latest(orders: seq<Order>, limit: int): (r: seq<Order>)
    ensures SortedBy(r, Newer) && multiset(r) <= multiset(orders)
    ensures |r| <= |orders| && r == SortBy(orders, Newer)[..|r|]
    ensures limit == 0 ==> |r| == |orders|
    ensures limit != 0 ==> |r| == if |orders| < (if limit < 0 then -limit else limit) then |orders|
                                  else (if limit < 0 then -limit else limit)
  {
    var sorted := SortBy(orders, Newer);
    var r := Limit(sorted, limit);
    PrefixMultiset(sorted, |r|);
    PrefixSorted(sorted, |r|);
    r
  }

  /** `orders(limit = 10)`: admins only; all orders, newest first, cut to the
      limit. */
  function Newest(rev: Revision, svc: Services, orders: seq<Order>, token: string, limit: int): (r: Result<seq<Order>, Fault>)
    ensures r.Success? <==> OrderGate(rev, svc, token, Only(Admin)).Success?
    ensures r.Failure? ==> r.error == OrderGate(rev, svc, token, Only(Admin)).error
    ensures r.Success? ==> r.value == Latest(orders, limit)
    ensures r.Success? ==> SortedBy(r.value, Newer) && multiset(r.value) <= multiset(orders)
    ensures r.Success? && limit == 0 ==> |r.value| == |orders|
    ensures r.Success? && limit != 0 ==> |r.value| == if |orders| < (if limit < 0 then -limit else limit) then |orders|
                                                      else (if limit < 0 then -limit else limit)
  {
    match OrderGate(rev, svc, token, Only(Admin))
    case Failure(f) => Failure(f)
    case Success(_) => Success(Latest(orders, limit))
  }

  lemma PrefixSorted(xs: seq<Order>, n: nat)
    requires n <= |xs| && SortedBy(xs, Newer)
    ensures SortedBy(xs[..n], Newer)
  {
  }

  lemma PrefixMultiset<T>(xs: seq<T>, n: nat)
    requires n <= |xs|
    ensures multiset(xs[..n]) <= multiset(xs)
  {
    assert xs == xs[..n] + xs[n..];
  }

  /** No order left out by the limit is newer than one that was returned. */
  lemma LatestAreNewest(orders: seq<Order>, limit: int, o: Order)
    requires o in orders && o !in Latest(orders, limit)
    ensures forall x :: x in Latest(orders, limit) ==> x.placed >= o.placed
  {
    var sorted := SortBy(orders, Newer);
    var r := Latest(orders, limit);
    assert o in multiset(sorted);
    var k :| 0 <= k < |sorted| && sorted[k] == o;
    assert k >= |r|;
  }

  // ---------------------------------------------------------------------------
  // A user's orders, an order by number
  // ---------------------------------------------------------------------------

  /** `userOrders(id)`: any signed-in user may list the orders of any user id; an
      unknown id is not an error, it simply has no orders. */
  function UserOrders(rev: Revision, svc: Services, orders: seq<Order>, token: string, id: string): (r: Result<seq<Order>, Fault>)
    ensures r.Success? <==> OrderGate(rev, svc, token, AnyRole).Success?
    ensures r.Failure? ==> r.error == OrderGate(rev, svc, token, AnyRole).error
    ensures r.Success? ==> forall o :: o in r.value <==> o in orders && o.userId == id
    ensures r.Success? ==> forall o :: multiset(r.value)[o] == if o.userId == id then multiset(orders)[o] else 0
  {
    match OrderGate(rev, svc, token, AnyRole)
    case Failure(f) => Failure(f)
    case Success(_) => Success(Filter(orders, PlacedBy(id)))
  }

  function PlacedBy(id: string): Order -> bool {
    (o: Order) => o.userId == id
  }

  function NumberIs(orderNumber: string): Order -> bool {
    (o: Order) => o.orderNumber == orderNumber
  }

  /** `orderByNumber`: an empty number is INPUT_ERROR; no match is INPUT_ERROR in
      the cookie revision and NOT_FOUND in the header revision; otherwise the
      first order with that number. */
  function OrderByNumber(rev: Revision, svc: Services, orders: seq<Order>, token: string, orderNumber: string): (r: Result<Order, Fault>)
    ensures OrderGate(rev, svc, token, AnyRole).Failure? ==> r == Failure(OrderGate(rev, svc, token, AnyRole).error)
    ensures (OrderGate(rev, svc, token, AnyRole).Success? && orderNumber == "")
              ==> r == Failure(if rev.Cookie? then Coded(InputError) else Named(InputError))
    ensures (OrderGate(rev, svc, token, AnyRole).Success? && orderNumber != ""
             && forall o :: o in orders ==> o.orderNumber != orderNumber)
              ==> r == Failure(if rev.Cookie? then Coded(InputError) else Named(NotFound))
    ensures (OrderGate(rev, svc, token, AnyRole).Success? && orderNumber != ""
             && exists o :: o in orders && o.orderNumber == orderNumber)
              ==> r == Success(FindFirst(orders, NumberIs(orderNumber)).value)
    ensures r.Success? ==> r.value in orders && r.value.orderNumber == orderNumber
  {
    match OrderGate(rev, svc, token, AnyRole)
    case Failure(f) => Failure(f)
    case Success(_) =>
      if orderNumber == "" then Failure(if rev.Cookie? then Coded(InputError) else Named(InputError))
      else
        match FindFirst(orders, NumberIs(orderNumber))
        case None => Failure(if rev.Cookie? then Coded(InputError) else Named(NotFound))
        case Some(o) => Success(o)
  }

  // ---------------------------------------------------------------------------
  // Placing an order
  // ---------------------------------------------------------------------------

  /** The stock rule for one line (`updateOne` on the first product with the
      id): a line naming no product is skipped; a line asking for more than the
      stock is rejected and changes nothing; otherwise the product's quantity
      drops by the ordered quantity. The rejection is thrown inside an
      un-awaited callback, so it never reaches the caller. */
  function ApplyLine(products: seq<Product>, line: LineItem): (r: seq<Product>)
    ensures |r| == |products|
    ensures forall i :: 0 <= i < |products| ==> r[i].id == products[i].id
    ensures forall i :: 0 <= i < |products| && products[i].quantity >= 0 ==> r[i].quantity >= 0
  {
    match IndexOf(products, ProductIdIs(line.productId))
    case None => products
    case Some(i) =>
      if line.quantity > products[i].quantity then products
      else products[i := products[i].(quantity := products[i].quantity - line.quantity)]
  }

  /** Every line in turn. */
  function ApplyLines(products: seq<Product>, lines: seq<LineItem>): (r: seq<Product>)
    ensures |r| == |products|
    ensures forall i :: 0 <= i < |products| ==> r[i].id == products[i].id
    ensures forall i :: 0 <= i < |products| && products[i].quantity >= 0 ==> r[i].quantity >= 0
    decreases |lines|
  {
    if lines == [] then products else ApplyLines(ApplyLine(products, lines[0]), lines[1..])
  }

  /** The stock of one product id (the first product with it). */
  function StockOf(products: seq<Product>, id: string): Option<int> {
    match ProductById(products, id)
    case None => None
    case Some(p) => Some(p.quantity)
  }

  /** A line leaves the stock of every other product id as it was. */
  lemma ApplyLineOther(products: seq<Product>, line: LineItem, id: string)
    requires id != line.productId
    ensures StockOf(ApplyLine(products, line), id) == StockOf(products, id)
  {
    match IndexOf(products, ProductIdIs(line.productId)) {
      case None =>
      case Some(i) =>
        if line.quantity <= products[i].quantity {
          UpdateAtOther(products, i, products[i].(quantity := products[i].quantity - line.quantity), ProductIdIs(id));
        }
    }
  }

  /** A line the stock covers lowers its product's stock by its quantity. */
  lemma ApplyLineTaken(products: seq<Product>, line: LineItem)
    requires StockOf(products, line.productId).Some? && line.quantity <= StockOf(products, line.productId).value
    ensures StockOf(ApplyLine(products, line), line.productId) == Some(StockOf(products, line.productId).value - line.quantity)
  {
    var i := IndexOf(products, ProductIdIs(line.productId)).value;
    var y := products[i].(quantity := products[i].quantity - line.quantity);
    assert A: ApplyLine(products, line) == products[i := y];
    UpdateAtFirst(products, i, y, ProductIdIs(line.productId));
    assert B: ProductById(products[i := y], line.productId) == Some(y);
  }

  /** A line asking for more than the stock changes nothing. */
  lemma ApplyLineRejected(products: seq<Product>, line: LineItem)
    requires StockOf(products, line.productId).Some? && line.quantity > StockOf(products, line.productId).value
    ensures ApplyLine(products, line) == products
  {
  }

  /** `createOrder` at time `now` with a store-assigned `orderId` and the number
      `orderNumber` (`Date.now()` plus a random 0..999): customers only; the
      order is saved as submitted, whatever the stock rule did. */
  datatype Placed = Placed(products: seq<Product>, orders: seq<Order>, result: Result<string, Fault>)

  datatype OrderInput = OrderInput(userId: string, status: OrderStatus, total: real, subTotal: real, tax: real, items: seq<LineItem>, shippingAddress: Address)

  function CreateOrder(rev: Revision, svc: Services, products: seq<Product>, orders: seq<Order>, token: string,
                       input: OrderInput, orderId: string, orderNumber: string, now: int): (r: Placed)
    ensures r.result.Success? <==> OrderGate(rev, svc, token, Only(Customer)).Success?
    ensures r.result.Failure? ==> r.result.error == OrderGate(rev, svc, token, Only(Customer)).error
                                  && r.products == products && r.orders == orders
    ensures r.result.Success? ==> r.result.value == orderNumber && |r.orders| == |orders| + 1 && r.orders[..|orders|] == orders
    ensures r.result.Success? ==> var o := r.orders[|orders|];
      o.userId == input.userId && o.status == input.status && o.items == input.items
      && o.total == input.total && o.subTotal == input.subTotal && o.tax == input.tax
      && o.shippingAddress == input.shippingAddress && o.orderNumber == orderNumber && o.placed == now
    ensures r.result.Success? ==> r.products == ApplyLines(products, input.items)
  {
    match OrderGate(rev, svc, token, Only(Customer))
    case Failure(f) => Placed(products, orders, Failure(f))
    case Success(_) =>
      var o := Order(orderId, orderNumber, input.userId, input.status, input.total, input.subTotal, input.tax, input.items, input.shippingAddress, now);
      Placed(ApplyLines(products, input.items), orders + [o], Success(orderNumber))
  }

  /** An order placed under a fresh number is then found by that number, as
      submitted. */
  lemma PlacedOrderFound(rev: Revision, svc: Services, products: seq<Product>, orders: seq<Order>, token: string,
                         input: OrderInput, orderId: string, orderNumber: string, now: int, reader: string)
    requires CreateOrder(rev, svc, products, orders, token, input, orderId, orderNumber, now).result.Success?
    requires orderNumber != "" && forall o :: o in orders ==> o.orderNumber != orderNumber
    requires OrderGate(rev, svc, reader, AnyRole).Success?
    ensures var placed := CreateOrder(rev, svc, products, orders, token, input, orderId, orderNumber, now);
      var found := OrderByNumber(rev, svc, placed.orders, reader, orderNumber);
      && found.Success? && found.value.orderNumber == orderNumber && found.value.userId == input.userId
      && found.value.status == input.status && found.value.items == input.items
      && found.value.total == input.total && found.value.subTotal == input.subTotal && found.value.tax == input.tax
      && found.value.shippingAddress == input.shippingAddress && found.value.placed == now
  {
    var placed := CreateOrder(rev, svc, products, orders, token, input, orderId, orderNumber, now);
    assert placed.orders == orders + [placed.orders[|orders|]];
    FindFirstAppendNew(orders, placed.orders[|orders|], NumberIs(orderNumber));
  }

  /** A placed order is listed last among its customer's orders, after the
      ones that were there before. */
  lemma PlacedOrderListed(rev: Revision, svc: Services, products: seq<Product>, orders: seq<Order>, token: string,
                          input: OrderInput, orderId: string, orderNumber: string, now: int, reader: string)
    requires CreateOrder(rev, svc, products, orders, token, input, orderId, orderNumber, now).result.Success?
    requires OrderGate(rev, svc, reader, AnyRole).Success?
    ensures var placed := CreateOrder(rev, svc, products, orders, token, input, orderId, orderNumber, now);
      UserOrders(rev, svc, placed.orders, reader, input.userId)
        == Success(UserOrders(rev, svc, orders, reader, input.userId).value + [placed.orders[|orders|]])
  {
    var placed := CreateOrder(rev, svc, products, orders, token, input, orderId, orderNumber, now);
    var o := placed.orders[|orders|];
    var p := PlacedBy(input.userId);
    assert placed.orders == orders + [o];
    assert p(o);
    FilterAppend(orders, [o], p);
    assert Filter([o], p) == [o] by {
      assert [o][1..] == [];
    }
    assert Filter(placed.orders, p) == Filter(orders, p) + [o];
  }

  // ---------------------------------------------------------------------------
  // Order status
  // ---------------------------------------------------------------------------

  /** The status of the order `id`. */
  function Current(orders: seq<Order>, id: string): Option<OrderStatus> {
    match FindFirst(orders, (o: Order) => o.id == id)
    case None => None
    case Some(o) => Some(o.status)
  }

  /** `Order.updateOne({_id: id}, {$set: {status}})`, and whether it modified a
      document: only when the order exists and its status differs. */
  function SetStatus(orders: seq<Order>, id: string, status: OrderStatus): (r: (seq<Order>, bool))
    ensures r.1 <==> Current(orders, id).Some? && Current(orders, id).value != status
    ensures forall o :: o in r.0 ==> o in orders || (o.id == id && o.status == status)
    ensures !r.1 ==> r.0 == orders
  {
    match FindFirst(orders, (o: Order) => o.id == id)
    case None => (orders, false)
    case Some(o) =>
      if o.status == status then (orders, false)
      else (UpdateWhere(orders, (x: Order) => x.id == id, (x: Order) => x.(status := status)), true)
  }

  /** `updateOrderStatus`: admins only. The cookie revision returns the status when
      a document was modified and null otherwise; the header revision throws
      INTERNAL_SERVER_ERROR instead of returning null. */
  function UpdateOrderStatus(rev: Revision, svc: Services, orders: seq<Order>, token: string, id: string, status: OrderStatus)
    : (r: (seq<Order>, Result<Option<OrderStatus>, Fault>))
    ensures var gate := Gate(rev, TokenPolicy, LegacyStrictPolicy, svc.env.jwtSecret, svc.verify, token, Only(Admin));
      gate.Failure? ==> r == (orders, Failure(gate.error))
    ensures r.1.Success? ==> r.1.value.Some? ==> r.1.value.value == status
    ensures r.1.Success? && r.1.value.Some? <==>
      (Gate(rev, TokenPolicy, LegacyStrictPolicy, svc.env.jwtSecret, svc.verify, token, Only(Admin)).Success?
       && Current(orders, id).Some? && Current(orders, id).value != status)
    ensures rev.Header? && r.1.Success? ==> r.1.value.Some?
    ensures (Gate(rev, TokenPolicy, LegacyStrictPolicy, svc.env.jwtSecret, svc.verify, token, Only(Admin)).Success?
             && !(Current(orders, id).Some? && Current(orders, id).value != status))
              ==> r == (orders, if rev.Cookie? then Success(None) else Failure(Named(InternalServerError)))
    ensures forall o :: o in r.0 ==> o in orders || (o.id == id && o.status == status)
  {
    match Gate(rev, TokenPolicy, LegacyStrictPolicy, svc.env.jwtSecret, svc.verify, token, Only(Admin))
    case Failure(f) => (orders, Failure(f))
    case Success(_) =>
      var (after, modified) := SetStatus(orders, id, status);
      if modified then (after, Success(Some(status)))
      else if rev.Cookie? then (after, Success(None))
      else (after, Failure(Named(InternalServerError)))
  }
}

=== FILE: products.dfy ===
/** The product resolvers of both revisions (gqlSchema/ and schema/
    product.resolver.ts): listing, lookup, creation with image upload, editing
    with image clean-up, and deletion. Image upload and deletion are external:
    `Services.upload` yields the stored image, deleted URLs are reported. */
module Products {
  import opened Wrappers
  import opened Errors
  import opened Text
  import opened Tokens
  import opened Guard
  import opened Collections
  import opened Store
  import opened Services
  import Grouping

  /** The cookie revision admits admins only; the header revision checks no role. */
  function ProductGate(rev: Revision, svc: Services, token: string): (r: Result<Identity, Fault>)
    ensures token == "" ==> r == Failure(if rev.Cookie? then Coded(JwtTokenMissing) else Thrown("Not Authenticated"))
    ensures rev.Header? ==> (r.Success? <==> token != "" && VerifyUser(svc.env.jwtSecret, svc.verify, token).Success?)
    ensures rev.Cookie? ==> (r.Success? <==> (token != "" && VerifyUser(svc.env.jwtSecret, svc.verify, token).Success?
                                             && VerifyUser(svc.env.jwtSecret, svc.verify, token).value.role == Admin))
    ensures r.Success? ==> r.value == VerifyUser(svc.env.jwtSecret, svc.verify, token).value
    ensures (token != "" && VerifyUser(svc.env.jwtSecret, svc.verify, token).Failure?)
              ==> r == Failure(VerifyUser(svc.env.jwtSecret, svc.verify, token).error)
    ensures (rev.Cookie? && token != "" && VerifyUser(svc.env.jwtSecret, svc.verify, token).Success?
             && VerifyUser(svc.env.jwtSecret, svc.verify, token).value.role != Admin)
              ==> r == Failure(Coded(WrongUserType))
  {
    Gate(rev, TokenPolicy, LegacyProductPolicy, svc.env.jwtSecret, svc.verify, token, if rev.Cookie? then Only(Admin) else AnyRole)
  }

  /** A customer can change the catalogue only through the header revision. */
  lemma CustomersOnlyThroughHeader(svc: Services, token: string)
    requires token != "" && Configured(svc.env.jwtSecret) && svc.verify(token, svc.env.jwtSecret.value).Valid?
    requires svc.verify(token, svc.env.jwtSecret.value).claims.role == Customer
    ensures ProductGate(Cookie, svc, token) == Failure(Coded(WrongUserType))
    ensures ProductGate(Header, svc, token).Success?
  {
  }

  /** `product(id)`: null when there is no such product. */
  function ProductQuery(products: seq<Product>, id: string): (r: Option<Product>)
    ensures r.Some? <==> exists p :: p in products && p.id == id
    ensures r.Some? ==> r.value in products && r.value.id == id
  {
    ProductById(products, id)
  }

  // ---------------------------------------------------------------------------
  // Creation
  // ---------------------------------------------------------------------------

  /** The scalar fields of `CreateProduct` and `EditProduct`. */
  datatype Fields = Fields(
    title: string, slug: string, description: string, colors: seq<string>, sizes: seq<string>,
    price: int, category: string, quantity: int, sku: string, stockStatus: bool, featured: bool)

  function WithFields(id: string, f: Fields, imgs: seq<Image>): Product {
    Product(id, f.title, f.slug, f.description, f.colors, f.sizes, f.price, f.category, f.quantity, f.sku, f.stockStatus, f.featured, imgs)
  }

  /** `products/${category}/` */
  function Folder(category: string): string {
    "products/" + category + "/"
  }

  /** `Promise.all(files.map(f => uploadImage(f, slug, folder)))`, in order. */
  function UploadAll(svc: Services, files: seq<UploadFile>, slug: string, category: string): (r: seq<Image>)
    ensures |r| == |files|
    ensures forall i :: 0 <= i < |files| ==> r[i] == svc.upload(files[i], slug, Folder(category))
  {
    seq(|files|, i requires 0 <= i < |files| => svc.upload(files[i], slug, Folder(category)))
  }

  predicate SlugTaken(products: seq<Product>, slug: string) {
    exists p :: p in products && p.slug == Lower(slug)
  }

  /** `createProduct`: ALREADY_EXISTS ("Product Already Exists" in the header
      revision) when a product's slug equals the lower-cased slug; otherwise the
      images are uploaded under `products/<category>/` and the product is saved
      with the slug exactly as given. */
  function CreateProduct(rev: Revision, svc: Services, products: seq<Product>, token: string,
                         f: Fields, files: seq<UploadFile>, newId: string): (r: (seq<Product>, Result<Product, Fault>))
    ensures ProductGate(rev, svc, token).Failure? ==> r == (products, Failure(ProductGate(rev, svc, token).error))
    ensures (ProductGate(rev, svc, token).Success? && SlugTaken(products, f.slug))
              ==> r == (products, Failure(if rev.Cookie? then Coded(AlreadyExists) else Thrown("Product Already Exists")))
    ensures r.1.Success? <==> ProductGate(rev, svc, token).Success? && !SlugTaken(products, f.slug)
    ensures r.1.Success? ==> r.0 == products + [r.1.value] && r.1.value.slug == f.slug
                             && r.1.value == WithFields(newId, f, UploadAll(svc, files, f.slug, f.category))
  {
    match ProductGate(rev, svc, token)
    case Failure(e) => (products, Failure(e))
    case Success(_) =>
      match FindFirst(products, (p: Product) => p.slug == Lower(f.slug))
      case Some(_) => (products, Failure(if rev.Cookie? then Coded(AlreadyExists) else Thrown("Product Already Exists")))
      case None =>
        var p := WithFields(newId, f, UploadAll(svc, files, f.slug, f.category));
        (products + [p], Success(p))
  }

  /** A lower-case slug cannot be created twice: after a successful creation with
      it, a second creation with any spelling of it is refused. */
  lemma LowerSlugOnce(rev: Revision, svc: Services, products: seq<Product>, token: string,
                      f: Fields, files: seq<UploadFile>, newId: string, g: Fields, files2: seq<UploadFile>, newId2: string)
    requires f.slug == Lower(f.slug) && Lower(g.slug) == f.slug
    requires CreateProduct(rev, svc, products, token, f, files, newId).1.Success?
    ensures CreateProduct(rev, svc, CreateProduct(rev, svc, products, token, f, files, newId).0, token, g, files2, newId2).1.Failure?
  {
    var after := CreateProduct(rev, svc, products, token, f, files, newId).0;
    assert after[|after| - 1].slug == Lower(g.slug);
  }

  // ---------------------------------------------------------------------------
  // Editing
  // ---------------------------------------------------------------------------

  function IdSet(imgs: seq<Image>): set<string> {
    set i | 0 <= i < |imgs| :: imgs[i].id
  }

  function Ids(imgs: seq<Image>): seq<string> {
    seq(|imgs|, i requires 0 <= i < |imgs| => imgs[i].id)
  }

  /** `imgs.map(img => img.url)` */
  function Urls(imgs: seq<Image>): (r: seq<string>)
    ensures |r| == |imgs|
    ensures forall i :: 0 <= i < |imgs| ==> r[i] == imgs[i].url
  {
    seq(|imgs|, i requires 0 <= i < |imgs| => imgs[i].url)
  }

  /** The URLs of the images whose id none of `kept` carries, in order. */
  function DroppedUrls(existing: seq<Image>, kept: seq<Image>): (r: seq<string>)
    ensures forall u :: u in r <==> exists img :: img in existing && img.id !in IdSet(kept) && img.url == u
  {
    var dropped := Filter(existing, (img: Image) => img.id !in IdSet(kept));
    var r := Urls(dropped);
    assert forall u :: u in r ==> exists img :: img in existing && img.id !in IdSet(kept) && img.url == u by {
      forall u | u in r
        ensures exists img :: img in existing && img.id !in IdSet(kept) && img.url == u
      {
        var k :| 0 <= k < |r| && r[k] == u;
        assert dropped[k] in dropped;
      }
    }
    assert forall img :: img in dropped ==> img.url in r by {
      forall img | img in dropped
        ensures img.url in r
      {
        var k :| 0 <= k < |dropped| && dropped[k] == img;
        assert r[k] == img.url;
      }
    }
    r
  }

  /** What `editProduct` did: the products afterwards, the URLs it asked the
      object store to delete, and its answer. */
  datatype Edited = Edited(products: seq<Product>, deleted: seq<string>, result: Result<Product, Fault>)

  /** `editProduct`: NOT_FOUND ("Product does not Exist") for an unknown id; the
      images to delete are computed only when the product has more images than
      `oldImgs`; the new image list is `oldImgs` followed by the uploads; every
      field is replaced. An absent `oldImgs` or `newImgs` list crashes (after the
      deletion has been requested, for `newImgs`). */
  function EditProduct(rev: Revision, svc: Services, products: seq<Product>, token: string, id: string,
                       f: Fields, oldImgs: Option<seq<Image>>, newImgs: Option<seq<UploadFile>>): (r: Edited)
    ensures r.result.Failure? ==> r.products == products
    ensures ProductGate(rev, svc, token).Failure? ==> r == Edited(products, [], Failure(ProductGate(rev, svc, token).error))
    ensures (ProductGate(rev, svc, token).Success? && ProductById(products, id).None?)
              ==> r == Edited(products, [], Failure(if rev.Cookie? then Coded(NotFound) else Thrown("Product does not Exist")))
    ensures r.result.Success? <==> (ProductGate(rev, svc, token).Success? && ProductById(products, id).Some?
                                    && oldImgs.Some? && newImgs.Some?)
    ensures (ProductGate(rev, svc, token).Success? && ProductById(products, id).Some? && oldImgs.None?)
              ==> r == Edited(products, [], Failure(Crash))
    ensures (ProductGate(rev, svc, token).Success? && ProductById(products, id).Some? && oldImgs.Some? && newImgs.None?)
              ==> var before := ProductById(products, id).value;
                  r == Edited(products, if |before.imgs| > |oldImgs.value| then DroppedUrls(before.imgs, oldImgs.value) else [],
                              Failure(Crash))
    ensures r.result.Success? ==>
      var before := ProductById(products, id).value;
      && r.result.value == WithFields(before.id, f, oldImgs.value + UploadAll(svc, newImgs.value, f.slug, f.category))
      && r.products == UpdateWhere(products, ProductIdIs(id), Refill(f, r.result.value.imgs))
      && r.deleted == (if |before.imgs| > |oldImgs.value| then DroppedUrls(before.imgs, oldImgs.value) else [])
  {
    match ProductGate(rev, svc, token)
    case Failure(e) => Edited(products, [], Failure(e))
    case Success(_) =>
      match ProductById(products, id)
      case None => Edited(products, [], Failure(if rev.Cookie? then Coded(NotFound) else Thrown("Product does not Exist")))
      case Some(before) =>
        if oldImgs.None? then Edited(products, [], Failure(Crash))
        else
          var deleted := if |before.imgs| > |oldImgs.value| then DroppedUrls(before.imgs, oldImgs.value) else [];
          if newImgs.None? then Edited(products, deleted, Failure(Crash))
          else
            var after := WithFields(before.id, f, oldImgs.value + UploadAll(svc, newImgs.value, f.slug, f.category));
            Edited(UpdateWhere(products, ProductIdIs(id), Refill(f, after.imgs)), deleted, Success(after))
  }

  /** `findByIdAndUpdate` with every field and the image list. */
  function Refill(f: Fields, imgs: seq<Image>): Product -> Product {
    (p: Product) => WithFields(p.id, f, imgs)
  }

  /** After an edit, reading the product back gives the edited product, and every
      other id reads as before. */
  lemma EditThenRead(rev: Revision, svc: Services, products: seq<Product>, token: string, id: string,
                     f: Fields, oldImgs: Option<seq<Image>>, newImgs: Option<seq<UploadFile>>, other: string)
    requires EditProduct(rev, svc, products, token, id, f, oldImgs, newImgs).result.Success?
    ensures var r := EditProduct(rev, svc, products, token, id, f, oldImgs, newImgs);
      && ProductById(r.products, id) == Some(r.result.value)
      && (other != id ==> ProductById(r.products, other) == ProductById(products, other))
  {
    var r := EditProduct(rev, svc, products, token, id, f, oldImgs, newImgs);
    var g := Refill(f, r.result.value.imgs);
    UpdateWhereFindFirst(products, ProductIdIs(id), g, ProductIdIs(id));
    UpdateWhereFindFirst(products, ProductIdIs(id), g, ProductIdIs(other));
  }

  lemma {:induction false} DistinctIdCount(imgs: seq<Image>)
    requires Grouping.Distinct(Ids(imgs))
    ensures |IdSet(imgs)| == |imgs|
    decreases |imgs|
  {
    if imgs != [] {
      var init := imgs[..|imgs| - 1];
      assert forall i :: 0 <= i < |init| ==> Ids(init)[i] == Ids(imgs)[i];
      DistinctIdCount(init);
      assert IdSet(imgs) == IdSet(init) + {imgs[|imgs| - 1].id};
      forall i | 0 <= i < |init|
        ensures init[i].id != imgs[|imgs| - 1].id
      {
        assert Ids(imgs)[i] == init[i].id;
        assert Ids(imgs)[|imgs| - 1] == imgs[|imgs| - 1].id;
      }
      assert imgs[|imgs| - 1].id !in IdSet(init);
    }
  }

  /** When the kept images are some of the product's images (ids distinct on both
      sides), the length test is exact: deletion happens precisely when an image
      was dropped, and then it covers every dropped image. */
  lemma DeletionExactForSubset(existing: seq<Image>, kept: seq<Image>)
    requires Grouping.Distinct(Ids(existing)) && Grouping.Distinct(Ids(kept))
    requires IdSet(kept) <= IdSet(existing)
    ensures |existing| > |kept| <==> exists img :: img in existing && img.id !in IdSet(kept)
  {
    DistinctIdCount(existing);
    DistinctIdCount(kept);
    if exists img :: img in existing && img.id !in IdSet(kept) {
      var img :| img in existing && img.id !in IdSet(kept);
      var i :| 0 <= i < |existing| && existing[i] == img;
      assert img.id in IdSet(existing);
      assert IdSet(kept) < IdSet(existing);
      assert |IdSet(kept)| < |IdSet(existing)| by {
        assert IdSet(existing) == IdSet(kept) + (IdSet(existing) - IdSet(kept));
        assert img.id in IdSet(existing) - IdSet(kept);
      }
    } else {
      forall x | x in IdSet(existing)
        ensures x in IdSet(kept)
      {
        var i :| 0 <= i < |existing| && existing[i].id == x;
        assert existing[i] in existing;
      }
      assert IdSet(existing) == IdSet(kept);
    }
  }

  // ---------------------------------------------------------------------------
  // Deletion
  // ---------------------------------------------------------------------------

  datatype Deleted = Deleted(products: seq<Product>, deleted: seq<string>, result: Result<Option<bool>, Fault>)

  /** `deleteProduct`: an existing product is removed and all its image URLs are
      sent for deletion, answering `{success: true}`; an unknown id answers null
      and changes nothing. */
  function DeleteProduct(rev: Revision, svc: Services, products: seq<Product>, token: string, id: string): (r: Deleted)
    ensures ProductGate(rev, svc, token).Failure? ==> r == Deleted(products, [], Failure(ProductGate(rev, svc, token).error))
    ensures ProductGate(rev, svc, token).Success? ==> r.result.Success?
    ensures r.result.Success? ==> (r.result.value.Some? <==> exists p :: p in products && p.id == id)
    ensures r.result.Success? && r.result.value.None? ==> r.products == products && r.deleted == []
    ensures r.result.Success? && r.result.value.Some? ==>
      && r.result.value.value
      && |r.products| == |products| - 1
      && multiset(r.products) + multiset{ProductById(products, id).value} == multiset(products)
      && |r.deleted| == |ProductById(products, id).value.imgs|
      && forall i :: 0 <= i < |r.deleted| ==> r.deleted[i] == ProductById(products, id).value.imgs[i].url
  {
    match ProductGate(rev, svc, token)
    case Failure(e) => Deleted(products, [], Failure(e))
    case Success(_) =>
      match ProductById(products, id)
      case None => Deleted(products, [], Success(None))
      case Some(p) =>
        var i := IndexOf(products, (q: Product) => q.id == id).value;
        assert products == products[..i] + [p] + products[i + 1..];
        Deleted(RemoveFirst(products, (q: Product) => q.id == id), Urls(p.imgs), Success(Some(true)))
  }
}

=== FILE: reviews.dfy ===
/** The review resolvers of gqlSchema/resolvers/review.resolver.ts. They read the
    raw token and verify it with the signing secret; customers write reviews,
    admins list them all, any signed-in role deletes. */
module Reviews {
  import opened Wrappers
  import opened Errors
  import opened Tokens
  import opened Guard
  import opened Collections
  import opened Store
  import opened Services
  import FormValidation

  /** The raw-token guard: JWT_TOKEN_MISSING without a token. */
  function Caller(svc: Services, token: string, need: Requirement): (r: Result<Identity, Fault>)
    ensures token == "" ==> r == Failure(Coded(JwtTokenMissing))
    ensures r.Success? <==> token != "" && VerifyUser(svc.env.jwtSecret, svc.verify, token).Success? && Allows(need, VerifyUser(svc.env.jwtSecret, svc.verify, token).value.role)
    ensures r.Success? ==> r.value == VerifyUser(svc.env.jwtSecret, svc.verify, token).value
    ensures (token != "" && VerifyUser(svc.env.jwtSecret, svc.verify, token).Failure?) ==> r == Failure(VerifyUser(svc.env.jwtSecret, svc.verify, token).error)
    ensures (token != "" && VerifyUser(svc.env.jwtSecret, svc.verify, token).Success? && !Allows(need, VerifyUser(svc.env.jwtSecret, svc.verify, token).value.role)) ==> r == Failure(Coded(WrongUserType))
  {
    Check(TokenPolicy, svc.env.jwtSecret, svc.verify, token, need)
  }

  /** `productReviews(id)`: public; an empty id is INPUT_ERROR, otherwise the
      product's reviews in store order. */
  function ProductReviews(reviews: seq<Review>, productId: string): (r: Result<seq<Review>, Fault>)
    ensures productId == "" <==> r.Failure?
    ensures r.Failure? ==> r.error == Coded(InputError)
    ensures r.Success? ==> forall v :: v in r.value <==> v in reviews && v.productId == productId
    ensures r.Success? ==> forall v :: multiset(r.value)[v] == if v.productId == productId then multiset(reviews)[v] else 0
  {
    if productId == "" then Failure(Coded(InputError))
    else Success(Filter(reviews, (v: Review) => v.productId == productId))
  }

  /** `reviews`: every review, for admins. */
  function AllReviews(svc: Services, reviews: seq<Review>, token: string): (r: Result<seq<Review>, Fault>)
    ensures r.Success? <==> Caller(svc, token, Only(Admin)).Success?
    ensures r.Failure? ==> r.error == Caller(svc, token, Only(Admin)).error
    ensures r.Success? ==> r.value == reviews
  {
    match Caller(svc, token, Only(Admin))
    case Failure(f) => Failure(f)
    case Success(_) => Success(reviews)
  }

  function Field(name: string, value: string): FormValidation.Entry {
    FormValidation.Entry(name, "string", FormValidation.Str(value), None, None)
  }

  function RatingField(rating: int): FormValidation.Entry {
    FormValidation.Entry("rating", "number", FormValidation.Number(rating), None, None)
  }

  function ReviewForm(rating: int, productId: string, userId: string, text: string): seq<FormValidation.Entry> {
    [RatingField(rating), Field("productId", productId), Field("userId", userId), Field("review", text)]
  }

  function EditForm(rating: int, text: string): seq<FormValidation.Entry> {
    [RatingField(rating), Field("review", text)]
  }

  /** A rating field passes exactly when positive; a text field exactly when not empty. */
  lemma FieldRules(rating: int, name: string, value: string)
    ensures FormValidation.EntryError(RatingField(rating)).None? <==> rating > 0
    ensures FormValidation.EntryError(Field(name, value)).None? <==> value != ""
  {
    if value != "" {
      FormValidation.OtherKindsPass(Field(name, value));
    }
  }

  lemma ReviewFormAccepts(rating: int, productId: string, userId: string, text: string)
    ensures (FormValidation.ValidateForm(ReviewForm(rating, productId, userId, text)) == map[])
            <==> rating > 0 && productId != "" && userId != "" && text != ""
  {
    var form := ReviewForm(rating, productId, userId, text);
    FormValidation.ValidateFormEmpty(form);
    FieldRules(rating, "productId", productId);
    FieldRules(rating, "userId", userId);
    FieldRules(rating, "review", text);
    var ok := rating > 0 && productId != "" && userId != "" && text != "";
    if ok {
      assert forall i :: 0 <= i < |form| ==> FormValidation.EntryError(form[i]).None?;
    } else {
      assert exists i :: 0 <= i < |form| && FormValidation.EntryError(form[i]).Some? by {
        if rating <= 0 { assert FormValidation.EntryError(form[0]).Some?; }
        else if productId == "" { assert FormValidation.EntryError(form[1]).Some?; }
        else if userId == "" { assert FormValidation.EntryError(form[2]).Some?; }
        else { assert FormValidation.EntryError(form[3]).Some?; }
      }
    }
  }

  lemma EditFormAccepts(rating: int, text: string)
    ensures (FormValidation.ValidateForm(EditForm(rating, text)) == map[]) <==> rating > 0 && text != ""
  {
    FormValidation.ValidateFormEmpty(EditForm(rating, text));
    FieldRules(rating, "review", text);
  }

  /** `createReview`: customers only; a non-positive rating or an empty field is
      VALIDATION_ERROR and nothing is saved. The author is the `userId` of the
      input, which need not be the caller's id. */
  function CreateReview(svc: Services, reviews: seq<Review>, token: string, rating: int, productId: string, userId: string, text: string, newId: string)
    : (r: (seq<Review>, Result<Review, Fault>))
    ensures r.1.Failure? ==> r.0 == reviews
    ensures Caller(svc, token, Only(Customer)).Failure? ==> r.1 == Failure(Caller(svc, token, Only(Customer)).error)
    ensures r.1.Success? <==> (Caller(svc, token, Only(Customer)).Success?
                               && rating > 0 && productId != "" && userId != "" && text != "")
    ensures (Caller(svc, token, Only(Customer)).Success? && !(rating > 0 && productId != "" && userId != "" && text != ""))
              ==> r.1 == Failure(Invalid(FormValidation.ValidateForm(ReviewForm(rating, productId, userId, text))))
    ensures r.1.Success? ==> r.1.value == Review(newId, userId, productId, rating, text) && r.0 == reviews + [r.1.value]
  {
    match Caller(svc, token, Only(Customer))
    case Failure(f) => (reviews, Failure(f))
    case Success(_) =>
      ReviewFormAccepts(rating, productId, userId, text);
      var errors := FormValidation.ValidateForm(ReviewForm(rating, productId, userId, text));
      if errors != map[] then (reviews, Failure(Invalid(errors)))
      else
        var v := Review(newId, userId, productId, rating, text);
        (reviews + [v], Success(v))
  }

  /** A new review is listed among its product's reviews, after those already there. */
  lemma CreatedReviewListed(svc: Services, reviews: seq<Review>, token: string, rating: int, productId: string, userId: string, text: string, newId: string)
    requires CreateReview(svc, reviews, token, rating, productId, userId, text, newId).1.Success?
    ensures var r := CreateReview(svc, reviews, token, rating, productId, userId, text, newId);
      && ProductReviews(r.0, productId).Success?
      && r.1.value in ProductReviews(r.0, productId).value
      && forall v :: v in ProductReviews(reviews, productId).value ==> v in ProductReviews(r.0, productId).value
  {
  }

  function SetText(rating: int, text: string): Review -> Review {
    (v: Review) => v.(rating := rating, review := text)
  }

  /** `editReview`: customers only; a non-positive rating or empty text is
      VALIDATION_ERROR. Only the rating and the text of the first review with the
      id change, whoever wrote it; the review as it was before the edit is
      returned, null when there is none. */
  function EditReview(svc: Services, reviews: seq<Review>, token: string, id: string, rating: int, text: string)
    : (r: (seq<Review>, Result<Option<Review>, Fault>))
    ensures r.1.Failure? ==> r.0 == reviews
    ensures Caller(svc, token, Only(Customer)).Failure? ==> r.1 == Failure(Caller(svc, token, Only(Customer)).error)
    ensures r.1.Success? <==> Caller(svc, token, Only(Customer)).Success? && rating > 0 && text != ""
    ensures r.1.Success? ==> r.1.value == FindFirst(reviews, (v: Review) => v.id == id)
    ensures r.1.Success? ==> |r.0| == |reviews| && forall i :: 0 <= i < |reviews| ==>
      (r.0[i] == reviews[i] || (reviews[i].id == id && r.0[i] == reviews[i].(rating := rating, review := text)))
  {
    match Caller(svc, token, Only(Customer))
    case Failure(f) => (reviews, Failure(f))
    case Success(_) =>
      EditFormAccepts(rating, text);
      var errors := FormValidation.ValidateForm(EditForm(rating, text));
      if errors != map[] then (reviews, Failure(Invalid(errors)))
      else
        var p := (v: Review) => v.id == id;
        (UpdateFirst(reviews, p, SetText(rating, text)), Success(FindFirst(reviews, p)))
  }

  /** After an edit the review with that id carries the new rating and text and
      keeps its author and product. */
  lemma EditedReviewRead(svc: Services, reviews: seq<Review>, token: string, id: string, rating: int, text: string)
    requires EditReview(svc, reviews, token, id, rating, text).1.Success?
    requires EditReview(svc, reviews, token, id, rating, text).1.value.Some?
    ensures var r := EditReview(svc, reviews, token, id, rating, text);
      var before := r.1.value.value;
      FindFirst(r.0, (v: Review) => v.id == id) == Some(before.(rating := rating, review := text))
  {
    var p := (v: Review) => v.id == id;
    var after := UpdateFirst(reviews, p, SetText(rating, text));
    var i := IndexOf(reviews, p).value;
    assert forall j :: 0 <= j < i ==> !p(after[j]);
    assert IndexOf(after, p) == Some(i);
  }

  /** `deleteReview`: any signed-in role may delete any review; NOT_FOUND when
      there is none with the id. */
  function DeleteReview(svc: Services, reviews: seq<Review>, token: string, id: string): (r: (seq<Review>, Result<bool, Fault>))
    ensures r.1.Failure? ==> r.0 == reviews
    ensures Caller(svc, token, AnyRole).Failure? ==> r.1 == Failure(Caller(svc, token, AnyRole).error)
    ensures (Caller(svc, token, AnyRole).Success? && forall v :: v in reviews ==> v.id != id) ==> r.1 == Failure(Coded(NotFound))
    ensures r.1.Success? <==> Caller(svc, token, AnyRole).Success? && exists v :: v in reviews && v.id == id
    ensures r.1.Success? ==> |r.0| == |reviews| - 1
    ensures r.1.Success? ==> r.1.value && FindFirst(reviews, (v: Review) => v.id == id).Some?
                             && multiset(r.0) + multiset{FindFirst(reviews, (v: Review) => v.id == id).value} == multiset(reviews)
  {
    match Caller(svc, token, AnyRole)
    case Failure(f) => (reviews, Failure(f))
    case Success(_) =>
      var p := (v: Review) => v.id == id;
      match IndexOf(reviews, p)
      case None => (reviews, Failure(Coded(NotFound)))
      case Some(i) =>
        assert reviews == reviews[..i] + [reviews[i]] + reviews[i + 1..];
        (RemoveFirst(reviews, p), Success(true))
  }

  /** With unique ids, a deleted review is gone from the collection and so from
      its product's listing. */
  lemma DeletedReviewGone(svc: Services, reviews: seq<Review>, token: string, id: string)
    requires DeleteReview(svc, reviews, token, id).1.Success?
    requires forall i, j :: 0 <= i < |reviews| && 0 <= j < |reviews| && reviews[i].id == reviews[j].id ==> i == j
    ensures var after := DeleteReview(svc, reviews, token, id).0;
      && (forall v :: v in after ==> v.id != id)
      && var gone := FindFirst(reviews, (v: Review) => v.id == id).value;
         ProductReviews(after, gone.productId).Success? ==> gone !in ProductReviews(after, gone.productId).value
  {
    RemoveFirstGone(reviews, (v: Review) => v.id == id);
  }
}

=== FILE: services.dfy ===
/** The foreign collaborators the resolvers call, passed in as functions:
    JWT signing and verification, bcrypt, Google ID-token verification and the
    object-store upload. */
module Services {
  import opened Tokens
  import opened Store

  /** What `OAuth2Client.verifyIdToken(...).getPayload()` yields. */
  datatype GoogleOutcome =
    | GooglePayload(email: string, givenName: string, familyName: string, sub: string)
    | NoPayload
    | Rejected      // verifyIdToken throws

  /** An uploaded file as the resolver receives it. */
  datatype UploadFile = UploadFile(filename: string)

  datatype Services = Services(
    env: Env,
    verify: Verifier,
    sign: Signer,
    compare: (string, string) -> bool,   // bcrypt.compare(plain, hash)
    hash: string -> string,              // bcrypt.hashSync(plain, genSaltSync(8))
    google: string -> GoogleOutcome,
    upload: (UploadFile, string, string) -> Image)  // uploadImage(file, slug, folder)
}

=== FILE: sessions.dfy ===
/** The cookie-based session resolvers of gqlSchema/resolvers/auth.resolver.ts.
    Each user record stores one refresh token: a login or a refresh overwrites
    it with the token it issues, a logout overwrites it with `''`, and a refresh
    succeeds only when the presented cookie equals the stored value. */
module Sessions {
  import opened Wrappers
  import opened Errors
  import opened Text
  import opened Tokens
  import opened Guard
  import opened Collections
  import opened Store
  import opened Services
  import FormValidation

  /** `getAuthStatusPayload` */
  datatype AuthStatus = AuthStatus(isLoggedIn: bool, user: Option<Identity>)

  /** A resolver's effect: the users collection afterwards, the cookie calls made
      on the response, and the value returned or the error thrown. */
  datatype Reply<T> = Reply(users: seq<User>, cookies: seq<CookieOp>, result: Result<T, Fault>)

  function Fail<T>(users: seq<User>, f: Fault): Reply<T> {
    Reply(users, [], Failure(f))
  }

  function SetRefresh(token: string): User -> User {
    (u: User) => u.(refreshToken := Some(token))
  }

  /** Issue a pair for `payload`, store the refresh token on the user `id` and
      set both cookies (`createJwtTokens`, `setCookies`, `user.save()`). */
  function StartSession(svc: Services, users: seq<User>, payload: Identity, nowSeconds: int): Reply<AuthStatus> {
    match CreateJwtTokens(svc.env, svc.sign, payload, nowSeconds)
    case Failure(f) => Fail(users, f)
    case Success(pair) =>
      Reply(UpdateUser(users, payload.id, SetRefresh(pair.refreshToken)), SetCookies(pair), Success(AuthStatus(true, Some(payload))))
  }

  /** A successful session start stores on the user exactly the refresh token it
      puts in the `refresh_token` cookie, and changes no other user. */
  lemma StartSessionStores(svc: Services, users: seq<User>, payload: Identity, nowSeconds: int, other: string)
    ensures var r := StartSession(svc, users, payload, nowSeconds);
      r.result.Success? && UserById(users, payload.id).Some? ==>
        && |r.cookies| == 2 && r.cookies[1].name == RefreshCookie
        && StoredToken(r.users, payload.id) == Some(Some(r.cookies[1].value))
        && r.result.value == AuthStatus(true, Some(payload))
    ensures var r := StartSession(svc, users, payload, nowSeconds);
      other != payload.id ==> StoredToken(r.users, other) == StoredToken(users, other)
    ensures var r := StartSession(svc, users, payload, nowSeconds);
      r.result.Failure? ==> r.users == users && r.result.error == Coded(JwtTokenMissing)
  {
    match CreateJwtTokens(svc.env, svc.sign, payload, nowSeconds) {
      case Failure(f) =>
      case Success(pair) =>
        UpdateUserEffect(users, payload.id, SetRefresh(pair.refreshToken), other);
    }
  }

  // ---------------------------------------------------------------------------
  // Logins
  // ---------------------------------------------------------------------------

  predicate IsAdminLogin(env: Env, email: string, password: string) {
    env.adminEmail == Some(email) && env.adminPassword == Some(password)
  }

  /** `logInAdmin`: BAD_CREDENTIALS unless both email and password equal the
      configured ones, checked before any lookup; then USER_NOT_FOUND; then
      WRONG_USER_TYPE when the record is not an admin. */
  function LogInAdmin(svc: Services, users: seq<User>, email: string, password: string, nowSeconds: int): (r: Reply<AuthStatus>)
    ensures !IsAdminLogin(svc.env, email, password) ==> r == Fail(users, Coded(BadCredentials))
    ensures (IsAdminLogin(svc.env, email, password) && FindFirst(users, (u: User) => u.email == email).None?)
              ==> r == Fail(users, Coded(UserNotFound))
    ensures (IsAdminLogin(svc.env, email, password) && FindFirst(users, (u: User) => u.email == email).Some?
             && FindFirst(users, (u: User) => u.email == email).value.role != Admin)
              ==> r == Fail(users, Coded(WrongUserType))
    ensures (IsAdminLogin(svc.env, email, password) && FindFirst(users, (u: User) => u.email == email).Some?
             && FindFirst(users, (u: User) => u.email == email).value.role == Admin)
              ==> r == StartSession(svc, users, Identity(Admin, FindFirst(users, (u: User) => u.email == email).value.id), nowSeconds)
    ensures r.result.Failure? ==> r.users == users && r.cookies == []
    ensures r.result.Success? ==> exists u :: u in users && u.email == email && u.role == Admin
                                     && r.result.value == AuthStatus(true, Some(Identity(Admin, u.id)))
                                     && r == StartSession(svc, users, Identity(Admin, u.id), nowSeconds)
  {
    if !IsAdminLogin(svc.env, email, password) then Fail(users, Coded(BadCredentials))
    else
      match FindFirst(users, (u: User) => u.email == email)
      case None => Fail(users, Coded(UserNotFound))
      case Some(admin) =>
        if admin.role != Admin then Fail(users, Coded(WrongUserType))
        else StartSession(svc, users, Identity(Admin, admin.id), nowSeconds)
  }

  /** The fields `logInUser` validates. */
  function LoginForm(email: string, password: string): seq<FormValidation.Entry> {
    [ FormValidation.Entry("email", "email", FormValidation.Str(email), None, None),
      FormValidation.Entry("password", "string", FormValidation.Str(password), None, None) ]
  }

  /** `logInUser`: VALIDATION_ERROR, then USER_NOT_FOUND (lookup by the lower-cased
      email), then WRONG_USER_TYPE, then BAD_CREDENTIALS. */
  function LogInUser(svc: Services, users: seq<User>, email: string, password: string, nowSeconds: int): (r: Reply<AuthStatus>)
    ensures (FormValidation.ValidateForm(LoginForm(email, password)) != map[])
              ==> r == Fail(users, Invalid(FormValidation.ValidateForm(LoginForm(email, password))))
    ensures (FormValidation.ValidateForm(LoginForm(email, password)) == map[]
             && FindFirst(users, (u: User) => u.email == Lower(email)).None?)
              ==> r == Fail(users, Coded(UserNotFound))
    ensures (FormValidation.ValidateForm(LoginForm(email, password)) == map[]
             && FindFirst(users, (u: User) => u.email == Lower(email)).Some?
             && FindFirst(users, (u: User) => u.email == Lower(email)).value.role != Customer)
              ==> r == Fail(users, Coded(WrongUserType))
    ensures (FormValidation.ValidateForm(LoginForm(email, password)) == map[]
             && FindFirst(users, (u: User) => u.email == Lower(email)).Some?
             && FindFirst(users, (u: User) => u.email == Lower(email)).value.role == Customer)
              ==> var u := FindFirst(users, (u: User) => u.email == Lower(email)).value;
                  && (u.password.None? ==> r == Fail(users, Crash))
                  && (u.password.Some? && !svc.compare(password, u.password.value) ==> r == Fail(users, Coded(BadCredentials)))
                  && ((u.password.Some? && svc.compare(password, u.password.value))
                        ==> r == StartSession(svc, users, Identity(Customer, u.id), nowSeconds))
    ensures r.result.Failure? ==> r.users == users && r.cookies == []
    ensures r.result.Success? ==> exists u :: u in users && u.email == Lower(email) && u.role == Customer
                                     && u.password.Some? && svc.compare(password, u.password.value)
                                     && r.result.value == AuthStatus(true, Some(Identity(Customer, u.id)))
                                     && r == StartSession(svc, users, Identity(Customer, u.id), nowSeconds)
  {
    var errors := FormValidation.ValidateForm(LoginForm(email, password));
    if errors != map[] then Fail(users, Invalid(errors))
    else
      match FindFirst(users, (u: User) => u.email == Lower(email))
      case None => Fail(users, Coded(UserNotFound))
      case Some(user) =>
        if user.role != Customer then Fail(users, Coded(WrongUserType))
        else if user.password.None? then Fail(users, Crash)
        else if !svc.compare(password, user.password.value) then Fail(users, Coded(BadCredentials))
        else StartSession(svc, users, Identity(Customer, user.id), nowSeconds)
  }

  /** `logInGoogleUser`: an empty credential or a verification without payload is
      GOOGLE_ERROR; an unknown email creates a password-less customer with the
      Google subject id (saved before the tokens are issued); the token is
      always issued with role CUSTOMER, even for an existing admin. */
  function LogInGoogleUser(svc: Services, users: seq<User>, credential: string, freshId: string, nowSeconds: int): (r: Reply<AuthStatus>)
    ensures credential == "" ==> r == Fail(users, Coded(GoogleError))
    ensures credential != "" && svc.google(credential).NoPayload? ==> r == Fail(users, Coded(GoogleError))
    ensures credential != "" && svc.google(credential).Rejected? ==> r == Fail(users, Crash)
    ensures (credential != "" && svc.google(credential).GooglePayload?
             && FindFirst(users, (u: User) => u.email == svc.google(credential).email).Some?)
              ==> r == StartSession(svc, users, Identity(Customer, FindFirst(users, (u: User) => u.email == svc.google(credential).email).value.id), nowSeconds)
    ensures (credential != "" && svc.google(credential).GooglePayload?
             && FindFirst(users, (u: User) => u.email == svc.google(credential).email).None?)
              ==> var g := svc.google(credential);
                  r == StartSession(svc, users + [User(freshId, g.givenName, g.familyName, g.email, None, Customer, Some(g.sub), None, None)],
                                    Identity(Customer, freshId), nowSeconds)
    ensures r.result.Success? ==> r.result.value.user.Some? && r.result.value.user.value.role == Customer
    ensures r.result.Success? ==>
      (svc.google(credential).GooglePayload?
       && exists u :: u in r.users && u.email == svc.google(credential).email && r.result.value.user == Some(Identity(Customer, u.id)))
    ensures r.result.Success? && (forall u :: u in users ==> u.email != svc.google(credential).email) ==>
      && |r.users| == |users| + 1
      && var created := r.users[|users|];
         created.id == freshId && created.password.None? && created.googleId == Some(svc.google(credential).sub)
         && created.role == Customer && ValidUser(created)
  {
    if credential == "" then Fail(users, Coded(GoogleError))
    else
      match svc.google(credential)
      case Rejected => Fail(users, Crash)
      case NoPayload => Fail(users, Coded(GoogleError))
      case GooglePayload(email, given, family, sub) =>
        match FindFirst(users, (u: User) => u.email == email)
        case Some(user) => StartSession(svc, users, Identity(Customer, user.id), nowSeconds)
        case None =>
          var created := User(freshId, given, family, email, None, Customer, Some(sub), None, None);
          var r := StartSession(svc, users + [created], Identity(Customer, freshId), nowSeconds);
          assert r.result.Success? ==> r.users[|users|] in r.users && r.users[|users|].email == email;
          r
  }

  // ---------------------------------------------------------------------------
  // Password change, logout, refresh, status
  // ---------------------------------------------------------------------------

  const NewPasswordHint: string := "Please insert new password in correct format."

  function NewPasswordForm(newPassword: string): seq<FormValidation.Entry> {
    [FormValidation.Entry("newPassword", "password", FormValidation.Str(newPassword), Some(NewPasswordHint), None)]
  }

  /** `changePassWord`: NOT_AUTHENTICATED, then VALIDATION_ERROR, then
      USER_NOT_FOUND, then BAD_CREDENTIALS; on success only the password hash of
      the user named in the input (not necessarily the caller) changes. */
  function ChangePassword(svc: Services, users: seq<User>, token: string, id: string, currentPassword: string, newPassword: string): (r: Reply<bool>)
    ensures r.result.Failure? ==> r.users == users
    ensures token == "" ==> r.result == Failure(Coded(NotAuthenticated))
    ensures (Check(ContextPolicy, svc.env.accessSecret, svc.verify, token, AnyRole).Failure?)
              ==> r == Fail(users, Check(ContextPolicy, svc.env.accessSecret, svc.verify, token, AnyRole).error)
    ensures (Check(ContextPolicy, svc.env.accessSecret, svc.verify, token, AnyRole).Success?
             && FormValidation.ValidateForm(NewPasswordForm(newPassword)) != map[])
              ==> r == Fail(users, Invalid(FormValidation.ValidateForm(NewPasswordForm(newPassword))))
    ensures r.result.Success? <==>
              (Check(ContextPolicy, svc.env.accessSecret, svc.verify, token, AnyRole).Success?
               && FormValidation.StrongPassword(newPassword) && UserById(users, id).Some?
               && UserById(users, id).value.password.Some?
               && svc.compare(currentPassword, UserById(users, id).value.password.value))
    ensures r.result.Success? ==> r.result.value && FormValidation.StrongPassword(newPassword)
    ensures r.result.Success? ==> r.users == UpdateUser(users, id, (u: User) => u.(password := Some(svc.hash(newPassword))))
    ensures r.result.Success? ==> UserById(users, id).Some? && UserById(users, id).value.password.Some?
                                  && svc.compare(currentPassword, UserById(users, id).value.password.value)
    ensures (Check(ContextPolicy, svc.env.accessSecret, svc.verify, token, AnyRole).Success?
             && FormValidation.StrongPassword(newPassword) && UserById(users, id).None?)
              ==> r.result == Failure(Coded(UserNotFound))
    ensures (Check(ContextPolicy, svc.env.accessSecret, svc.verify, token, AnyRole).Success?
             && FormValidation.StrongPassword(newPassword) && UserById(users, id).Some?
             && UserById(users, id).value.password.Some?
             && !svc.compare(currentPassword, UserById(users, id).value.password.value))
              ==> r.result == Failure(Coded(BadCredentials))
  {
    match Check(ContextPolicy, svc.env.accessSecret, svc.verify, token, AnyRole)
    case Failure(f) => Fail(users, f)
    case Success(_) =>
      var errors := FormValidation.ValidateForm(NewPasswordForm(newPassword));
      FormValidation.ValidateFormEmpty(NewPasswordForm(newPassword));
      assert FormValidation.StrongPassword(newPassword) ==> errors == map[] by {
        if FormValidation.StrongPassword(newPassword) {
          assert FormValidation.EntryError(NewPasswordForm(newPassword)[0]).None?;
        }
      }
      if errors != map[] then Fail(users, Invalid(errors))
      else
        match UserById(users, id)
        case None => Fail(users, Coded(UserNotFound))
        case Some(user) =>
          if user.password.None? then Fail(users, Crash)
          else if !svc.compare(currentPassword, user.password.value) then Fail(users, Coded(BadCredentials))
          else Reply(UpdateUser(users, id, (u: User) => u.(password := Some(svc.hash(newPassword)))), [], Success(true))
  }

  /** A weak new password is rejected with the custom message under the key
      `password`, although the field is called `newPassword`; an empty one is
      reported under `newPassword`. */
  lemma WeakNewPasswordKey(svc: Services, users: seq<User>, token: string, id: string, currentPassword: string, newPassword: string)
    requires Check(ContextPolicy, svc.env.accessSecret, svc.verify, token, AnyRole).Success?
    requires !FormValidation.StrongPassword(newPassword)
    ensures ChangePassword(svc, users, token, id, currentPassword, newPassword).result
              == Failure(Invalid(map[(if newPassword == "" then "newPassword" else "password") := NewPasswordHint]))
  {
    var form := NewPasswordForm(newPassword);
    var key := if newPassword == "" then "newPassword" else "password";
    assert form[..0] == [];
    assert FormValidation.EntryError(form[0]) == Some((key, NewPasswordHint));
    assert FormValidation.ValidateForm(form) == map[key := NewPasswordHint];
    assert FormValidation.ValidateForm(form) != map[] by {
      assert key in FormValidation.ValidateForm(form);
    }
  }

  /** `logOutUser`: the caller's stored token becomes `''` when the caller's record
      exists, both cookies are cleared, and the answer is always "logged out". */
  function LogOutUser(svc: Services, users: seq<User>, token: string): (r: Reply<AuthStatus>)
    ensures r.result.Success? ==> r.result.value == AuthStatus(false, None) && r.cookies == ResetCookies()
    ensures r.result.Success? <==> GetAuth(svc.env, svc.verify, token).Success?
    ensures r.result.Failure? || GetAuth(svc.env, svc.verify, token).value.None? ==> r.users == users
    ensures r.result.Success? && GetAuth(svc.env, svc.verify, token).value.Some? ==>
      var id := GetAuth(svc.env, svc.verify, token).value.value.id;
      && |r.users| == |users|
      && (forall i :: 0 <= i < |users| && users[i].id == id ==> r.users[i] == users[i].(refreshToken := Some("")))
      && (forall i :: 0 <= i < |users| && users[i].id != id ==> r.users[i] == users[i])
  {
    match GetAuth(svc.env, svc.verify, token)
    case Failure(f) => Fail(users, f)
    case Success(None) => Reply(users, ResetCookies(), Success(AuthStatus(false, None)))
    case Success(Some(auth)) =>
      var after := if UserById(users, auth.id).Some? then UpdateUser(users, auth.id, SetRefresh("")) else users;
      Reply(after, ResetCookies(), Success(AuthStatus(false, None)))
  }

  /** `refreshToken`: an absent cookie is JWT_TOKEN_MISSING; a cookie that does not
      verify under the refresh secret fails with the verification error; an
      unknown user or a stored value different from the cookie clears the
      cookies and is TOKEN_REVOKED; otherwise a new pair is issued for the role
      stored on the record and the stored token is rotated. */
  function RefreshToken(svc: Services, users: seq<User>, cookie: string, nowSeconds: int): (r: Reply<AuthStatus>)
    ensures cookie == "" ==> r == Fail(users, Coded(JwtTokenMissing))
    ensures r.result.Success? ==>
              && VerifyUser(svc.env.refreshSecret, svc.verify, cookie).Success?
              && var id := VerifyUser(svc.env.refreshSecret, svc.verify, cookie).value.id;
                 && StoredToken(users, id) == Some(Some(cookie))
                 && r.result.value == AuthStatus(true, Some(Identity(UserById(users, id).value.role, id)))
                 && r == StartSession(svc, users, Identity(UserById(users, id).value.role, id), nowSeconds)
    ensures (cookie != "" && VerifyUser(svc.env.refreshSecret, svc.verify, cookie).Failure?)
              ==> r == Fail(users, VerifyUser(svc.env.refreshSecret, svc.verify, cookie).error)
    ensures (cookie != "" && VerifyUser(svc.env.refreshSecret, svc.verify, cookie).Success?
             && StoredToken(users, VerifyUser(svc.env.refreshSecret, svc.verify, cookie).value.id) != Some(Some(cookie)))
              ==> r == Reply(users, ResetCookies(), Failure(Coded(TokenRevoked)))
  {
    if cookie == "" then Fail(users, Coded(JwtTokenMissing))
    else
      match VerifyUser(svc.env.refreshSecret, svc.verify, cookie)
      case Failure(f) => Fail(users, f)
      case Success(auth) =>
        match UserById(users, auth.id)
        case None => Reply(users, ResetCookies(), Failure(Coded(TokenRevoked)))
        case Some(user) =>
          if user.refreshToken != Some(cookie) then Reply(users, ResetCookies(), Failure(Coded(TokenRevoked)))
          else StartSession(svc, users, Identity(user.role, user.id), nowSeconds)
  }

  /** `getAuthStatus`: logged in exactly when the access token verifies. */
  function GetAuthStatus(svc: Services, token: string): (r: Result<AuthStatus, Fault>)
    ensures token == "" ==> r == Success(AuthStatus(false, None))
    ensures r.Success? <==> GetAuth(svc.env, svc.verify, token).Success?
    ensures r.Success? ==> (r.value.isLoggedIn <==> r.value.user.Some?) && r.value.user == GetAuth(svc.env, svc.verify, token).value
  {
    match GetAuth(svc.env, svc.verify, token)
    case Failure(f) => Failure(f)
    case Success(None) => Success(AuthStatus(false, None))
    case Success(Some(u)) => Success(AuthStatus(true, Some(u)))
  }

  // ---------------------------------------------------------------------------
  // The refresh-token life cycle
  // ---------------------------------------------------------------------------

  /** After `refreshToken` has been handed a cookie that verifies to `id`. */
  predicate Revoked(users: seq<User>, id: string) {
    StoredToken(users, id) == Some(Some(""))
  }

  /** A successful login stores its refresh token; a later refresh with that
      cookie, when it verifies to the same user, succeeds with the stored role. */
  lemma SessionThenRefresh(svc: Services, users: seq<User>, payload: Identity, nowSeconds: int, laterSeconds: int)
    requires UserById(users, payload.id).Some?
    requires StartSession(svc, users, payload, nowSeconds).result.Success?
    requires var c := StartSession(svc, users, payload, nowSeconds).cookies[1].value;
      c != "" && Configured(svc.env.refreshSecret) && svc.verify(c, svc.env.refreshSecret.value).Valid?
      && svc.verify(c, svc.env.refreshSecret.value).claims.id == payload.id
    ensures var r := StartSession(svc, users, payload, nowSeconds);
      var again := RefreshToken(svc, r.users, r.cookies[1].value, laterSeconds);
      again.result.Success? && again.result.value.user == Some(Identity(UserById(users, payload.id).value.role, payload.id))
  {
    var r := StartSession(svc, users, payload, nowSeconds);
    StartSessionStores(svc, users, payload, nowSeconds, payload.id);
    var pair := CreateJwtTokens(svc.env, svc.sign, payload, nowSeconds).value;
    UpdateUserEffect(users, payload.id, SetRefresh(pair.refreshToken), payload.id);
  }

  /** Once revoked, a refresh cookie for the user is refused with TOKEN_REVOKED and
      the cookies are cleared, whatever cookie is presented. */
  lemma RefreshRefusedWhenRevoked(svc: Services, users: seq<User>, cookie: string, nowSeconds: int)
    requires cookie != ""
    requires VerifyUser(svc.env.refreshSecret, svc.verify, cookie).Success?
    requires Revoked(users, VerifyUser(svc.env.refreshSecret, svc.verify, cookie).value.id)
    ensures RefreshToken(svc, users, cookie, nowSeconds) == Reply(users, ResetCookies(), Failure(Coded(TokenRevoked)))
  {
  }

  /** Logging out with a valid access token for an existing user revokes that
      user's refresh token. */
  lemma LogOutRevokes(svc: Services, users: seq<User>, token: string)
    requires GetAuth(svc.env, svc.verify, token).Success? && GetAuth(svc.env, svc.verify, token).value.Some?
    requires UserById(users, GetAuth(svc.env, svc.verify, token).value.value.id).Some?
    ensures Revoked(LogOutUser(svc, users, token).users, GetAuth(svc.env, svc.verify, token).value.value.id)
  {
    var id := GetAuth(svc.env, svc.verify, token).value.value.id;
    UpdateUserEffect(users, id, SetRefresh(""), id);
  }

  /** A request against the session resolvers. */
  datatype Event =
    | AdminLogin(email: string, password: string)
    | UserLogin(email: string, password: string)
    | GoogleLogin(credential: string, freshId: string)
    | PasswordChange(token: string, id: string, currentPassword: string, newPassword: string)
    | Logout(token: string)
    | Refresh(cookie: string)

  /** The users collection after one request at time `nowSeconds`. */
  function Step(svc: Services, users: seq<User>, ev: Event, nowSeconds: int): seq<User> {
    match ev
    case AdminLogin(e, p) => LogInAdmin(svc, users, e, p, nowSeconds).users
    case UserLogin(e, p) => LogInUser(svc, users, e, p, nowSeconds).users
    case GoogleLogin(c, fid) => LogInGoogleUser(svc, users, c, fid, nowSeconds).users
    case PasswordChange(t, pid, cur, np) => ChangePassword(svc, users, t, pid, cur, np).users
    case Logout(t) => LogOutUser(svc, users, t).users
    case Refresh(c) => RefreshToken(svc, users, c, nowSeconds).users
  }

  /** The request is a login (by password or by Google) that succeeds for `id`. */
  predicate LogsIn(svc: Services, users: seq<User>, ev: Event, nowSeconds: int, id: string) {
    var r := match ev
      case AdminLogin(e, p) => LogInAdmin(svc, users, e, p, nowSeconds)
      case UserLogin(e, p) => LogInUser(svc, users, e, p, nowSeconds)
      case GoogleLogin(c, fid) => LogInGoogleUser(svc, users, c, fid, nowSeconds)
      case _ => Reply(users, [], Failure(Crash));
    r.result.Success? && r.result.value.user == Some(Identity(r.result.value.user.value.role, id))
  }

  lemma StartSessionKeepsRevoked(svc: Services, users: seq<User>, payload: Identity, nowSeconds: int, id: string)
    requires Revoked(users, id) && payload.id != id
    ensures Revoked(StartSession(svc, users, payload, nowSeconds).users, id)
  {
    StartSessionStores(svc, users, payload, nowSeconds, id);
  }

  lemma AdminLoginKeepsRevoked(svc: Services, users: seq<User>, e: string, p: string, nowSeconds: int, id: string)
    requires Revoked(users, id) && !LogsIn(svc, users, AdminLogin(e, p), nowSeconds, id)
    ensures Revoked(LogInAdmin(svc, users, e, p, nowSeconds).users, id)
  {
    var r := LogInAdmin(svc, users, e, p, nowSeconds);
    if r.result.Success? {
      var u :| u in users && r == StartSession(svc, users, Identity(Admin, u.id), nowSeconds)
               && r.result.value == AuthStatus(true, Some(Identity(Admin, u.id)));
      StartSessionKeepsRevoked(svc, users, Identity(Admin, u.id), nowSeconds, id);
    }
  }

  lemma UserLoginKeepsRevoked(svc: Services, users: seq<User>, e: string, p: string, nowSeconds: int, id: string)
    requires Revoked(users, id) && !LogsIn(svc, users, UserLogin(e, p), nowSeconds, id)
    ensures Revoked(LogInUser(svc, users, e, p, nowSeconds).users, id)
  {
    var r := LogInUser(svc, users, e, p, nowSeconds);
    if r.result.Success? {
      var u :| u in users && r == StartSession(svc, users, Identity(Customer, u.id), nowSeconds)
               && r.result.value == AuthStatus(true, Some(Identity(Customer, u.id)));
      StartSessionKeepsRevoked(svc, users, Identity(Customer, u.id), nowSeconds, id);
    }
  }

  lemma GoogleLoginKeepsRevoked(svc: Services, users: seq<User>, c: string, fid: string, nowSeconds: int, id: string)
    requires Revoked(users, id) && !LogsIn(svc, users, GoogleLogin(c, fid), nowSeconds, id)
    ensures Revoked(LogInGoogleUser(svc, users, c, fid, nowSeconds).users, id)
  {
    if c != "" && svc.google(c).GooglePayload? {
      var g := svc.google(c);
      match FindFirst(users, (u: User) => u.email == g.email) {
        case Some(user) =>
          if user.id != id {
            StartSessionKeepsRevoked(svc, users, Identity(Customer, user.id), nowSeconds, id);
          }
        case None =>
          var created := User(fid, g.givenName, g.familyName, g.email, None, Customer, Some(g.sub), None, None);
          var grown := users + [created];
          FindFirstAppend(users, [created], (u: User) => u.id == id);
          assert Revoked(grown, id);
          if fid != id {
            StartSessionKeepsRevoked(svc, grown, Identity(Customer, fid), nowSeconds, id);
          }
      }
    }
  }

  lemma PasswordChangeKeepsRevoked(svc: Services, users: seq<User>, t: string, pid: string, cur: string, np: string, id: string)
    requires Revoked(users, id)
    ensures Revoked(ChangePassword(svc, users, t, pid, cur, np).users, id)
  {
    if ChangePassword(svc, users, t, pid, cur, np).result.Success? {
      UpdateUserEffect(users, pid, (u: User) => u.(password := Some(svc.hash(np))), id);
      if pid == id {
        UpdateUserEffect(users, pid, (u: User) => u.(password := Some(svc.hash(np))), pid);
      }
    }
  }

  lemma LogoutKeepsRevoked(svc: Services, users: seq<User>, t: string, id: string)
    requires Revoked(users, id)
    ensures Revoked(LogOutUser(svc, users, t).users, id)
  {
    match GetAuth(svc.env, svc.verify, t) {
      case Failure(_) =>
      case Success(None) =>
      case Success(Some(auth)) =>
        if UserById(users, auth.id).Some? {
          UpdateUserEffect(users, auth.id, SetRefresh(""), id);
        }
    }
  }

  lemma RefreshKeepsRevoked(svc: Services, users: seq<User>, c: string, nowSeconds: int, id: string)
    requires Revoked(users, id)
    ensures Revoked(RefreshToken(svc, users, c, nowSeconds).users, id)
  {
    if c != "" && VerifyUser(svc.env.refreshSecret, svc.verify, c).Success? {
      var auth := VerifyUser(svc.env.refreshSecret, svc.verify, c).value;
      match UserById(users, auth.id) {
        case None =>
        case Some(user) =>
          if user.refreshToken == Some(c) {
            StartSessionKeepsRevoked(svc, users, Identity(user.role, user.id), nowSeconds, id);
          }
      }
    }
  }

  /** No request except a successful login of `id` un-revokes `id`: in particular
      a refresh cannot, and neither can a password change or another user's
      login or logout. */
  lemma StepKeepsRevoked(svc: Services, users: seq<User>, ev: Event, nowSeconds: int, id: string)
    requires Revoked(users, id)
    requires !LogsIn(svc, users, ev, nowSeconds, id)
    ensures Revoked(Step(svc, users, ev, nowSeconds), id)
  {
    match ev {
      case AdminLogin(e, p) => AdminLoginKeepsRevoked(svc, users, e, p, nowSeconds, id);
      case UserLogin(e, p) => UserLoginKeepsRevoked(svc, users, e, p, nowSeconds, id);
      case GoogleLogin(c, fid) => GoogleLoginKeepsRevoked(svc, users, c, fid, nowSeconds, id);
      case PasswordChange(t, pid, cur, np) => PasswordChangeKeepsRevoked(svc, users, t, pid, cur, np, id);
      case Logout(t) => LogoutKeepsRevoked(svc, users, t, id);
      case Refresh(c) => RefreshKeepsRevoked(svc, users, c, nowSeconds, id);
    }
  }

  /** The users collection after a sequence of requests, one per time stamp. */
  function Run(svc: Services, users: seq<User>, evs: seq<(Event, int)>): seq<User>
    decreases |evs|
  {
    if evs == [] then users else Run(svc, Step(svc, users, evs[0].0, evs[0].1), evs[1..])
  }

  /** No request of the sequence is a successful login of `id`. */
  predicate NoLoginOf(svc: Services, users: seq<User>, evs: seq<(Event, int)>, id: string)
    decreases |evs|
  {
    evs == [] ||
    (!LogsIn(svc, users, evs[0].0, evs[0].1, id) && NoLoginOf(svc, Step(svc, users, evs[0].0, evs[0].1), evs[1..], id))
  }

  /** After a logout, the user's refresh token stays revoked, so that every refresh
      for that user is refused, until the user logs in again. */
  lemma {:induction false} RevokedUntilLogin(svc: Services, users: seq<User>, evs: seq<(Event, int)>, id: string)
    requires Revoked(users, id)
    requires NoLoginOf(svc, users, evs, id)
    ensures Revoked(Run(svc, users, evs), id)
    decreases |evs|
  {
    if evs != [] {
      StepKeepsRevoked(svc, users, evs[0].0, evs[0].1, id);
      RevokedUntilLogin(svc, Step(svc, users, evs[0].0, evs[0].1), evs[1..], id);
    }
  }
}

=== FILE: sorting.dfy ===
/** The store's `.sort({field: 1})`: a stable ascending sort on an integer key,
    written as insertion sort. A descending sort is the ascending sort on the
    negated key. */
module Sorting {

  predicate SortedBy<T>(xs: seq<T>, key: T -> int) {
    forall i, j :: 0 <= i < j < |xs| ==> key(xs[i]) <= key(xs[j])
  }

  /** Insert `x` into a sorted sequence, before the first element whose key is
      not smaller. */
  function Insert<T>(x: T, xs: seq<T>, key: T -> int): (r: seq<T>)
    requires SortedBy(xs, key)
    ensures |r| == |xs| + 1
    ensures SortedBy(r, key)
    ensures multiset(r) == multiset(xs) + multiset{x}
  {
    if xs == [] then [x]
    else if key(x) <= key(xs[0]) then [x] + xs
    else
      var rest := Insert(x, xs[1..], key);
      assert xs == [xs[0]] + xs[1..];
      assert forall k :: 0 <= k < |rest| ==> key(xs[0]) <= key(rest[k]) by {
        forall k | 0 <= k < |rest|
          ensures key(xs[0]) <= key(rest[k])
        {
          assert rest[k] in multiset(rest);
          assert rest[k] == x || rest[k] in multiset(xs[1..]);
        }
      }
      [xs[0]] + rest
  }

  /** The sorted permutation of `xs`. */
  function SortBy<T>(xs: seq<T>, key: T -> int): (r: seq<T>)
    ensures |r| == |xs|
    ensures SortedBy(r, key)
    ensures multiset(r) == multiset(xs)
  {
    if xs == [] then []
    else
      assert xs == [xs[0]] + xs[1..];
      Insert(xs[0], SortBy(xs[1..], key), key)
  }

  /** Sorting a sequence that is already sorted leaves it exactly as it was. */
  lemma {:induction false} SortSorted<T>(xs: seq<T>, key: T -> int)
    requires SortedBy(xs, key)
    ensures SortBy(xs, key) == xs
  {
    if xs != [] {
      var tail := xs[1..];
      assert SortedBy(tail, key);
      SortSorted(tail, key);
      assert SortBy(xs, key) == Insert(xs[0], tail, key);
      if tail != [] {
        assert key(xs[0]) <= key(tail[0]);
      }
      assert xs == [xs[0]] + tail;
    }
  }

  /** Sorting is idempotent. */
  lemma SortIdempotent<T>(xs: seq<T>, key: T -> int)
    ensures SortBy(SortBy(xs, key), key) == SortBy(xs, key)
  {
    SortSorted(SortBy(xs, key), key);
  }
}

=== FILE: store.dfy ===
/** The documents of the five collections (users, products, orders, reviews,
    wish lists) as immutable records, and the database as five sequences in
    insertion order. Ids are strings. */
module Store {
  import opened Wrappers
  import opened Tokens
  import opened Collections

  datatype Address = Address(street: string, city: string, state: string, postcode: string, country: string)

  /** A user. `password` holds the bcrypt hash and is absent for a Google
      sign-in; `refreshToken` is the single stored refresh token (absent until the
      first login). */
  datatype User = User(
    id: string,
    firstName: string,
    lastName: string,
    email: string,
    password: Option<string>,
    role: Role,
    googleId: Option<string>,
    address: Option<Address>,
    refreshToken: Option<string>)

  /** The schema rule of dataLayer/schema/User.ts: a password is required unless
      the user signed in with Google. */
  predicate ValidUser(u: User) {
    u.password.Some? || u.googleId.Some?
  }

  datatype Image = Image(id: string, url: string)

  datatype Product = Product(
    id: string,
    title: string,
    slug: string,
    description: string,
    colors: seq<string>,
    sizes: seq<string>,
    price: int,
    category: string,
    quantity: int,
    sku: string,
    stockStatus: bool,
    featured: bool,
    imgs: seq<Image>)

  datatype OrderStatus = Pending | Completed | Processing | Cancelled | Failed | Shipped | Refunded

  datatype LineItem = LineItem(productId: string, color: string, quantity: int, size: string, price: int, imgUrl: string)

  /** An order; `placed` is `orderPlaced` in milliseconds since the epoch. */
  datatype Order = Order(
    id: string,
    orderNumber: string,
    userId: string,
    status: OrderStatus,
    total: real,
    subTotal: real,
    tax: real,
    items: seq<LineItem>,
    shippingAddress: Address,
    placed: int)

  datatype Review = Review(id: string, userId: string, productId: string, rating: int, review: string)

  /** A wish list; `products` are product ids. */
  datatype WishList = WishList(id: string, userId: string, products: seq<string>)

  datatype Db = Db(
    users: seq<User>,
    products: seq<Product>,
    orders: seq<Order>,
    reviews: seq<Review>,
    wishLists: seq<WishList>)

  /** `User.findById` */
  function UserById(users: seq<User>, id: string): Option<User> {
    FindFirst(users, (u: User) => u.id == id)
  }

  /** The query `{_id: id}` on products. */
  function ProductIdIs(id: string): Product -> bool {
    (p: Product) => p.id == id
  }

  /** `Product.findById` */
  function ProductById(products: seq<Product>, id: string): Option<Product> {
    FindFirst(products, ProductIdIs(id))
  }

  /** Replace the user with the given id by `f` of it (`save` / `findByIdAndUpdate`). */
  function UpdateUser(users: seq<User>, id: string, f: User -> User): seq<User> {
    UpdateWhere(users, (u: User) => u.id == id, f)
  }

  /** The refresh token stored for a user id, when that user exists. */
  function StoredToken(users: seq<User>, id: string): Option<Option<string>> {
    match UserById(users, id)
    case None => None
    case Some(u) => Some(u.refreshToken)
  }

  /** Updating a user by id changes the record `findById` returns to `f` of it and
      leaves every other id's record as it was. */
  lemma UpdateUserEffect(users: seq<User>, id: string, f: User -> User, other: string)
    requires forall u :: f(u).id == u.id
    ensures UserById(UpdateUser(users, id, f), id) == (match UserById(users, id) case None => None case Some(u) => Some(f(u)))
    ensures other != id ==> UserById(UpdateUser(users, id, f), other) == UserById(users, other)
  {
    var p := (u: User) => u.id == id;
    var q := (u: User) => u.id == other;
    UpdateWhereFindFirst(users, p, f, p);
    UpdateWhereFindFirst(users, p, f, q);
  }
}

=== FILE: text.dfy ===
/** Character and string helpers standing for the JavaScript built-ins the
    resolvers rely on: `\s` in a regular expression, `toLowerCase()` and the
    decimal rendering of an integer. */
module Text {

  /** The characters JavaScript's `\s` class matches (WhiteSpace and
      LineTerminator of ECMAScript section 22.2.2.9). */
  predicate IsSpace(c: char) {
    c == ' ' || c == '\t' || c == '\n' || c == '\U{B}' || c == '\U{C}' || c == '\r'
    || c == '\U{A0}' || c == '\U{1680}' || ('\U{2000}' <= c <= '\U{200A}')
    || c == '\U{2028}' || c == '\U{2029}' || c == '\U{202F}' || c == '\U{205F}'
    || c == '\U{3000}' || c == '\U{FEFF}'
  }

  /** The characters `.` refuses to match in a JavaScript regular expression. */
  predicate IsLineTerminator(c: char) {
    c == '\n' || c == '\r' || c == '\U{2028}' || c == '\U{2029}'
  }

  predicate IsLower(c: char) { 'a' <= c <= 'z' }
  predicate IsUpper(c: char) { 'A' <= c <= 'Z' }
  predicate IsDigit(c: char) { '0' <= c <= '9' }
  predicate IsLetter(c: char) { IsLower(c) || IsUpper(c) }

  function LowerChar(c: char): (r: char)
    ensures IsUpper(c) ==> IsLower(r) && r as int == c as int + 32
    ensures !IsUpper(c) ==> r == c
  {
    if IsUpper(c) then (c as int + 32) as char else c
  }

  /** `toLowerCase()`, restricted to the ASCII letters. */
  function Lower(s: string): (r: string)
    ensures |r| == |s|
    ensures forall i :: 0 <= i < |s| ==> r[i] == LowerChar(s[i])
  {
    if s == [] then [] else [LowerChar(s[0])] + Lower(s[1..])
  }

  lemma {:induction false} LowerIdempotent(s: string)
    ensures Lower(Lower(s)) == Lower(s)
  {
    if s != [] {
      LowerIdempotent(s[1..]);
      assert Lower(s)[1..] == Lower(s[1..]);
    }
  }

  function DigitChar(d: nat): (c: char)
    requires d < 10
    ensures IsDigit(c)
  {
    ('0' as int + d) as char
  }

  /** Decimal digits of a natural number, most significant first. */
  function NatToDecimal(n: nat): (r: string)
    ensures |r| >= 1
    ensures forall i :: 0 <= i < |r| ==> IsDigit(r[i])
    decreases n
  {
    if n < 10 then [DigitChar(n)] else NatToDecimal(n / 10) + [DigitChar(n % 10)]
  }

  /** `String(n)` for an integer `n`. */
  function IntToDecimal(n: int): (r: string)
    ensures |r| >= 1
    ensures n >= 0 ==> IsDigit(r[0])
    ensures n < 0 ==> r[0] == '-'
  {
    if n < 0 then "-" + NatToDecimal(-n) else NatToDecimal(n)
  }

  /** `Array.prototype.join(",")` over strings. */
  function JoinComma(items: seq<string>): string
  {
    if items == [] then ""
    else if |items| == 1 then items[0]
    else items[0] + "," + JoinComma(items[1..])
  }
}

=== FILE: tokens.dfy ===
/** Token verification, token issuing and the cookie attributes:
    utilities/verifyUser.ts, middleware/auth.middleware.ts and
    utilities/tokenGenerator.ts. Signing and verifying (RFC 7519) are left to
    function-typed parameters; only the decisions around them are modelled. */
module Tokens {
  import opened Wrappers
  import opened Errors

  datatype Role = Admin | Customer

  /** `verifiedUser`, and also the payload every token is signed over. */
  datatype Identity = Identity(role: Role, id: string)

  /** `CustomJwtPayload` as it comes out of verification. */
  datatype Claims = Claims(role: Role, id: string, iat: Option<int>, exp: Option<int>)

  /** What the JWT library's `verify` does with a token and a secret. */
  datatype VerifyOutcome =
    | Valid(claims: Claims)
    | Expired        // TokenExpiredError
    | Malformed      // any other JsonWebTokenError: bad signature, bad structure
    | OtherError     // anything else thrown

  /** `verify(token, secret)` */
  type Verifier = (string, string) -> VerifyOutcome

  /** `sign(payload, secret, {expiresIn})`, given the lifetime in seconds and the
      issue time in seconds (the `iat` claim). */
  type Signer = (Identity, string, nat, int) -> string

  /** The environment variables the core reads; `None` is an unset variable. */
  datatype Env = Env(
    jwtSecret: Option<string>,       // JWTSECRET
    accessSecret: Option<string>,    // JWT_ACCESS_TOKEN_SECRET
    refreshSecret: Option<string>,   // JWT_REFRESH_TOKEN_SECRET
    adminEmail: Option<string>,      // ADMIN_EMAIL
    adminPassword: Option<string>,   // ADMIN_PASSWORD
    adminId: Option<string>)         // ADMIN_ID

  /** A variable is usable when it is set and not empty (`!secret` is false). */
  predicate Configured(v: Option<string>) {
    v.Some? && v.value != ""
  }

  const SecretNotDefined: string := "Jwt Secret not defined"

  /** `verifyUser`: a missing secret fails before anything is verified; a valid
      token yields exactly its role and id; an expired token, a malformed one and
      any other failure are thrown as JWT_TOKEN_EXPIRED, JWT_TOKEN_INVALID and
      INTERNAL_SERVER_ERROR. No path yields an empty or falsy outcome: it is an
      identity or a thrown error with a non-empty message. */
  function VerifyUser(secret: Option<string>, verify: Verifier, token: string): (r: Result<Identity, Fault>)
    ensures !Configured(secret) ==> r == Failure(Thrown(SecretNotDefined))
    ensures r.Success? <==> Configured(secret) && verify(token, secret.value).Valid?
    ensures r.Success? ==> var c := verify(token, secret.value).claims; r.value == Identity(c.role, c.id)
    ensures r.Failure? ==> r.error.Thrown? && r.error.message != ""
    ensures Configured(secret) && verify(token, secret.value).Expired? ==> r == Failure(Named(JwtTokenExpired))
    ensures Configured(secret) && verify(token, secret.value).Malformed? ==> r == Failure(Named(JwtTokenInvalid))
    ensures Configured(secret) && verify(token, secret.value).OtherError? ==> r == Failure(Named(InternalServerError))
  {
    if !Configured(secret) then Failure(Thrown(SecretNotDefined))
    else
      match verify(token, secret.value)
      case Valid(c) => Success(Identity(c.role, c.id))
      case Expired => Failure(Named(JwtTokenExpired))
      case Malformed => Failure(Named(JwtTokenInvalid))
      case OtherError => Failure(Named(InternalServerError))
  }

  /** `getAuth`: an absent or empty token gives no identity and verifies nothing;
      any other token is verified under the access-token secret. */
  function GetAuth(env: Env, verify: Verifier, token: string): (r: Result<Option<Identity>, Fault>)
    ensures token == "" ==> r == Success(None)
    ensures token != "" ==> match VerifyUser(env.accessSecret, verify, token)
                              case Success(u) => r == Success(Some(u))
                              case Failure(f) => r == Failure(f)
  {
    if token == "" then Success(None)
    else
      match VerifyUser(env.accessSecret, verify, token)
      case Success(u) => Success(Some(u))
      case Failure(f) => Failure(f)
  }

  // ---------------------------------------------------------------------------
  // Issuing
  // ---------------------------------------------------------------------------

  const AccessLifetimeSeconds: nat := 15 * 60            // '15m'
  const RefreshLifetimeSeconds: nat := 7 * 24 * 60 * 60  // '7d'
  const LegacyLifetimeSeconds: nat := 4 * 60 * 60        // '4h'

  datatype TokenPair = TokenPair(accessToken: string, refreshToken: string)

  /** `createJwtTokens`: fails with JWT_TOKEN_MISSING, issuing nothing, when either
      secret is missing; otherwise signs the same payload twice, with the access
      secret for 15 minutes and with the refresh secret for 7 days. */
  function CreateJwtTokens(env: Env, sign: Signer, payload: Identity, nowSeconds: int): (r: Result<TokenPair, Fault>)
    ensures r.Failure? <==> !Configured(env.accessSecret) || !Configured(env.refreshSecret)
    ensures r.Failure? ==> r.error == Coded(JwtTokenMissing)
    ensures r.Success? ==> r.value.accessToken == sign(payload, env.accessSecret.value, AccessLifetimeSeconds, nowSeconds)
    ensures r.Success? ==> r.value.refreshToken == sign(payload, env.refreshSecret.value, RefreshLifetimeSeconds, nowSeconds)
  {
    if !Configured(env.accessSecret) || !Configured(env.refreshSecret) then
      Failure(Coded(JwtTokenMissing))
    else
      Success(TokenPair(
        sign(payload, env.accessSecret.value, AccessLifetimeSeconds, nowSeconds),
        sign(payload, env.refreshSecret.value, RefreshLifetimeSeconds, nowSeconds)))
  }

  // ---------------------------------------------------------------------------
  // Cookies
  // ---------------------------------------------------------------------------

  const AccessCookie: string := "access_token"
  const RefreshCookie: string := "refresh_token"
  const CookiePath: string := "/graphql"

  /** One `res.cookie` or `res.clearCookie` call. */
  datatype CookieOp =
    | SetCookie(name: string, value: string, httpOnly: bool, secure: bool, sameSite: string, maxAgeMs: int, path: string)
    | ClearCookie(name: string, path: string)

  /** `setCookies`: both cookies are http-only, not secure, `lax`, on `/graphql`,
      and live exactly as long as the token they carry. */
  function SetCookies(tokens: TokenPair): (ops: seq<CookieOp>)
    ensures |ops| == 2 && ops[0].SetCookie? && ops[1].SetCookie?
    ensures ops[0].name == AccessCookie && ops[0].value == tokens.accessToken
    ensures ops[1].name == RefreshCookie && ops[1].value == tokens.refreshToken
    ensures ops[0].maxAgeMs == AccessLifetimeSeconds * 1000
    ensures ops[1].maxAgeMs == RefreshLifetimeSeconds * 1000
    ensures forall i :: 0 <= i < 2 ==> ops[i].path == CookiePath && ops[i].httpOnly && !ops[i].secure && ops[i].sameSite == "lax"
  {
    [ SetCookie(AccessCookie, tokens.accessToken, true, false, "lax", 15 * 60 * 1000, CookiePath),
      SetCookie(RefreshCookie, tokens.refreshToken, true, false, "lax", 7 * 24 * 60 * 60 * 1000, CookiePath) ]
  }

  /** `resetCookies` */
  function ResetCookies(): seq<CookieOp> {
    [ClearCookie(AccessCookie, CookiePath), ClearCookie(RefreshCookie, CookiePath)]
  }

  /** Resetting clears exactly the cookies that setting writes, on the same path,
      so a browser is left with neither token. */
  lemma ResetUndoesSet(tokens: TokenPair)
    ensures |ResetCookies()| == |SetCookies(tokens)|
    ensures forall i :: 0 <= i < |ResetCookies()| ==>
              ResetCookies()[i].name == SetCookies(tokens)[i].name && ResetCookies()[i].path == SetCookies(tokens)[i].path
  {
  }

  /** Every pair the issuer hands out is delivered in cookies that expire together
      with the token they carry: 15 minutes for the access token and 7 days for
      the refresh token, both on the path that `resetCookies` clears. */
  lemma IssuedTokensFitCookies(env: Env, sign: Signer, payload: Identity, nowSeconds: int)
    requires CreateJwtTokens(env, sign, payload, nowSeconds).Success?
    ensures var pair := CreateJwtTokens(env, sign, payload, nowSeconds).value;
      var ops := SetCookies(pair);
      && ops[0].value == sign(payload, env.accessSecret.value, ops[0].maxAgeMs / 1000, nowSeconds)
      && ops[1].value == sign(payload, env.refreshSecret.value, ops[1].maxAgeMs / 1000, nowSeconds)
      && ops[0].path == ResetCookies()[0].path && ops[1].path == ResetCookies()[1].path
  {
  }
}

=== FILE: users.dfy ===
/** The account resolvers of gqlSchema/resolvers/user.resolver.ts. The caller is
    `context.auth`, the identity `getAuth` produced from the access-token cookie. */
module Users {
  import opened Wrappers
  import opened Errors
  import opened Text
  import opened Tokens
  import opened Guard
  import opened Collections
  import opened Store
  import opened Services
  import FormValidation
  import Sessions

  /** `context.auth` with the role test: NOT_AUTHENTICATED without a token. */
  function Caller(svc: Services, token: string, need: Requirement): (r: Result<Identity, Fault>)
    ensures token == "" ==> r == Failure(Coded(NotAuthenticated))
    ensures r.Success? <==> token != "" && VerifyUser(svc.env.accessSecret, svc.verify, token).Success? && Allows(need, VerifyUser(svc.env.accessSecret, svc.verify, token).value.role)
    ensures r.Success? ==> r.value == VerifyUser(svc.env.accessSecret, svc.verify, token).value
    ensures (token != "" && VerifyUser(svc.env.accessSecret, svc.verify, token).Failure?) ==> r == Failure(VerifyUser(svc.env.accessSecret, svc.verify, token).error)
    ensures (token != "" && VerifyUser(svc.env.accessSecret, svc.verify, token).Success? && !Allows(need, VerifyUser(svc.env.accessSecret, svc.verify, token).value.role)) ==> r == Failure(Coded(WrongUserType))
  {
    Check(ContextPolicy, svc.env.accessSecret, svc.verify, token, need)
  }

  function Field(name: string, kind: string, value: string): FormValidation.Entry {
    FormValidation.Entry(name, kind, FormValidation.Str(value), None, None)
  }

  // ---------------------------------------------------------------------------
  // Queries
  // ---------------------------------------------------------------------------

  /** `users`: every user, for admins. */
  function AllUsers(svc: Services, users: seq<User>, token: string): (r: Result<seq<User>, Fault>)
    ensures r.Success? <==> Caller(svc, token, Only(Admin)).Success?
    ensures r.Failure? ==> r.error == Caller(svc, token, Only(Admin)).error
    ensures r.Success? ==> r.value == users
  {
    match Caller(svc, token, Only(Admin))
    case Failure(f) => Failure(f)
    case Success(_) => Success(users)
  }

  /** `user(id)`: any signed-in user may read any user record; null when absent. */
  function UserQuery(svc: Services, users: seq<User>, token: string, id: string): (r: Result<Option<User>, Fault>)
    ensures r.Success? <==> Caller(svc, token, AnyRole).Success?
    ensures r.Failure? ==> r.error == Caller(svc, token, AnyRole).error
    ensures r.Success? ==> (r.value.Some? <==> exists u :: u in users && u.id == id)
    ensures r.Success? && r.value.Some? ==> r.value.value in users && r.value.value.id == id
  {
    match Caller(svc, token, AnyRole)
    case Failure(f) => Failure(f)
    case Success(_) => Success(UserById(users, id))
  }

  /** `userEmail(id)`: public; USER_NOT_FOUND for an unknown id. */
  function UserEmail(users: seq<User>, id: string): (r: Result<string, Fault>)
    ensures r.Failure? <==> forall u :: u in users ==> u.id != id
    ensures r.Failure? ==> r.error == Coded(UserNotFound)
    ensures r.Success? ==> exists u :: u in users && u.id == id && u.email == r.value
  {
    match UserById(users, id)
    case None => Failure(Coded(UserNotFound))
    case Some(u) => Success(u.email)
  }

  datatype PublicDetails = PublicDetails(firstName: string, lastName: string)

  /** `publicUserDetails(id)`: public; only the names are revealed. */
  function PublicUserDetails(users: seq<User>, id: string): (r: Result<PublicDetails, Fault>)
    ensures r.Failure? <==> forall u :: u in users ==> u.id != id
    ensures r.Failure? ==> r.error == Coded(UserNotFound)
    ensures r.Success? ==> exists u :: u in users && u.id == id && r.value == PublicDetails(u.firstName, u.lastName)
  {
    match UserById(users, id)
    case None => Failure(Coded(UserNotFound))
    case Some(u) => Success(PublicDetails(u.firstName, u.lastName))
  }

  // ---------------------------------------------------------------------------
  // Sign-up and deletion
  // ---------------------------------------------------------------------------

  function SignUpForm(firstName: string, lastName: string, email: string, password: string): seq<FormValidation.Entry> {
    [ Field("firstName", "string", firstName), Field("lastName", "string", lastName),
      Field("email", "email", email), Field("password", "password", password) ]
  }

  predicate EmailTaken(users: seq<User>, email: string) {
    exists u :: u in users && u.email == Lower(email)
  }

  /** A sign-up form passes only with both names, a well-formed email and a
      strong password. */
  lemma SignUpAccepted(firstName: string, lastName: string, email: string, password: string)
    requires FormValidation.ValidateForm(SignUpForm(firstName, lastName, email, password)) == map[]
    ensures firstName != "" && lastName != ""
    ensures FormValidation.ValidEmail(email) && FormValidation.StrongPassword(password)
  {
    var form := SignUpForm(firstName, lastName, email, password);
    FormValidation.ValidateFormEmpty(form);
    assert FormValidation.EntryError(form[0]).None? && FormValidation.EntryError(form[1]).None?;
    assert FormValidation.EntryError(form[2]).None? && FormValidation.EntryError(form[3]).None?;
  }

  /** `createUser`: field errors first (VALIDATION_ERROR with the map), then
      ALREADY_EXISTS when the lower-cased email is taken; otherwise a customer
      with the lower-cased email and the hashed password is appended. */
  function CreateUser(svc: Services, users: seq<User>, firstName: string, lastName: string, email: string, password: string, newId: string)
    : (r: (seq<User>, Result<User, Fault>))
    ensures r.1.Failure? ==> r.0 == users
    ensures (FormValidation.ValidateForm(SignUpForm(firstName, lastName, email, password)) != map[])
              ==> r.1 == Failure(Invalid(FormValidation.ValidateForm(SignUpForm(firstName, lastName, email, password))))
    ensures r.1.Success? ==> !EmailTaken(users, email) && FormValidation.StrongPassword(password)
                             && FormValidation.ValidEmail(email) && firstName != "" && lastName != ""
    ensures (FormValidation.ValidateForm(SignUpForm(firstName, lastName, email, password)) == map[] && EmailTaken(users, email))
              ==> r == (users, Failure(Coded(AlreadyExists)))
    ensures r.1.Success? <==> FormValidation.ValidateForm(SignUpForm(firstName, lastName, email, password)) == map[]
                              && !EmailTaken(users, email)
    ensures r.1.Success? ==> r.0 == users + [r.1.value]
    ensures r.1.Success? ==> r.1.value == User(newId, firstName, lastName, Lower(email), Some(svc.hash(password)), Customer, None, None, None)
  {
    var errors := FormValidation.ValidateForm(SignUpForm(firstName, lastName, email, password));
    if errors != map[] then (users, Failure(Invalid(errors)))
    else
      SignUpAccepted(firstName, lastName, email, password);
      match FindFirst(users, (u: User) => u.email == Lower(email))
      case Some(_) => (users, Failure(Coded(AlreadyExists)))
      case None =>
        var u := User(newId, firstName, lastName, Lower(email), Some(svc.hash(password)), Customer, None, None, None);
        (users + [u], Success(u))
  }

  /** Emails are unique up to letter case: once an address has signed up, signing
      up again with any capitalisation of it is ALREADY_EXISTS, and the stored
      record satisfies the user schema. */
  lemma SignUpOncePerEmail(svc: Services, users: seq<User>, f1: string, l1: string, e1: string, p1: string, id1: string,
                           f2: string, l2: string, e2: string, p2: string, id2: string)
    requires CreateUser(svc, users, f1, l1, e1, p1, id1).1.Success?
    requires Lower(e1) == Lower(e2)
    requires FormValidation.ValidateForm(SignUpForm(f2, l2, e2, p2)) == map[]
    ensures ValidUser(CreateUser(svc, users, f1, l1, e1, p1, id1).1.value)
    ensures CreateUser(svc, CreateUser(svc, users, f1, l1, e1, p1, id1).0, f2, l2, e2, p2, id2).1 == Failure(Coded(AlreadyExists))
  {
    var after := CreateUser(svc, users, f1, l1, e1, p1, id1).0;
    assert after[|after| - 1].email == Lower(e2);
  }

  /** A customer who has just signed up can log in with the same email, in any
      capitalisation, and password, provided the password check accepts the
      stored hash of that password. */
  lemma SignUpThenLogIn(svc: Services, users: seq<User>, f: string, l: string, e: string, p: string, id: string,
                        e2: string, nowSeconds: int)
    requires CreateUser(svc, users, f, l, e, p, id).1.Success?
    requires svc.compare(p, svc.hash(p))
    requires Lower(e2) == Lower(e) && FormValidation.ValidEmail(e2)
    ensures var after := CreateUser(svc, users, f, l, e, p, id).0;
      Sessions.LogInUser(svc, after, e2, p, nowSeconds) == Sessions.StartSession(svc, after, Identity(Customer, id), nowSeconds)
  {
    var r := CreateUser(svc, users, f, l, e, p, id);
    LoginFormAccepted(e2, p);
    FindsOnlyNewcomer(users, r.1.value, Lower(e2));
  }

  lemma LoginFormAccepted(email: string, password: string)
    requires FormValidation.ValidEmail(email) && FormValidation.StrongPassword(password)
    ensures FormValidation.ValidateForm(Sessions.LoginForm(email, password)) == map[]
  {
    var form := Sessions.LoginForm(email, password);
    FormValidation.OtherKindsPass(form[1]);
    assert FormValidation.EntryError(form[0]).None?;
    FormValidation.ValidateFormEmpty(form);
  }

  /** Looking an email up after appending the only user with that email finds
      that user. */
  lemma FindsOnlyNewcomer(users: seq<User>, u: User, email: string)
    requires u.email == email && !(exists x :: x in users && x.email == email)
    ensures FindFirst(users + [u], (x: User) => x.email == email) == Some(u)
  {
    var after := users + [u];
    assert after[|users|] == u;
    var found := FindFirst(after, (x: User) => x.email == email);
    assert found.Some? && found.value in after;
  }

  /** `deleteUser(id)`: any signed-in user may delete any user; USER_NOT_FOUND for
      an unknown id. */
  function DeleteUser(svc: Services, users: seq<User>, token: string, id: string): (r: (seq<User>, Result<bool, Fault>))
    ensures r.1.Failure? ==> r.0 == users
    ensures Caller(svc, token, AnyRole).Failure? ==> r.1 == Failure(Caller(svc, token, AnyRole).error)
    ensures (Caller(svc, token, AnyRole).Success? && forall u :: u in users ==> u.id != id) ==> r.1 == Failure(Coded(UserNotFound))
    ensures r.1.Success? <==> Caller(svc, token, AnyRole).Success? && exists u :: u in users && u.id == id
    ensures r.1.Success? ==> r.1.value && UserById(users, id).Some? && |r.0| == |users| - 1
                             && multiset(r.0) + multiset{UserById(users, id).value} == multiset(users)
  {
    match Caller(svc, token, AnyRole)
    case Failure(f) => (users, Failure(f))
    case Success(_) =>
      match UserById(users, id)
      case None => (users, Failure(Coded(UserNotFound)))
      case Some(u) =>
        var i := IndexOf(users, (x: User) => x.id == id).value;
        assert users == users[..i] + [u] + users[i + 1..];
        (RemoveFirst(users, (x: User) => x.id == id), Success(true))
  }

  /** With unique ids, a deleted user can no longer be read or looked up. */
  lemma DeletedUserGone(svc: Services, users: seq<User>, token: string, id: string)
    requires DeleteUser(svc, users, token, id).1.Success?
    requires forall i, j :: 0 <= i < |users| && 0 <= j < |users| && users[i].id == users[j].id ==> i == j
    ensures var after := DeleteUser(svc, users, token, id).0;
      && UserQuery(svc, after, token, id) == Success(None)
      && UserEmail(after, id) == Failure(Coded(UserNotFound))
  {
    RemoveFirstGone(users, (x: User) => x.id == id);
  }

  // ---------------------------------------------------------------------------
  // Address and account
  // ---------------------------------------------------------------------------

  function AddressForm(a: Address): seq<FormValidation.Entry> {
    [ Field("street", "string", a.street), Field("city", "string", a.city), Field("state", "string", a.state),
      FormValidation.Entry("postcode", "string", FormValidation.Str(a.postcode), None, Some(false)),
      Field("country", "string", a.country) ]
  }

  /** `updateAddress`: admins only, and it writes the caller's own record. Field
      errors, then USER_NOT_FOUND; the address is returned when the update
      modified the record and null when it was already that address. */
  function UpdateAddress(svc: Services, users: seq<User>, token: string, a: Address): (r: (seq<User>, Result<Option<Address>, Fault>))
    ensures r.1.Failure? ==> r.0 == users
    ensures Caller(svc, token, Only(Admin)).Failure? ==> r.1 == Failure(Caller(svc, token, Only(Admin)).error)
    ensures (Caller(svc, token, Only(Admin)).Success? && FormValidation.ValidateForm(AddressForm(a)) != map[])
              ==> r == (users, Failure(Invalid(FormValidation.ValidateForm(AddressForm(a)))))
    ensures (Caller(svc, token, Only(Admin)).Success? && FormValidation.ValidateForm(AddressForm(a)) == map[]
             && UserById(users, Caller(svc, token, Only(Admin)).value.id).None?)
              ==> r == (users, Failure(Coded(UserNotFound)))
    ensures r.1.Success? <==> (Caller(svc, token, Only(Admin)).Success? && FormValidation.ValidateForm(AddressForm(a)) == map[]
                               && UserById(users, Caller(svc, token, Only(Admin)).value.id).Some?)
    ensures r.1.Success? ==> Caller(svc, token, Only(Admin)).Success?
                             && a.street != "" && a.city != "" && a.state != "" && a.country != ""
    ensures r.1.Success? ==> var id := Caller(svc, token, Only(Admin)).value.id;
      && UserById(users, id).Some?
      && (r.1.value.Some? <==> UserById(users, id).value.address != Some(a))
      && (r.1.value.Some? ==> r.1.value.value == a)
      && r.0 == UpdateUser(users, id, (u: User) => u.(address := Some(a)))
  {
    match Caller(svc, token, Only(Admin))
    case Failure(f) => (users, Failure(f))
    case Success(auth) =>
      var errors := FormValidation.ValidateForm(AddressForm(a));
      if errors != map[] then (users, Failure(Invalid(errors)))
      else
        FormValidation.ValidateFormEmpty(AddressForm(a));
        assert FormValidation.EntryError(AddressForm(a)[0]).None? && FormValidation.EntryError(AddressForm(a)[1]).None?;
        assert FormValidation.EntryError(AddressForm(a)[2]).None? && FormValidation.EntryError(AddressForm(a)[4]).None?;
        match UserById(users, auth.id)
        case None => (users, Failure(Coded(UserNotFound)))
        case Some(u) =>
          var after := UpdateUser(users, auth.id, (x: User) => x.(address := Some(a)));
          (after, Success(if u.address != Some(a) then Some(a) else None))
  }

  /** Saving the same address twice: the second save modifies nothing and
      returns null. */
  lemma UpdateAddressTwice(svc: Services, users: seq<User>, token: string, a: Address)
    requires UpdateAddress(svc, users, token, a).1.Success?
    ensures var after := UpdateAddress(svc, users, token, a).0;
      UpdateAddress(svc, after, token, a).1 == Success(None)
  {
    var id := Caller(svc, token, Only(Admin)).value.id;
    UpdateUserEffect(users, id, (u: User) => u.(address := Some(a)), id);
  }

  /** An empty postcode is accepted; an empty street is reported. */
  lemma PostcodeOptional(a: Address)
    requires a.street != "" && a.city != "" && a.state != "" && a.country != "" && a.postcode == ""
    ensures FormValidation.ValidateForm(AddressForm(a)) == map[]
  {
    FormValidation.ValidateFormEmpty(AddressForm(a));
  }

  function AccountForm(firstName: string, lastName: string, email: string): seq<FormValidation.Entry> {
    [Field("firstName", "string", firstName), Field("lastName", "string", lastName), Field("email", "email", email)]
  }

  /** `updateAccount`: admins only, on the caller's own record; only the names
      and the email change, and the email is stored as typed (not lower-cased). */
  function UpdateAccount(svc: Services, users: seq<User>, token: string, firstName: string, lastName: string, email: string)
    : (r: (seq<User>, Result<User, Fault>))
    ensures r.1.Failure? ==> r.0 == users
    ensures Caller(svc, token, Only(Admin)).Failure? ==> r.1 == Failure(Caller(svc, token, Only(Admin)).error)
    ensures (Caller(svc, token, Only(Admin)).Success?
             && FormValidation.ValidateForm(AccountForm(firstName, lastName, email)) != map[])
              ==> r == (users, Failure(Invalid(FormValidation.ValidateForm(AccountForm(firstName, lastName, email)))))
    ensures (Caller(svc, token, Only(Admin)).Success?
             && FormValidation.ValidateForm(AccountForm(firstName, lastName, email)) == map[]
             && UserById(users, Caller(svc, token, Only(Admin)).value.id).None?)
              ==> r == (users, Failure(Coded(UserNotFound)))
    ensures r.1.Success? <==> (Caller(svc, token, Only(Admin)).Success?
                               && FormValidation.ValidateForm(AccountForm(firstName, lastName, email)) == map[]
                               && UserById(users, Caller(svc, token, Only(Admin)).value.id).Some?)
    ensures r.1.Success? ==> Caller(svc, token, Only(Admin)).Success? && FormValidation.ValidEmail(email)
    ensures r.1.Success? ==> var id := Caller(svc, token, Only(Admin)).value.id;
      && UserById(users, id).Some?
      && r.1.value == UserById(users, id).value.(firstName := firstName, lastName := lastName, email := email)
      && r.0 == UpdateUser(users, id, (u: User) => u.(firstName := firstName, lastName := lastName, email := email))
  {
    match Caller(svc, token, Only(Admin))
    case Failure(f) => (users, Failure(f))
    case Success(auth) =>
      var errors := FormValidation.ValidateForm(AccountForm(firstName, lastName, email));
      if errors != map[] then (users, Failure(Invalid(errors)))
      else
        FormValidation.ValidateFormEmpty(AccountForm(firstName, lastName, email));
        assert FormValidation.EntryError(AccountForm(firstName, lastName, email)[2]).None?;
        match UserById(users, auth.id)
        case None => (users, Failure(Coded(UserNotFound)))
        case Some(u) =>
          var edit := (x: User) => x.(firstName := firstName, lastName := lastName, email := email);
          (UpdateUser(users, auth.id, edit), Success(edit(u)))
  }

  /** The record the account update returns is what a read of the caller's id
      then gives; every other id reads as before. */
  lemma UpdateAccountThenRead(svc: Services, users: seq<User>, token: string, firstName: string, lastName: string, email: string, other: string)
    requires UpdateAccount(svc, users, token, firstName, lastName, email).1.Success?
    ensures var r := UpdateAccount(svc, users, token, firstName, lastName, email);
      var id := Caller(svc, token, Only(Admin)).value.id;
      && UserQuery(svc, r.0, token, id) == Success(Some(r.1.value))
      && (other != id ==> UserById(r.0, other) == UserById(users, other))
  {
    var id := Caller(svc, token, Only(Admin)).value.id;
    UpdateUserEffect(users, id, (u: User) => u.(firstName := firstName, lastName := lastName, email := email), other);
  }
}

=== FILE: wishlists.dfy ===
/** The wish-list resolvers of both revisions (gqlSchema/resolvers/wishList.resolver.ts
    and schema/resolvers/wishList.resolver.ts). Both are for customers only; the
    cookie revision reads `context.auth`, the header revision verifies the raw
    token with the signing secret. A save replaces the user's list wholesale,
    creating it when there is none. */
module WishLists {
  import opened Wrappers
  import opened Errors
  import opened Tokens
  import opened Guard
  import opened Collections
  import opened Store
  import opened Services

  /** The customer check of either revision. */
  function Customer(rev: Revision, svc: Services, token: string): (r: Result<Identity, Fault>)
    ensures token == "" ==> r == Failure(if rev.Cookie? then Coded(NotAuthenticated) else Coded(JwtTokenMissing))
    ensures r.Success? ==> r.value.role == Tokens.Customer
    ensures rev.Cookie? ==> r == Check(ContextPolicy, svc.env.accessSecret, svc.verify, token, Only(Tokens.Customer))
    ensures rev.Header? ==> r == Check(TokenPolicy, svc.env.jwtSecret, svc.verify, token, Only(Tokens.Customer))
  {
    if rev.Cookie? then Check(ContextPolicy, svc.env.accessSecret, svc.verify, token, Only(Tokens.Customer))
    else Check(TokenPolicy, svc.env.jwtSecret, svc.verify, token, Only(Tokens.Customer))
  }

  function OfUser(userId: string): WishList -> bool {
    (w: WishList) => w.userId == userId
  }

  /** `wishListByUserId`: after the customer check, an empty user id is
      INPUT_ERROR and a user without a list is NOT_FOUND. Any customer may read
      any user's list. */
  function WishListByUserId(rev: Revision, svc: Services, lists: seq<WishList>, token: string, userId: string): (r: Result<WishList, Fault>)
    ensures Customer(rev, svc, token).Failure? ==> r == Failure(Customer(rev, svc, token).error)
    ensures (Customer(rev, svc, token).Success? && userId == "") ==> r == Failure(Coded(InputError))
    ensures (Customer(rev, svc, token).Success? && userId != "" && forall w :: w in lists ==> w.userId != userId)
              ==> r == Failure(Coded(NotFound))
    ensures (Customer(rev, svc, token).Success? && userId != "" && exists w :: w in lists && w.userId == userId)
              ==> r == Success(FindFirst(lists, OfUser(userId)).value)
    ensures r.Success? ==> r.value in lists && r.value.userId == userId
  {
    match Customer(rev, svc, token)
    case Failure(f) => Failure(f)
    case Success(_) =>
      if userId == "" then Failure(Coded(InputError))
      else
        match FindFirst(lists, OfUser(userId))
        case None => Failure(Coded(NotFound))
        case Some(w) => Success(w)
  }

  /** The upsert of `findOneAndUpdate(..., {new: true, upsert: true})`: the first
      list of the user gets the products; without one a list is appended. */
  function Upsert(lists: seq<WishList>, userId: string, products: seq<string>, newId: string): (r: (seq<WishList>, WishList))
    ensures r.1.userId == userId && r.1.products == products
    ensures FindFirst(r.0, OfUser(userId)) == Some(r.1)
    ensures forall w :: w in lists && w.userId != userId ==> w in r.0
    ensures forall w :: w in r.0 && w.userId != userId ==> w in lists
    ensures |r.0| == if exists w :: w in lists && w.userId == userId then |lists| else |lists| + 1
  {
    match IndexOf(lists, OfUser(userId))
    case Some(i) =>
      var w := lists[i].(products := products);
      var after := lists[i := w];
      assert forall j :: 0 <= j < i ==> after[j] == lists[j];
      assert OfUser(userId)(after[i]);
      assert IndexOf(after, OfUser(userId)) == Some(i);
      assert forall x :: x in lists && x.userId != userId ==> x in after by {
        forall x | x in lists && x.userId != userId
          ensures x in after
        {
          var k :| 0 <= k < |lists| && lists[k] == x;
          assert after[k] == x;
        }
      }
      (after, w)
    case None =>
      var w := WishList(newId, userId, products);
      var after := lists + [w];
      assert after[|lists|] == w;
      assert forall j :: 0 <= j < |lists| ==> after[j] == lists[j];
      assert IndexOf(after, OfUser(userId)) == Some(|lists|);
      (after, w)
  }

  /** `addToWishList`: after the customer check, the user's list holds exactly the
      given products, replacing what it held; the saved list is returned. The
      user id comes from the input, so a customer may overwrite any user's list. */
  function AddToWishList(rev: Revision, svc: Services, lists: seq<WishList>, token: string, userId: string, products: seq<string>, newId: string)
    : (r: (seq<WishList>, Result<WishList, Fault>))
    ensures r.1.Success? <==> Customer(rev, svc, token).Success?
    ensures r.1.Failure? ==> r.0 == lists && r.1.error == Customer(rev, svc, token).error
    ensures r.1.Success? ==> r.1.value.userId == userId && r.1.value.products == products
                             && FindFirst(r.0, OfUser(userId)) == Some(r.1.value)
    ensures r.1.Success? ==> |r.0| == if exists w :: w in lists && w.userId == userId then |lists| else |lists| + 1
    ensures r.1.Success? ==> forall w :: w in lists && w.userId != userId ==> w in r.0
    ensures r.1.Success? ==> forall w :: w in r.0 && w.userId != userId ==> w in lists
  {
    match Customer(rev, svc, token)
    case Failure(f) => (lists, Failure(f))
    case Success(_) =>
      var (after, w) := Upsert(lists, userId, products, newId);
      (after, Success(w))
  }

  /** Saving the same list twice leaves the store as the first save left it and
      returns the same list, whatever id an insert would have used. */
  lemma {:induction false} AddTwiceIdempotent(rev: Revision, svc: Services, lists: seq<WishList>, token: string, userId: string,
                                             products: seq<string>, id1: string, id2: string)
    ensures var once := AddToWishList(rev, svc, lists, token, userId, products, id1);
      AddToWishList(rev, svc, once.0, token, userId, products, id2) == once
  {
    var once := AddToWishList(rev, svc, lists, token, userId, products, id1);
    if once.1.Success? {
      var after := once.0;
      var i := IndexOf(after, OfUser(userId)).value;
      assert after[i] == once.1.value;
      assert after[i := after[i].(products := products)] == after;
    }
  }

  /** A non-empty user id reads back exactly what was saved for it. */
  lemma AddThenRead(rev: Revision, svc: Services, lists: seq<WishList>, token: string, userId: string, products: seq<string>, newId: string)
    requires userId != ""
    requires AddToWishList(rev, svc, lists, token, userId, products, newId).1.Success?
    ensures var r := AddToWishList(rev, svc, lists, token, userId, products, newId);
      WishListByUserId(rev, svc, r.0, token, userId) == r.1
  {
  }
}

=== FILE: wrappers.dfy ===
/** Failure-compatible wrappers used by every operation of the model: an
    absent value, and a value-or-fault outcome standing for a resolver that
    either returns or throws. */
module Wrappers {

  datatype Option<+T> = None | Some(value: T) {
    function GetOr(default: T): T {
      match this
      case Some(v) => v
      case None => default
    }
  }

  datatype Result<+R, +E> = Success(value: R) | Failure(error: E) {
    predicate IsFailure() {
      Failure?
    }

    function PropagateFailure<U>(): Result<U, E>
      requires Failure?
    {
      Failure(error)
    }

    function Extract(): R
      requires Success?
    {
      value
    }
  }
}
